=== FILE: README.md ===
# AlarmCompanyManager core in Dafny

This project models the business core of AlarmCompanyManager. The application is a desktop
program that an alarm company uses to keep its customers, their contacts and security
systems, work orders with their line items, technicians, communicators and nine lookup
tables (customer, contact, panel, monitoring, device and communicator types, work-order
types, categories and statuses).

The model covers two layers:

- **The services.** `CustomerService`, `WorkOrderService` and `SettingsService` become pure
  functions from a database value (`Models.Db`, one `map` from primary key to row per table)
  to an `Outcome`: the database afterwards, and either the returned value or the exception
  thrown (`NotFound`, `InUse`, `DuplicateNumber`). Deletes are soft: they clear `isActive`.
  Every list query returns the active rows in the order its `OrderBy` chain asks for. The
  sort is a stable insertion sort over ordinal string comparison.
- **The screens.** The customer, work-order, settings and dashboard view models become
  datatypes (the bound list, the selection, the form, the edit flags). Each command is a
  function that returns the next screen together with the next database.

The work-order number generator is modelled twice:

- as written, with ordinal string maximum, `int.TryParse` and `ToString("D4")`;
- as evidently intended, with a numeric maximum.

The work-order service uses the first, as the code does, so a blank-number create can fail
on a repeated number; see "## Findings". The second backs a separate corrected create,
`WorkOrders.CreateIntended`.

The modules follow the program:

- `Models`: entities, the database and the seeded rows.
- `Customers`, `WorkOrders`, `Settings`: the three services.
- `Numbering`: work-order numbers.
- `Validation`: `ValidationHelper`.
- `CustomerScreen`, `WorkOrderScreen`, `SettingsScreen`, `Dashboard`: the four view models.

The helper modules write out what .NET supplies:

- `Text`: white space, `Trim`, `ToLower`, `Contains`, ordinal order.
- `Numerals`: `int.TryParse`, `ToString("D4")`, 32-bit wrap-around.
- `Sorting`: a stable `OrderBy`/`ThenBy`, `Where`, `Take`.
- `Tables`: identity keys, `Count`.
- `Calendar`: days, midnight, the first of the month.
- `Lists`: `ObservableCollection` edits.
- `Results`: `Option` and `Result`.

Representation choices:

- Time is an integer number of seconds. `DateTime.Today` is a day number, and its midnight
  is `StartOfDay(today)`.
- The clock is a parameter, `Calendar.Clock`.
- `decimal` is `real`.
- A null string is the empty string. Every use in the core goes through `IsNullOrWhiteSpace`
  or a null-guarded `Contains`, so the two behave alike.

## Model

| member | source | states |
|---|---|---|
| Models.SeedDb | Data/AlarmCompanyContext.cs:154-231 | The freshly created database holds only seeded lookup rows. Each row is active and stored under its own id. The database is well keyed and its work-order numbers are unique. |
| Models.SeedTable | Data/AlarmCompanyContext.cs:154-231 | Every seeded row of a lookup table has its key as id, has the shape that table holds, and is active. |
| Models.TypeTable | Data/AlarmCompanyContext.cs:157-213 | A name-and-description table seeded from a list has ids exactly 1..n, and row k carries the k-th name and description. |
| Tables.NextId | Services/CustomerService.cs:69-70 | An identity key assigned on insert is fresh: it is not a key of the table yet. |
| Tables.CountWhere | ViewModels/DashboardViewModel.cs:178-182 | `Count(predicate)` is the length of `Where(predicate)`. It never exceeds the list length, and is zero exactly when no element satisfies the predicate. |
| Tables.CountPermutation | ViewModels/DashboardViewModel.cs:199-221 | A count does not depend on the order of the list: two lists with the same elements give the same count. |
| Tables.FilterFilter | ViewModels/DashboardViewModel.cs:224-228 | Filtering by one test and then by another is filtering by both at once. |
| Tables.CountRows | ViewModels/DashboardViewModel.cs:177-221 | Counting a table's rows counts the keys whose row passes, one per key. |
| Tables.CountSelect | ViewModels/DashboardViewModel.cs:199-221 | Counting the result of a query counts the keys whose row the query keeps and the test passes. |
| Tables.SelectSize | ViewModels/DashboardViewModel.cs:177-200 | A query returns one row per key it keeps. |
| Tables.CountDisjoint | ViewModels/DashboardViewModel.cs:203-221 | Two counts over predicates that never hold together add up to at most the list length. |
| Tables.CountMonotone | ViewModels/DashboardViewModel.cs:210-221 | Counting under a weaker predicate never gives less. |
| Customers.GetAll | Services/CustomerService.cs:17-35 | Lists exactly the active customers, sorted by last name and then first name. |
| Customers.CountAll | Services/CustomerService.cs:17-35 | Counting the full list counts the active customers that pass, one per key; the list holds one row per active customer. |
| Customers.GetById | Services/CustomerService.cs:37-58 | Finds the stored customer exactly when that id exists and the customer is active. |
| Customers.ByType | Services/CustomerService.cs:195-214 | Lists exactly the active customers of that type, in name order. |
| Customers.Create | Services/CustomerService.cs:60-80 | Always succeeds. The customer is stored active, stamped now, under a fresh id, and nothing else changes. |
| Customers.Update | Services/CustomerService.cs:82-123 | An unknown id throws and leaves the database alone. Otherwise the edited fields are taken from the input while id, creation date and activity are kept, and the modification time is now. |
| Customers.Delete | Services/CustomerService.cs:125-154 | Returns whether the id exists. When it does, only that customer is deactivated and stamped. |
| Customers.Search | Services/CustomerService.cs:156-193 | A blank term lists everyone. Otherwise it lists exactly the active customers whose lowered names, company, email, street or city contain the lowered, trimmed term, or whose zip code or phones contain it as stored. The result is in name order. |
| Customers.PhoneSearchIsCaseSensitive | Services/CustomerService.cs:162-186 | Phones and zip code are not lowered, but the term is. So a term beginning with a letter never matches a phone stored without small letters. |
| Customers.DeleteKeepsDependents | Services/CustomerService.cs:125-154 | Deleting a customer leaves its contacts, security systems and work orders untouched. |
| Customers.DeleteHides | Services/CustomerService.cs:125-154 | After a delete the customer is no longer found by id, listed, or returned by any search. |
| Customers.CreateThenGet | Services/CustomerService.cs:60-80 | A created customer is found by its new id and appears in the full list. |
| Customers.GetContacts | Services/CustomerService.cs:218-236 | Lists exactly the customer's active contacts, sorted by contact-type name and then by name. |
| Customers.AddContact | Services/CustomerService.cs:238-263 | The contact is stored active and stamped, under a fresh id. |
| Customers.UpdateContact | Services/CustomerService.cs:265-301 | An unknown id throws with the database unchanged. Otherwise name, phones, email and type come from the input, while the contact keeps its id, customer, creation date and flag. |
| Customers.DeleteContact | Services/CustomerService.cs:303-330 | Returns whether the id exists, and deactivates only that contact. |
| Customers.DeleteContactHides | Services/CustomerService.cs:303-330 | A deleted contact drops out of its customer's contact list. |
| Customers.GetSystems | Services/CustomerService.cs:336-361 | Lists exactly the customer's active security systems, oldest first. |
| Customers.AddSystem | Services/CustomerService.cs:363-386 | The system is stored active and stamped, under a fresh id. |
| Customers.UpdateSystem | Services/CustomerService.cs:388-433 | An unknown id throws with the database unchanged. Otherwise the input's fields are taken, while the system's identity, customer, creation date and activity are kept. |
| Customers.DeleteSystem | Services/CustomerService.cs:435-464 | Returns whether the id exists. Only that system is deactivated and stamped. |
| Customers.DeleteSystemHides | Services/CustomerService.cs:435-464 | A deleted system drops out of its customer's system list. |
| WorkOrders.GetAll | Services/WorkOrderService.cs:17-37 | Lists exactly the active orders, newest first. |
| WorkOrders.GetById | Services/WorkOrderService.cs:39-58 | Finds the stored order exactly when the id exists and the order is active. |
| WorkOrders.GetByNumber | Services/WorkOrderService.cs:60-79 | Finds an active order with that number, and finds none exactly when no active order carries it. |
| WorkOrders.AllNumbers | Services/WorkOrderService.cs:357-360 | The generator sees the numbers of all orders, soft-deleted ones included. |
| WorkOrders.InsertNumbered | Services/WorkOrderService.cs:96-97 | Inserting under a number succeeds exactly when no order, active or deleted, already has it. Otherwise the unique index throws and the database is unchanged. The stored row has a fresh id, the number, is active and stamped now, and keeps every other field of the input. |
| WorkOrders.Create | Services/WorkOrderService.cs:81-110 | A given number is kept. A blank number is replaced by what the generator as written returns. The create succeeds exactly when that number is not yet used by any order, active or deleted. Otherwise the unique index throws and the database is unchanged. The stored row has a fresh id, is active, is stamped now, and keeps every other field of the input. |
| WorkOrders.CreateIntended | Services/WorkOrderService.cs:81-110 | The corrected create: a blank number is replaced by one past the highest serial of the year, so a blank-number create always succeeds. |
| WorkOrders.CreateAgreesBelow9999 | Services/WorkOrderService.cs:91-94 | While every number of the year is `WO<year>-dddd` below 9999, the create as written equals the corrected create, and a blank-number create succeeds. |
| WorkOrders.CreateBlankFailsAfter10000 | Services/WorkOrderService.cs:91-101 | Once `WO<year>-9999` is the greatest number as a string and `WO<year>-10000` exists, a blank-number create throws the duplicate-number error and leaves the database unchanged, while the corrected create succeeds. |
| WorkOrders.CountAll | Services/WorkOrderService.cs:17-37 | Counting the full list counts the active orders that pass, one per key; the list holds one row per active order. |
| WorkOrders.CreateKeepsKeys | Services/WorkOrderService.cs:81-110 | Create keeps every row stored under its own key. |
| WorkOrders.CreateKeepsNumbersUnique | Data/AlarmCompanyContext.cs:139-142 | Create preserves the unique index on work-order numbers. |
| WorkOrders.CreateThenGet | Services/WorkOrderService.cs:81-110 | A created order is found by id and by number, and appears in the full list. |
| WorkOrders.Update | Services/WorkOrderService.cs:112-156 | An unknown id throws with the database unchanged. Otherwise the form's fields and the status are taken as given, with no transition rule. Id, number, customer, creator, creation date and activity are kept, and the modification time is now. |
| WorkOrders.UpdatePreserves | Services/WorkOrderService.cs:112-156 | Update keeps keys in place and numbers unique. |
| WorkOrders.UpdateKeepsDeletedHidden | Services/WorkOrderService.cs:118-141 | The lookup ignores `IsActive`, so updating a soft-deleted order succeeds. The order still stays hidden. |
| WorkOrders.Delete | Services/WorkOrderService.cs:158-187 | Returns whether the id exists. When it does, only that order is deactivated and stamped. |
| WorkOrders.DeleteHides | Services/WorkOrderService.cs:158-187 | A deleted order is no longer found by id, by number, or in the full list. |
| WorkOrders.DeleteIdempotent | Services/WorkOrderService.cs:164-177 | Deleting an order again at the same moment returns true and changes nothing. |
| WorkOrders.DeletePreserves | Services/WorkOrderService.cs:158-187 | Delete keeps keys in place and numbers unique. |
| WorkOrders.Search | Services/WorkOrderService.cs:189-225 | A blank term gives the full list. Otherwise it lists exactly the active orders whose lowered number, description, notes, customer's names or company, or technician's names contain the lowered, trimmed term, newest first. |
| WorkOrders.SearchTermNotEmpty | Services/WorkOrderService.cs:195-216 | Once blank terms are excluded, the lowered, trimmed term is never empty. |
| WorkOrders.SearchWithinAll | Services/WorkOrderService.cs:189-225 | Every search result is an order of the full list. |
| WorkOrders.ByCustomer | Services/WorkOrderService.cs:227-248 | Lists exactly that customer's active orders, newest first. |
| WorkOrders.ByTechnician | Services/WorkOrderService.cs:250-272 | Lists exactly that technician's active orders, by scheduled date and then start time. |
| WorkOrders.ByStatus | Services/WorkOrderService.cs:274-295 | Lists exactly the active orders in that status, newest first. |
| WorkOrders.ByDateRange | Services/WorkOrderService.cs:297-322 | Lists exactly the active orders scheduled on a day from the start's day to the end's day inclusive, in schedule order. |
| WorkOrders.ScheduledOn | Services/WorkOrderService.cs:324-348 | Lists exactly the active orders scheduled on that date's day, by start time and then technician last name. |
| WorkOrders.OneDayRange | Services/WorkOrderService.cs:309-314 | A range whose start and end are the same date holds the same orders as that date's schedule. |
| WorkOrders.ReversedRangeEmpty | Services/WorkOrderService.cs:309-314 | A range ending on an earlier day than it starts is empty. |
| WorkOrders.GetItems | Services/WorkOrderService.cs:384-400 | Lists exactly the order's active items, oldest first. |
| WorkOrders.AddItem | Services/WorkOrderService.cs:402-422 | The item is stored active and stamped, under a fresh id. |
| WorkOrders.UpdateItem | Services/WorkOrderService.cs:424-454 | An unknown id throws with the database unchanged. Otherwise description, quantity, price, part number and notes come from the input and the rest is kept. |
| WorkOrders.DeleteItem | Services/WorkOrderService.cs:456-483 | Returns whether the id exists, and deactivates only that item. |
| WorkOrders.AddItemListed | Services/WorkOrderService.cs:402-422 | An added item appears in its order's item list. |
| WorkOrders.DeleteItemUnlisted | Services/WorkOrderService.cs:456-483 | A deleted item no longer appears in its order's item list. |
| Numbering.LexMax | Services/WorkOrderService.cs:357-360 | The greatest string in ordinal order: it is present, and no other element sorts above it. |
| Numbering.GenerateAsWritten | Services/WorkOrderService.cs:350-380 | The generator as written always yields a number that starts with `WO`. With no number of the year yet, it yields `WO<year>-0001`. |
| Numbering.GenerateNext | Services/WorkOrderService.cs:367-371 | When the greatest number of the year is `p-dddd` below 9999, the next number is `p-` followed by dddd+1 in four digits. |
| Numbering.GenerateAdvances | Services/WorkOrderService.cs:357-371 | In that case the new number sorts after every existing number of the year, so it is new. |
| Numbering.GenerateBarePrefix | Services/WorkOrderService.cs:367-379 | When the bare prefix is the only number of the year, `Substring` throws and the timestamp fallback is returned. |
| Numbering.GenerateUnparsable | Services/WorkOrderService.cs:367-373 | For every list: when the greatest number's suffix does not parse, the generator restarts at `-0001`. |
| Numbering.GenerateUnparsableCollides | Services/WorkOrderService.cs:367-373 | One witness list, `-0001` and `-x`: the restart issues `-0001` although it is already taken. |
| Numbering.GenerateParsed | Services/WorkOrderService.cs:367-371 | When the suffix parses to n, the number is the prefix, a hyphen, and n+1 (with 32-bit wrap) formatted with `D4`. |
| Numbering.GenerateAfterLast9999 | Services/WorkOrderService.cs:367-371 | Whenever `p-9999` is the greatest number of the year, the generator issues the five-digit `p-10000`. |
| Numbering.GenerateRepeats10000 | Services/WorkOrderService.cs:357-371 | With `p-9999` and `p-10000` both present, the generator issues `p-10000` again, because `p-9999` sorts last as a string. |
| Numbering.CanonicalOrder | Services/WorkOrderService.cs:357-360 | For four-digit numbers of one year, string order and numeric order agree. |
| Numbering.MaxSerial | Services/WorkOrderService.cs:357-371 | The highest serial among the year's numbers: no serial exceeds it, and it is attained unless it is 0. |
| Numbering.NextNumber | Services/WorkOrderService.cs:350-373 | The corrected rule. Its serial is one past the highest serial of the year, so it is above every existing serial and is not already taken. |
| Numbering.NextNumberFirst | Services/WorkOrderService.cs:362-365 | With no number of the year yet, both rules start at `-0001`. |
| Numbering.NextNumberAgrees | Services/WorkOrderService.cs:357-371 | When all numbers of the year have four digits and the highest is below 9999, the generator as written and the corrected rule give the same number. |
| Numbering.MaxSerialOfGreatest | Services/WorkOrderService.cs:357-360 | Among four-digit numbers, the greatest as a string carries the highest serial. |
| Numerals.Wrap32 | Services/WorkOrderService.cs:370 | `int` addition wraps into the 32-bit range, leaving in-range results unchanged. |
| Numerals.FormatD | Services/WorkOrderService.cs:370 | `ToString("D4")`: a minus sign exactly for negatives, followed by digits whose value is the magnitude. |
| Numerals.PadOrder | Services/WorkOrderService.cs:359-370 | Zero-padded numerals of one width sort as strings in numeric order. |
| Numerals.TryParseInt32 | Services/WorkOrderService.cs:368 | `int.TryParse` yields only values in the 32-bit range. |
| Numerals.ParseFormatD | Services/WorkOrderService.cs:368-370 | Parsing what `D` formatting wrote gives back the number. |
| Numerals.ParseRejectsBlank | Services/WorkOrderService.cs:368 | White space alone does not parse. |
| Validation.IsValidZipCode | Utilities/ValidationHelper.cs:21-24 | Valid exactly when the text is not blank and has the form of five digits, optionally followed by a hyphen and four digits. |
| Validation.ZipShapeIff | Utilities/ValidationHelper.cs:9 | The zip-code test holds exactly for five digits, or five digits, a hyphen and four digits. |
| Validation.IsValidPhoneNumber | Utilities/ValidationHelper.cs:16-19 | Valid exactly when the text is not blank and is at least ten characters drawn from digits, white space, `-`, `(`, `)`, `+` and `.`. |
| Validation.PhoneNeedsNoDigits | Utilities/ValidationHelper.cs:8 | Ten hyphens pass as a phone number, although they hold no digit. |
| Validation.IsValidEmail | Utilities/ValidationHelper.cs:11-14 | Valid exactly when the text is not blank and has a local part, `@`, a domain, a dot and at least two letters, each from its allowed characters. |
| Validation.EmailShapeIff | Utilities/ValidationHelper.cs:7 | The email shape holds exactly when the split at the first `@` and the last dot meets the pattern. |
| Validation.CleanPhoneNumber | Utilities/ValidationHelper.cs:45-49 | Keeps exactly the digits of the input, in order. |
| Validation.CleanIdempotent | Utilities/ValidationHelper.cs:45-49 | Cleaning twice is cleaning once. |
| Validation.FormatPhoneNumber | Utilities/ValidationHelper.cs:31-43 | Blank text becomes empty. Ten digits become `(ddd) ddd-dddd`, fourteen characters with the digits in order. Eleven digits starting with 1 become `+1 (ddd) ddd-dddd` with the last ten digits in order. Any other text is returned unchanged. |
| Validation.CleanFormat | Utilities/ValidationHelper.cs:31-49 | Formatting keeps the digits: cleaning a formatted number gives the same digits as cleaning the original. |
| Validation.FormattedIsValidPhone | Utilities/ValidationHelper.cs:33-41 | A number with ten digits, or eleven digits starting with 1, formats to text that passes the phone test. |
| Settings.GetLookups | Services/SettingsService.cs:19-33 | Lists exactly the active rows of one lookup table in that table's order: by name, by manufacturer then model for panel types, by sort order for statuses. |
| Settings.StatusesInSortOrder | Services/SettingsService.cs:733-747 | The statuses list ascends by sort order. |
| Settings.AddLookup | Services/SettingsService.cs:35-49 | Always succeeds. The row is stored active under a fresh id, whatever flag it came with, and only that lookup table changes. |
| Settings.UpdateLookup | Services/SettingsService.cs:51-73 | An unknown id throws with the database unchanged. Otherwise the editable fields and the active flag are copied as given, so in a well-keyed database the stored row is exactly the input. |
| Settings.DeleteLookup | Services/SettingsService.cs:75-102 | The same contract holds for all nine `Delete<Kind>Async` methods. An unknown id gives false with no change. An id used by an active dependent row throws `InUse` with no change. Otherwise the row is deactivated and true is returned. |
| Settings.DeleteLookupHides | Services/SettingsService.cs:75-102 | A successful delete removes the row from its own list and leaves every other lookup list as it was. |
| Settings.DeleteLookupIdempotent | Services/SettingsService.cs:79-95 | The lookup ignores `IsActive`, so deleting an unused row a second time returns true again and changes nothing. |
| Settings.InactiveReferencesDoNotBlock | Services/SettingsService.cs:84-91 | Customers that are soft-deleted never block deleting their customer type. |
| Settings.UpdateBypassesGuard | Services/SettingsService.cs:51-102 | Update can deactivate a row that delete refuses to touch. |
| Settings.AddLookupListed | Services/SettingsService.cs:35-49 | An added row appears in its table's list. |
| Settings.GetTechnicians | Services/SettingsService.cs:824-839 | Lists exactly the active technicians, by last name and then first name. |
| Settings.GetTechnicianById | Services/SettingsService.cs:841-853 | Finds the stored technician exactly when the id exists and the technician is active. |
| Settings.AddTechnician | Services/SettingsService.cs:855-870 | The technician is stored active and stamped, under a fresh id. |
| Settings.UpdateTechnician | Services/SettingsService.cs:872-901 | An unknown id throws with the database unchanged. Otherwise every field but the id and creation date is copied. |
| Settings.DeleteTechnician | Services/SettingsService.cs:903-932 | An unknown id gives false. An active order of the technician that is neither completed nor canceled throws `InUse`. Otherwise the technician is deactivated. |
| Settings.FinishedWorkDoesNotBlock | Services/SettingsService.cs:913-920 | Completed and canceled orders never keep a technician from being deleted, and the deleted technician is no longer found. |
| Settings.GetCommunicators | Services/SettingsService.cs:938-955 | Lists exactly the active communicators, by type name, manufacturer and model. |
| Settings.AddCommunicator | Services/SettingsService.cs:957-978 | The communicator is stored active and stamped, under a fresh id. |
| Settings.UpdateCommunicator | Services/SettingsService.cs:980-1016 | An unknown id throws with the database unchanged. Otherwise every field but the id and creation date is copied. |
| Settings.DeleteCommunicator | Services/SettingsService.cs:1018-1046 | An unknown id gives false. Use by an active security system, as primary or secondary, throws `InUse`. Otherwise the communicator is deactivated. |
| Settings.SecondaryUseBlocks | Services/SettingsService.cs:1028-1034 | Use as a secondary communicator blocks a delete, just as primary use does. |
| CustomerScreen.IsValid | ViewModels/CustomerViewModel.cs:446-498 | A valid form has both names, street, city and state given and a well-formed zip code. Email and phones are well formed whenever they are given. |
| CustomerScreen.ValidIff | ViewModels/CustomerViewModel.cs:446-498 | A form is valid exactly when both names, street, city and state are given, the zip code is well formed, and each of email and the three phones is blank or well formed. |
| CustomerScreen.ValidWithoutContactDetails | ViewModels/CustomerViewModel.cs:451-489 | Without email and phones, the form is valid exactly when the required fields are given and the zip code is well formed. |
| CustomerScreen.DisplayName | ViewModels/CustomerViewModel.cs:549-559 | The display name contains "First Last". It is exactly that without a company. With a company, it is the company, then ` (`, then "First Last", then `)`, and nothing else. |
| CustomerScreen.Address | ViewModels/CustomerViewModel.cs:561-566 | The address is the street, `, `, the city, `, `, the state, a space and the zip code, and nothing else. |
| CustomerScreen.PrepareForNew | ViewModels/CustomerViewModel.cs:220-245 | A new form takes the first listed customer type, or 1. Creating is on, editing is off, nothing is selected, and the form can be edited but neither deleted nor saved. |
| CustomerScreen.Select | ViewModels/CustomerViewModel.cs:504-523 | Outside editing the form follows the selection. While editing it stays. |
| CustomerScreen.StartEditing | ViewModels/CustomerViewModel.cs:247-289 | The form becomes a copy of the selection, with editing on. Without a selection nothing changes. |
| CustomerScreen.Save | ViewModels/CustomerViewModel.cs:291-347 | An invalid form or a failed update changes nothing. A new customer is appended. An updated one replaces the first listed customer with its id. The saved customer is selected and both flags are cleared. |
| CustomerScreen.SaveNewListed | ViewModels/CustomerViewModel.cs:291-347 | A newly saved customer is also listed by the service. |
| CustomerScreen.Cancel | ViewModels/CustomerViewModel.cs:349-374 | Cancel discards a new form and makes an edit fall back to the selection. Both flags are cleared. |
| CustomerScreen.EditCancelRoundTrip | ViewModels/CustomerViewModel.cs:247-374 | Editing and then cancelling gives back the screen showing the selection. |
| CustomerScreen.Delete | ViewModels/CustomerViewModel.cs:376-422 | Without a selection or a confirmation nothing happens. When the service deletes the customer, it leaves the list and the selection and form are cleared; otherwise nothing changes. |
| WorkOrderScreen.IsOverdue | ViewModels/WorkOrderViewModel.cs:998-1004 | Overdue exactly when the order is scheduled on a day before today and is neither completed nor canceled. |
| WorkOrderScreen.IsValid | ViewModels/WorkOrderViewModel.cs:794-815 | A valid form has customer, description, type, category and status. An order dated in the past must be completed, so a valid order is never overdue. |
| WorkOrderScreen.ValidIff | ViewModels/WorkOrderViewModel.cs:794-815 | A form is valid exactly when customer, description, type, category and status are given and the order is undated, dated from today on, or completed. |
| WorkOrderScreen.PastCompletedValid | ViewModels/WorkOrderViewModel.cs:808-815 | A completed order with the required fields is valid whatever its date. |
| WorkOrderScreen.PastCanceledInvalid | ViewModels/WorkOrderViewModel.cs:794-815 | A canceled order dated in the past cannot be saved, although it is finished. |
| WorkOrderScreen.FutureAlwaysValid | ViewModels/WorkOrderViewModel.cs:794-815 | With the required fields given and no date in the past, every status is accepted. |
| WorkOrderScreen.GetUpcoming | ViewModels/WorkOrderViewModel.cs:1153-1163 | Holds exactly the listed unfinished orders scheduled on a day after today and no later than today+days, in ascending scheduled order. |
| WorkOrderScreen.UpcomingNotOverdue | ViewModels/WorkOrderViewModel.cs:1153-1163 | An upcoming order is never overdue, and a non-positive window is empty. |
| WorkOrderScreen.Truncate | ViewModels/WorkOrderViewModel.cs:974 | The `(int)` cast on a decimal rounds toward zero. |
| WorkOrderScreen.Rem | ViewModels/WorkOrderViewModel.cs:975-977 | C# `%` keeps the sign of the dividend and is consistent with truncating division. |
| WorkOrderScreen.FormatDuration | ViewModels/WorkOrderViewModel.cs:970-982 | No value shows "N/A". Any value shows minutes ending in `m`. |
| WorkOrderScreen.FormatDurationReadsBack | ViewModels/WorkOrderViewModel.cs:970-982 | For a non-negative duration, the text reads back as hours and minutes (under 60) that give the truncated total minutes. |
| WorkOrderScreen.NegativeDurationDropsHours | ViewModels/WorkOrderViewModel.cs:970-982 | A negative duration shows only its remainder minutes: minus ninety minutes shows as "-30m". |
| WorkOrderScreen.ItemsTotal | ViewModels/WorkOrderViewModel.cs:960-963 | The total of the line items is non-negative when quantities and prices are. |
| WorkOrderScreen.ItemsTotalAppend | ViewModels/WorkOrderViewModel.cs:960-963 | The total over two lists of items is the sum of their totals. |
| WorkOrderScreen.PrepareForNew | ViewModels/WorkOrderViewModel.cs:312-341 | A new form is unscheduled, created by the user, with creating on and nothing selected. The form can be edited, but the order can be neither deleted nor given items. |
| WorkOrderScreen.NewFormNotSavable | ViewModels/WorkOrderViewModel.cs:318-331 | A freshly prepared form cannot be saved until a customer and a description are entered. |
| WorkOrderScreen.Select | ViewModels/WorkOrderViewModel.cs:830-851 | Outside editing the form follows the selection. While editing it stays. |
| WorkOrderScreen.StartEditing | ViewModels/WorkOrderViewModel.cs:343-390 | The form becomes a copy of the selection without its modification date, with editing on. |
| WorkOrderScreen.Save | ViewModels/WorkOrderViewModel.cs:392-448 | An invalid form changes nothing. A new order goes through the service's create as written, an edited one through update. A failed create or update, including a duplicate generated number, leaves the screen and the database unchanged. After a save the saved order is selected and both flags are cleared. |
| WorkOrderScreen.SaveEnablesDelete | ViewModels/WorkOrderViewModel.cs:432-433 | After a save the order can be deleted and the form is no longer editable. |
| WorkOrderScreen.SaveNewBlankNumber | ViewModels/WorkOrderViewModel.cs:392-448 | While every number of the year is `WO<year>-dddd` below 9999, a new order saved with a blank number is stored and listed first. |
| WorkOrderScreen.SaveNewBlankAfter10000 | ViewModels/WorkOrderViewModel.cs:392-448 | Once `WO<year>-10000` exists and `WO<year>-9999` is the greatest number as a string, saving a new order with a blank number fails and leaves the screen and the database unchanged. |
| WorkOrderScreen.Cancel | ViewModels/WorkOrderViewModel.cs:450-477 | Cancel discards a new form and makes an edit fall back to the selection. Both flags are cleared. |
| WorkOrderScreen.Delete | ViewModels/WorkOrderViewModel.cs:479-526 | Without a selection or a confirmation nothing happens. When the service deletes the order, it leaves the list and the selection is cleared. |
| WorkOrderScreen.UpdateStatus | ViewModels/WorkOrderViewModel.cs:1115-1139 | Without a selection nothing happens. Otherwise the selected order gets the new status, and completing stamps the completion date. The same change reaches the list entry of that order, and, outside editing, the form that shows it. While editing, the form keeps its values. The edit flags stay. |
| WorkOrderScreen.CompleteStopsOverdue | ViewModels/WorkOrderViewModel.cs:1121-1127 | A completed order is no longer overdue. |
| SettingsScreen.StartAdding | ViewModels/SettingsViewModel.cs:653-657 | Adding starts from a fresh form with editing on. List and selection stay. |
| SettingsScreen.StartEditing | ViewModels/SettingsViewModel.cs:659-672 | The form becomes a copy of the selection, with editing on. |
| SettingsScreen.Cancel | ViewModels/SettingsViewModel.cs:713-717 | Editing is off and the form is new and empty. List and selection stay. |
| SettingsScreen.Upsert | ViewModels/SettingsViewModel.cs:1087-1102 | A new row is appended. An updated row replaces the first row with its id, and the list is unchanged when no row has that id. |
| SettingsScreen.UpsertLandsInPlace | ViewModels/SettingsViewModel.cs:1094-1101 | An updated row lands where its id first appears, and is then listed. |
| SettingsScreen.Dropped | ViewModels/SettingsViewModel.cs:1136-1140 | After a delete the first occurrence of the row leaves the list and nothing is selected. |
| SettingsScreen.AddingLookup | ViewModels/SettingsViewModel.cs:1444-1453 | A new status takes sort order count + 1, with the default colour. That is last only while no listed status has a larger sort order. |
| SettingsScreen.SaveCall | ViewModels/SettingsViewModel.cs:1087-1102 | A form with id 0 is added and never fails. Any other id is updated, which fails exactly when the id is unknown. |
| SettingsScreen.SaveLookup | ViewModels/SettingsViewModel.cs:1067-1113 | A form missing its name (or a panel's manufacturer or model) changes nothing, and so does a failed service call. Otherwise the list is patched, the saved row is selected and editing ends. After an add the form is the saved row with its new id, because the service stamps and returns the form object itself. After an update the form stays as sent. |
| SettingsScreen.SaveAgainUpdates | ViewModels/SettingsViewModel.cs:1088-1101 | Saving a new type twice stores it once. The first save leaves a non-zero id on the form, so the second save updates that row in place: the list keeps one extra row and the table is unchanged. |
| SettingsScreen.SaveNewLookupListed | ViewModels/SettingsViewModel.cs:1080-1105 | Adding a type grows its list by exactly the saved row, which the service lists too. |
| SettingsScreen.SaveStatusKeepsCount | ViewModels/SettingsViewModel.cs:1503-1509 | Saving an edited status keeps the list's length: re-sorting only moves rows. |
| SettingsScreen.DeleteLookupRow | ViewModels/SettingsViewModel.cs:1115-1148 | Without a selection or a confirmation nothing happens. The row leaves the list exactly when the service deletes it; otherwise nothing changes. |
| SettingsScreen.NewTechnician | ViewModels/SettingsViewModel.cs:1029-1033 | A new technician form is active, has no hire date, and is not complete. |
| SettingsScreen.AddingTechnician | ViewModels/SettingsViewModel.cs:946-955 | A technician being added is hired today. |
| SettingsScreen.SaveTechnician | ViewModels/SettingsViewModel.cs:980-1027 | A form without both names, or with a malformed email, changes nothing. A new technician is added, and the form becomes the saved row with its new id and creation date. An existing one is updated. |
| SettingsScreen.BadEmailBlocksSave | ViewModels/SettingsViewModel.cs:984-999 | A malformed email blocks the save even when both names are given. |
| SettingsScreen.DeleteTechnicianRow | ViewModels/SettingsViewModel.cs:1035-1060 | A technician leaves the list exactly when the service deletes them, that is when no open work holds them. |
| SettingsScreen.AddingCommunicator | ViewModels/SettingsViewModel.cs:1542-1551 | A communicator being added takes the first listed communicator type, or 1. |
| SettingsScreen.SaveCommunicator | ViewModels/SettingsViewModel.cs:1577-1614 | Without a chosen type nothing is saved. A new communicator is added, and the form becomes the saved row with its new id. An existing one is updated. |
| SettingsScreen.CancelledCommunicatorNotSaved | ViewModels/SettingsViewModel.cs:1581-1586 | A cancelled communicator form cannot be saved until a type is chosen again. |
| SettingsScreen.DeleteCommunicatorRow | ViewModels/SettingsViewModel.cs:1622-1652 | A communicator leaves the list exactly when the service deletes it, that is when no active system uses it. |
| SettingsScreen.EditSaveRoundTrip | ViewModels/SettingsViewModel.cs:659-711 | Editing a row and saving it unchanged gives back the same list, with the row selected. |
| Dashboard.TotalCustomers | ViewModels/DashboardViewModel.cs:177-178 | The count is the number of active customers, one per key. It is zero exactly when no customer is active. |
| Dashboard.NewCustomers | ViewModels/DashboardViewModel.cs:180-182 | The count is the number of active customers created since midnight of the first of the month. It is at most the total, and zero exactly when there is none. |
| Dashboard.TotalWorkOrders | ViewModels/DashboardViewModel.cs:199-200 | The count is the number of active orders, one per key. It is zero exactly when no order is active. |
| Dashboard.PendingCount | ViewModels/DashboardViewModel.cs:202-207 | The count is the number of active orders whose status is 1 to 4. It is at most the total, and zero exactly when there is none. |
| Dashboard.OverdueCount | ViewModels/DashboardViewModel.cs:209-214 | The count is the number of active orders dated before today and neither completed nor canceled. It is at most the total, and zero exactly when there is none. |
| Dashboard.CompletedCount | ViewModels/DashboardViewModel.cs:216-221 | The count is the number of active orders completed since the first of the month. It is at most the total, and zero exactly when there is none. |
| Dashboard.CostSum | ViewModels/DashboardViewModel.cs:224-229 | A sum of costs is non-negative when the costs are, and zero for no orders. |
| Dashboard.CostSumAppend | ViewModels/DashboardViewModel.cs:224-229 | The sum over two lists is the sum of their sums. |
| Dashboard.BilledOrders | ViewModels/DashboardViewModel.cs:224-228 | Holds exactly the active orders completed this month that carry an actual cost, one entry per such order. |
| Dashboard.MonthlyRevenue | ViewModels/DashboardViewModel.cs:223-229 | Revenue is the sum of the actual costs of the billed orders. It is zero when nothing was completed this month, and non-negative when costs are. |
| Dashboard.CostSumPermutation | ViewModels/DashboardViewModel.cs:224-229 | The sum does not depend on the order of the orders: two lists with the same orders give the same sum. |
| Dashboard.BilledAreCompleted | ViewModels/DashboardViewModel.cs:216-229 | There are no more billed orders than orders completed this month. |
| Dashboard.PendingAndCompletedWithinTotal | ViewModels/DashboardViewModel.cs:200-221 | Pending and completed-this-month orders together are at most the total. |
| Dashboard.OverdueArePending | ViewModels/DashboardViewModel.cs:203-214 | When statuses are the six seeded ones, there are no more overdue orders than pending orders. |
| Dashboard.RecentWorkOrders | ViewModels/DashboardViewModel.cs:243-247 | Shows the five newest orders, or all when there are fewer, newest first. No order left out is newer than one shown. Each loaded order is shown at most as often as it is loaded. Of orders created at the same moment, the ones loaded first are shown, in load order. |
| Dashboard.RecentCustomers | ViewModels/DashboardViewModel.cs:264-268 | Shows the five newest customers, or all when there are fewer, newest first. No customer left out is newer than one shown. Each loaded customer is shown at most as often as it is loaded. Of customers created at the same moment, the ones loaded first are shown, in load order. |
| Dashboard.DueThisWeekMeaning | ViewModels/DashboardViewModel.cs:250-256 | An order is due this week exactly when it is unfinished and dated from today up to the day before today+7, or at midnight of today+7. |
| Dashboard.WeekWindowsDiffer | ViewModels/DashboardViewModel.cs:250-256 | The dashboard's week and the work-order screen's seven-day window differ on exactly two kinds of unfinished orders. The dashboard alone shows orders dated today. The screen alone shows orders dated on day seven after its midnight. |
| Dashboard.UpcomingWorkOrders | ViewModels/DashboardViewModel.cs:249-261 | Shows at most five orders due this week, in schedule order. They are the earliest such orders, and all of them are shown when there are fewer than five. Each loaded order is shown at most as often as it is loaded. |
| Dashboard.ShortListsNoRepeats | ViewModels/DashboardViewModel.cs:243-268 | When the loaded orders and customers have no repeats, none of the three short lists shows a row twice. |
| Dashboard.Load | ViewModels/DashboardViewModel.cs:136-167 | Each count is the number of active rows that pass its test, taken at the clock's today and first of the month, and the revenue is the sum over the billed orders. The figures are consistent: new customers at most the total, pending plus completed at most the total, overdue at most the total, revenue zero when nothing was completed. Each list is at most five long, and an upcoming order is among the recent ones unless the recent list is full. |
| Dashboard.LoadShowsActiveRows | ViewModels/DashboardViewModel.cs:238-268 | Every order and customer the dashboard lists is an active row of the database. |

## Left out

- Asynchrony, Entity Framework, SQL and logging are not modelled. Each service call is one atomic step over the database value. The catch-and-rethrow wrappers are not modelled, since they only log.
- Database failures are not modelled. The only failures modelled are the exceptions the code throws itself, plus the unique-index violation.
- Generating a number and inserting it are not modelled as separate steps. Two concurrent creates could otherwise both read the same greatest number.
- Identity values are modelled as one past the largest key. The gaps a real identity column can leave are not modelled.
- Foreign-key checks on insert and navigation-property loading (`Include`) are not modelled. A lookup name read through a navigation property is `None` when the row is missing.
- Database collation is not modelled. `OrderBy` over strings is ordinal, and `Contains` in SQL is case-sensitive here.
- Unicode is not modelled. White space, digits, letters and `ToLower` cover ASCII only, and `\d` matches only `0`-`9`.
- The regular expressions' `$` accepting a final newline is not modelled.
- `StringLength` limits on the entities are not modelled.
- The screens are not modelled as WPF UI. Property-change notification, commands' `CanExecute` wiring, `IsBusy`, dialogs and navigation are left out. A confirmation is a `confirmed` parameter.
- Objects are compared by value, not by reference. `ObservableCollection.Remove` and `IndexOf` therefore match the first equal row. A create that throws has already written the generated number, creation date and active flag into the caller's object in the source; here the form is left as it was. A successful add in the source stamps and returns the caller's object itself; here the screen's form is replaced by the returned row, which is equal by value.
- The current time is a parameter (`Calendar.Clock`) rather than `DateTime.Now`.
- Culture-dependent formatting is not modelled: currency, dates, `GetTimeAgo`, `GetWorkOrderAge`, and the colour and display-name lookups for statuses, priorities and types.
- `ActiveSecuritySystems` on the dashboard is not modelled. It reads a customer's security systems, and the customer list it uses never loads them.
- `CallListEntry` is not modelled, and neither is the print and schedule placeholders of the work-order screen.
- WorkOrderScreen.FormatDuration: requires the minute count to fit in 32 bits. The `(int)` cast of a larger decimal throws, and that throw is not modelled.
- Numbering.Timestamp: the fallback's digits of date and time are not spelled out. Only the `WO` prefix is stated.

## Findings

| source | as written | input that shows it | evidently intended | confidence | as-written member | corrected member |
|---|---|---|---|---|---|---|
| Services/WorkOrderService.cs:357-371 | The greatest existing number is chosen by string order (`OrderByDescending(WorkOrderNumber)`), and one is added to its suffix. | The year's numbers are `WO2025-9999` and `WO2025-10000`. As strings `WO2025-9999` sorts last, so the generator issues `WO2025-10000` again. The unique index then rejects that create and every later create with a blank number in that year. | One past the highest serial of the year, compared as numbers. | not executed | Numbering.GenerateRepeats10000, WorkOrders.CreateBlankFailsAfter10000 | Numbering.NextNumber, WorkOrders.CreateIntended |

=== FILE: calendar.dfy ===
/** Dates and times. A `DateTime` is an `Instant`, a count of seconds since
    0001-01-01 00:00 (local time); a `TimeSpan` of the day is a count of seconds.
    `DateTime.Now` is a `Clock` holding the civil fields the application reads. */
module Calendar {

  type Instant = int

  const SecondsPerDay: int := 86400

  /** `t.Date` as a day number: the days since 0001-01-01 up to `t`'s midnight. */
  function DayOf(t: Instant): int {
    t / SecondsPerDay
  }

  /** Midnight at the start of day `d`. */
  function StartOfDay(d: int): (t: Instant)
    ensures DayOf(t) == d
  {
    d * SecondsPerDay
  }

  /** `t.Date`: the instant truncated to its midnight. */
  function DateOf(t: Instant): (r: Instant)
    ensures r <= t < r + SecondsPerDay
    ensures DayOf(r) == DayOf(t)
  {
    StartOfDay(DayOf(t))
  }

  /** Comparing an instant with a midnight is comparing days. */
  lemma BeforeMidnight(t: Instant, d: int)
    ensures t < StartOfDay(d) <==> DayOf(t) < d
    ensures StartOfDay(d) <= t <==> d <= DayOf(t)
  {
  }

  /** `t` is at most midnight of day `d` exactly when it is on an earlier day or is that midnight itself. */
  lemma AtMostMidnight(t: Instant, d: int)
    ensures t <= StartOfDay(d) <==> DayOf(t) < d || t == StartOfDay(d)
  {
    BeforeMidnight(t, d);
  }

  predicate IsLeapYear(y: int) {
    y % 4 == 0 && (y % 100 != 0 || y % 400 == 0)
  }

  function DaysInMonth(y: int, m: int): int
    requires 1 <= m <= 12
  {
    if m == 2 then (if IsLeapYear(y) then 29 else 28)
    else if m == 4 || m == 6 || m == 9 || m == 11 then 30
    else 31
  }

  function DaysBeforeMonth(y: int, m: int): int
    requires 1 <= m <= 12
  {
    if m == 1 then 0 else DaysBeforeMonth(y, m - 1) + DaysInMonth(y, m - 1)
  }

  /** The day number of a civil date in the proleptic Gregorian calendar. */
  function DayNumber(y: int, m: int, d: int): int
    requires 1 <= m <= 12
  {
    var p := y - 1;
    365 * p + p / 4 - p / 100 + p / 400 + DaysBeforeMonth(y, m) + d - 1
  }

  /** A local wall-clock reading: the civil fields of a `DateTime`. */
  datatype LocalTime = LocalTime(year: int, month: int, day: int, hour: int, minute: int, second: int) {

    ghost predicate Valid() {
      && 1 <= year <= 9999 && 1 <= month <= 12 && 1 <= day <= DaysInMonth(year, month)
      && 0 <= hour < 24 && 0 <= minute < 60 && 0 <= second < 60
    }

    /** `DateTime.Today` as a day number. */
    function Today(): int
      requires 1 <= month <= 12
    {
      DayNumber(year, month, day)
    }

    /** `DateTime.Now` as an instant. */
    function Now(): (t: Instant)
      requires Valid()
      ensures DayOf(t) == Today()
    {
      StartOfDay(Today()) + 3600 * hour + 60 * minute + second
    }

    /** `DateTime.Now.Date.AddDays(-DateTime.Now.Day + 1)`: midnight of the first of the month. */
    function MonthStart(): (t: Instant)
      requires 1 <= month <= 12
      ensures t == StartOfDay(DayNumber(year, month, 1))
    {
      StartOfDay(Today() - day + 1)
    }
  }

  /** `DateTime.Now`: a reading whose fields are in range. */
  type Clock = c: LocalTime | c.Valid() witness LocalTime(2000, 1, 1, 0, 0, 0)

  /** The first of the month is never later than the current instant. */
  lemma MonthStartNotAfterNow(c: Clock)
    ensures c.MonthStart() <= c.Now()
  {
  }
}

=== FILE: customer_screen.dfy ===
/** The customer screen (`CustomerViewModel`): form validation, the name and address shown
    for a customer, and the edit-mode flags around the customer service. */
module CustomerScreen {
  import opened Results
  import opened Text
  import opened Calendar
  import opened Models
  import opened Validation
  import opened Lists
  import Customers

  // ------------------------------------------------------------ validation

  /** An optional field: empty, or valid by `valid`. */
  predicate Optional(s: string, valid: string -> bool) {
    IsBlank(s) || valid(s)
  }

  /** `IsCurrentCustomerValid`: first and last name, street, city, state and zip code are
      given; email and phones are checked only when given; the zip code must be valid. */
  function IsValid(cu: Customer): (ok: bool)
    ensures ok ==> !IsBlank(cu.firstName) && !IsBlank(cu.lastName) && !IsBlank(cu.street)
                   && !IsBlank(cu.city) && !IsBlank(cu.state)
    ensures ok ==> ZipShape(cu.zipCode)
    ensures ok ==> IsBlank(cu.emailAddress) || EmailShape(cu.emailAddress)
    ensures ok ==> (IsBlank(cu.homePhone) || PhoneShape(cu.homePhone))
                   && (IsBlank(cu.businessPhone) || PhoneShape(cu.businessPhone))
                   && (IsBlank(cu.cellPhone) || PhoneShape(cu.cellPhone))
  {
    && !IsBlank(cu.firstName) && !IsBlank(cu.lastName) && !IsBlank(cu.street)
    && !IsBlank(cu.city) && !IsBlank(cu.state) && !IsBlank(cu.zipCode)
    && Optional(cu.emailAddress, IsValidEmail)
    && Optional(cu.homePhone, IsValidPhoneNumber)
    && Optional(cu.businessPhone, IsValidPhoneNumber)
    && Optional(cu.cellPhone, IsValidPhoneNumber)
    && IsValidZipCode(cu.zipCode)
  }

  /** The blank-zip test is subsumed by the zip-code test: a valid zip code is never blank. */
  lemma ValidZipNotBlank(z: string)
    requires IsValidZipCode(z)
    ensures !IsBlank(z)
  {
  }

  /** The whole rule: a customer is valid exactly when the required fields are given, the
      zip code is well formed, and each contact field is either blank or well formed. */
  lemma ValidIff(cu: Customer)
    ensures IsValid(cu) <==>
      && !IsBlank(cu.firstName) && !IsBlank(cu.lastName) && !IsBlank(cu.street)
      && !IsBlank(cu.city) && !IsBlank(cu.state) && ZipShape(cu.zipCode)
      && (IsBlank(cu.emailAddress) || EmailShape(cu.emailAddress))
      && (IsBlank(cu.homePhone) || PhoneShape(cu.homePhone))
      && (IsBlank(cu.businessPhone) || PhoneShape(cu.businessPhone))
      && (IsBlank(cu.cellPhone) || PhoneShape(cu.cellPhone))
  {
    ZipShapeIff(cu.zipCode);
    if ZipShape(cu.zipCode) {
      ValidZipNotBlank(cu.zipCode);
    }
  }

  /** A customer without email or phones is valid exactly when the required fields are given
      and the zip code is well formed. */
  lemma ValidWithoutContactDetails(cu: Customer)
    requires IsBlank(cu.emailAddress) && IsBlank(cu.homePhone) && IsBlank(cu.businessPhone) && IsBlank(cu.cellPhone)
    ensures IsValid(cu) <==>
      && !IsBlank(cu.firstName) && !IsBlank(cu.lastName) && !IsBlank(cu.street)
      && !IsBlank(cu.city) && !IsBlank(cu.state) && ZipShape(cu.zipCode)
  {
    ZipShapeIff(cu.zipCode);
    if ZipShape(cu.zipCode) {
      ValidZipNotBlank(cu.zipCode);
    }
  }

  // ------------------------------------------------------------ what the screen shows

  /** `GetCustomerDisplayName`: "Company (First Last)" for a company, else "First Last". */
  function DisplayName(cu: Customer): (r: string)
    ensures Contains(r, cu.firstName + " " + cu.lastName)
    ensures IsBlank(cu.companyName) ==> r == cu.firstName + " " + cu.lastName
    ensures !IsBlank(cu.companyName) ==>
      var c, name := cu.companyName, cu.firstName + " " + cu.lastName;
      && |r| == |c| + |name| + 3
      && r[..|c|] == c && r[|c|..|c| + 2] == " (" && r[|c| + 2..|r| - 1] == name && r[|r| - 1] == ')'
  {
    var name := cu.firstName + " " + cu.lastName;
    if !IsBlank(cu.companyName) then
      var r := cu.companyName + " (" + name + ")";
      assert OccursAt(r, name, |cu.companyName| + 2);
      assert r[..|cu.companyName|] == cu.companyName;
      r
    else
      assert OccursAt(name, name, 0);
      name
  }

  /** `GetCustomerAddress`: "Street, City, State Zip". */
  function Address(cu: Customer): (r: string)
    ensures var s, c, st, z := |cu.street|, |cu.city|, |cu.state|, |cu.zipCode|;
      && |r| == s + c + st + z + 5
      && r[..s] == cu.street && r[s..s + 2] == ", "
      && r[s + 2..s + 2 + c] == cu.city && r[s + 2 + c..s + 4 + c] == ", "
      && r[s + 4 + c..s + 4 + c + st] == cu.state && r[s + 4 + c + st] == ' '
      && r[|r| - z..] == cu.zipCode
  {
    cu.street + ", " + cu.city + ", " + cu.state + " " + cu.zipCode
  }

  // ------------------------------------------------------------ the form and its flags

  datatype Screen = Screen(
    customers: seq<Customer>,
    selected: Option<Customer>,
    current: Customer,
    isEdit: bool,
    isNew: bool)
  {
    predicate CanEdit() { isEdit || isNew }
    predicate CanDelete() { selected.Some? && !isNew && !isEdit }
    predicate Exclusive() { !(isEdit && isNew) }
  }

  function CanSave(s: Screen): bool {
    s.CanEdit() && IsValid(s.current)
  }

  datatype Step = Step(screen: Screen, db: Db)

  function CustomerId(cu: Customer): int {
    cu.id
  }

  /** `new Customer()`. */
  function NewCustomer(c: Clock): (cu: Customer)
    ensures cu.id == 0 && cu.isActive && !IsValid(cu)
  {
    Customer(0, "", "", "", "", "", "", "", "", "", "", "", "", 0, None, c.Now(), None, true)
  }

  /** `PrepareForNewCustomer`: the first listed customer type (or 1), creating on, editing
      off, nothing selected. */
  function PrepareForNew(s: Screen, firstTypeId: Option<int>, c: Clock): (r: Screen)
    ensures r.isNew && !r.isEdit && r.selected.None? && r.customers == s.customers
    ensures r.current == NewCustomer(c).(customerTypeId := firstTypeId.GetOr(1))
    ensures r.CanEdit() && !r.CanDelete() && !CanSave(r) && r.Exclusive()
  {
    s.(current := NewCustomer(c).(customerTypeId := firstTypeId.GetOr(1)), isNew := true, isEdit := false, selected := None)
  }

  /** Setting `SelectedCustomer`: outside editing the form follows the selection. Setting
      the same customer again re-copies it here, where `SetProperty` skips an unchanged value;
      the two differ only when the form has drifted from the selection. */
  function Select(s: Screen, cu: Option<Customer>): (r: Screen)
    ensures r.selected == cu && r.customers == s.customers && r.isEdit == s.isEdit && r.isNew == s.isNew
    ensures cu.Some? && !s.CanEdit() ==> r.current == cu.value
    ensures s.CanEdit() || cu.None? ==> r.current == s.current
  {
    if cu.Some? && !s.isEdit && !s.isNew then s.(selected := cu, current := cu.value) else s.(selected := cu)
  }

  /** `StartEditingCustomer`: the form becomes a copy of every field of the selection. */
  function StartEditing(s: Screen): (r: Screen)
    ensures s.selected.None? ==> r == s
    ensures s.selected.Some? ==> r.current == s.selected.value && r.isEdit && !r.isNew
    ensures r.selected == s.selected && r.customers == s.customers
    ensures s.Exclusive() ==> r.Exclusive()
  {
    if s.selected.None? then s else s.(current := s.selected.value, isEdit := true, isNew := false)
  }

  /** `SaveCustomerAsync`: an invalid form or a service error changes nothing; a new customer
      is appended, an updated one replaces the first listed customer with its id; the saved
      customer is selected and both flags are cleared. */
  function Save(s: Screen, db: Db, c: Clock): (r: Step)
    ensures !IsValid(s.current) ==> r == Step(s, db)
    ensures r.screen != s ==> !r.screen.isEdit && !r.screen.isNew && r.screen.selected.Some? && r.screen.CanDelete()
    ensures IsValid(s.current) && s.isNew ==>
      var o := Customers.Create(db, s.current, c);
      r.screen.customers == s.customers + [o.result.value] && r.screen.selected == Some(o.result.value) && r.db == o.db
    ensures IsValid(s.current) && !s.isNew ==>
      var o := Customers.Update(db, s.current, c);
      (o.result.Ok? ==> r.screen.customers == ReplaceFirst(s.customers, SameId(CustomerId, o.result.value), o.result.value)
                        && r.screen.selected == Some(o.result.value) && r.db == o.db)
      && (o.result.Err? ==> r == Step(s, db))
  {
    if !IsValid(s.current) then Step(s, db)
    else if s.isNew then
      var o := Customers.Create(db, s.current, c);
      var saved := o.result.value;
      Step(s.(customers := s.customers + [saved], selected := Some(saved), current := saved, isEdit := false, isNew := false), o.db)
    else
      var o := Customers.Update(db, s.current, c);
      if o.result.Err? then Step(s, db)
      else
        var saved := o.result.value;
        Step(s.(customers := ReplaceFirst(s.customers, SameId(CustomerId, saved), saved), selected := Some(saved),
                isEdit := false, isNew := false), o.db)
  }

  /** A saved new customer is listed by the service too. */
  lemma SaveNewListed(s: Screen, db: Db, c: Clock)
    requires s.isNew && IsValid(s.current)
    ensures var r := Save(s, db, c);
      r.screen.selected.Some? && r.screen.selected.value in Customers.GetAll(r.db)
  {
    var o := Customers.Create(db, s.current, c);
    assert o.db.customers[o.result.value.id] == o.result.value;
  }

  /** `CancelEditing`: a new form is discarded, an edit falls back to the selection; both
      flags are cleared and the list and selection stay. */
  function Cancel(s: Screen, c: Clock): (r: Screen)
    ensures !r.isEdit && !r.isNew && r.customers == s.customers && r.selected == s.selected
    ensures s.isNew ==> r.current == NewCustomer(c)
    ensures !s.isNew && s.selected.Some? ==> r.current == s.selected.value
    ensures !s.isNew && s.selected.None? ==> r.current == s.current
  {
    var cu := if s.isNew then NewCustomer(c) else if s.selected.Some? then s.selected.value else s.current;
    s.(current := cu, isEdit := false, isNew := false)
  }

  /** Editing and cancelling gives back the form it started from. */
  lemma EditCancelRoundTrip(s: Screen, c: Clock)
    requires s.selected.Some? && !s.CanEdit()
    ensures Cancel(StartEditing(s), c) == s.(current := s.selected.value)
  {
  }

  /** `DeleteCustomerAsync`: without a selection or a confirmation nothing happens; when the
      service deletes the customer it leaves the list, and the selection and form are cleared. */
  function Delete(s: Screen, db: Db, confirmed: bool, c: Clock): (r: Step)
    ensures s.selected.None? || !confirmed ==> r == Step(s, db)
    ensures s.selected.Some? && confirmed ==>
      (r.screen.selected.None? <==> s.selected.value.id in db.customers)
    ensures r.screen.selected.Some? ==> r == Step(s, db)
    ensures r.screen.selected.None? && s.selected.Some? ==>
      && r.screen.customers == RemoveFirst(s.customers, s.selected.value) && r.screen.current == NewCustomer(c)
      && r.db == Customers.Delete(db, s.selected.value.id, c).db
  {
    if s.selected.None? || !confirmed then Step(s, db)
    else
      var o := Customers.Delete(db, s.selected.value.id, c);
      if o.result == Ok(true) then
        Step(s.(customers := RemoveFirst(s.customers, s.selected.value), selected := None, current := NewCustomer(c)), o.db)
      else Step(s, db)
  }
}

=== FILE: customers.dfy ===
/** `CustomerService`: customers, their contacts and their security systems.
    The same pattern as the other services: reads skip soft-deleted rows,
    updates copy the editable fields, deletes clear the active flag. */
module Customers {
  import opened Results
  import opened Text
  import opened Numerals
  import opened Sorting
  import opened Tables
  import opened Calendar
  import opened Models

  // ------------------------------------------------------------ customers

  /** `OrderBy(c => c.LastName).ThenBy(c => c.FirstName)`. */
  const ByName: (Customer, Customer) -> bool :=
    ThenBy(ByText((c: Customer) => c.lastName), ByText((c: Customer) => c.firstName))

  lemma ByNameTotal()
    ensures TotalPreorder(ByName)
  {
    ByTextTotal((c: Customer) => c.lastName);
    ByTextTotal((c: Customer) => c.firstName);
    ThenByTotal(ByText((c: Customer) => c.lastName), ByText((c: Customer) => c.firstName));
  }

  /** Sorted by last name, and by first name among equal last names. */
  predicate NameOrdered(r: seq<Customer>) {
    && (forall i, j :: 0 <= i < j < |r| ==> LexLe(r[i].lastName, r[j].lastName))
    && (forall i, j :: 0 <= i < j < |r| && r[i].lastName == r[j].lastName ==> LexLe(r[i].firstName, r[j].firstName))
  }

  /** A list sorted by `ByName` is in name order. */
  lemma NameOrderedFromSort(r: seq<Customer>)
    requires SortedBy(r, ByName)
    ensures NameOrdered(r)
  {
    forall i, j | 0 <= i < j < |r|
      ensures LexLe(r[i].lastName, r[j].lastName)
      ensures r[i].lastName == r[j].lastName ==> LexLe(r[i].firstName, r[j].firstName)
    {
      assert ByName(r[i], r[j]);
    }
  }

  /** `GetAllCustomersAsync`: the active customers by name. */
  function GetAll(db: Db): (r: seq<Customer>)
    ensures forall c :: c in r <==> c in db.customers.Values && c.isActive
    ensures NameOrdered(r)
  {
    ByNameTotal();
    var r := Select(db.customers, Live, ByName);
    NameOrderedFromSort(r);
    r
  }

  /** Not soft-deleted. */
  predicate Live(c: Customer) {
    c.isActive
  }

  /** Counting the full list counts the active customers that pass, one per key. */
  lemma CountAll(db: Db, p: Customer -> bool)
    ensures CountWhere(GetAll(db), p) == |KeysWhere(db.customers, Both(Live, p))|
    ensures |GetAll(db)| == |KeysWhere(db.customers, Live)|
  {
    CountSelect(db.customers, Live, ByName, p);
    SelectSize(db.customers, Live, ByName);
  }

  /** `GetCustomerByIdAsync`: a soft-deleted customer is not found. */
  function GetById(db: Db, id: int): (r: Option<Customer>)
    ensures r.Some? <==> id in db.customers && db.customers[id].isActive
    ensures r.Some? ==> r.value == db.customers[id]
  {
    if id in db.customers && db.customers[id].isActive then Some(db.customers[id]) else None
  }

  /** `GetCustomersByTypeAsync`: active customers of one type, by name. */
  function ByType(db: Db, customerTypeId: int): (r: seq<Customer>)
    ensures forall c :: c in r <==> c in db.customers.Values && c.isActive && c.customerTypeId == customerTypeId
    ensures NameOrdered(r)
  {
    ByNameTotal();
    var r := Select(db.customers, (c: Customer) => c.isActive && c.customerTypeId == customerTypeId, ByName);
    NameOrderedFromSort(r);
    r
  }

  /** `CreateCustomerAsync`: stamped and active, under a fresh id. */
  function Create(db: Db, cu: Customer, c: Clock): (o: Outcome<Customer>)
    ensures o.result.Ok?
    ensures var added := o.result.value;
      && added.id !in db.customers
      && added == cu.(id := added.id, createdDate := c.Now(), isActive := true)
      && o.db == db.(customers := db.customers[added.id := added])
  {
    var id := NextId(db.customers);
    var added := cu.(id := id, createdDate := c.Now(), isActive := true);
    Outcome(db.(customers := db.customers[id := added]), Ok(added))
  }

  /** `UpdateCustomerAsync`: the input's fields are taken, except that the id, creation
      date and active flag are kept and the modification date is stamped. */
  function Update(db: Db, cu: Customer, c: Clock): (o: Outcome<Customer>)
    ensures o.result.Err? <==> cu.id !in db.customers
    ensures o.result.Err? ==> o.db == db && o.result.error == NotFound(cu.id)
    ensures o.result.Ok? ==>
      var e := db.customers[cu.id];
      && o.result.value == cu.(id := e.id, createdDate := e.createdDate, isActive := e.isActive, modifiedDate := Some(c.Now()))
      && o.db == db.(customers := db.customers[cu.id := o.result.value])
  {
    if cu.id !in db.customers then Outcome(db, Err(NotFound(cu.id)))
    else
      var e := db.customers[cu.id];
      var updated := e.(
        companyName := cu.companyName, firstName := cu.firstName, lastName := cu.lastName,
        street := cu.street, city := cu.city, state := cu.state, zipCode := cu.zipCode,
        county := cu.county, emailAddress := cu.emailAddress, homePhone := cu.homePhone,
        businessPhone := cu.businessPhone, cellPhone := cu.cellPhone,
        customerTypeId := cu.customerTypeId, linkedCustomerId := cu.linkedCustomerId,
        modifiedDate := Some(c.Now()));
      Outcome(db.(customers := db.customers[cu.id := updated]), Ok(updated))
  }

  /** `DeleteCustomerAsync`: a soft delete of the customer alone. */
  function Delete(db: Db, id: int, c: Clock): (o: Outcome<bool>)
    ensures o.result == Ok(id in db.customers)
    ensures id !in db.customers ==> o.db == db
    ensures id in db.customers ==>
      o.db == db.(customers := db.customers[id := db.customers[id].(isActive := false, modifiedDate := Some(c.Now()))])
  {
    if id !in db.customers then Outcome(db, Ok(false))
    else
      var e := db.customers[id];
      Outcome(db.(customers := db.customers[id := e.(isActive := false, modifiedDate := Some(c.Now()))]), Ok(true))
  }

  /** Where `SearchCustomersAsync` looks for the term: names, company, email, street and
      city lowered; zip code and phones as stored. */
  predicate SearchMatch(cu: Customer, term: string) {
    || Contains(ToLower(cu.firstName), term) || Contains(ToLower(cu.lastName), term)
    || Contains(ToLower(cu.companyName), term) || Contains(ToLower(cu.emailAddress), term)
    || Contains(ToLower(cu.street), term) || Contains(ToLower(cu.city), term)
    || Contains(cu.zipCode, term)
    || Contains(cu.homePhone, term) || Contains(cu.businessPhone, term) || Contains(cu.cellPhone, term)
  }

  /** `SearchCustomersAsync`: a blank term lists everyone; otherwise the active customers
      matching `searchTerm.ToLower().Trim()`, by name. */
  function Search(db: Db, searchTerm: string): (r: seq<Customer>)
    ensures IsBlank(searchTerm) ==> r == GetAll(db)
    ensures !IsBlank(searchTerm) ==>
      forall cu :: cu in r <==> cu in db.customers.Values && cu.isActive && SearchMatch(cu, Trim(ToLower(searchTerm)))
    ensures NameOrdered(r)
  {
    if IsBlank(searchTerm) then GetAll(db)
    else
      var term := Trim(ToLower(searchTerm));
      ByNameTotal();
      var r := Select(db.customers, (cu: Customer) => cu.isActive && SearchMatch(cu, term), ByName);
      NameOrderedFromSort(r);
      r
  }

  /** Under ordinal comparison: the term is lowered but the zip code and phones are not,
      so a phone stored with capital letters (`1-800-ALARM`) is never found by a term that
      starts with a letter. The query runs in the database, whose collation may compare
      without case; this model compares ordinally. */
  lemma PhoneSearchIsCaseSensitive(phone: string, searchTerm: string)
    requires forall i :: 0 <= i < |phone| ==> !('a' <= phone[i] <= 'z')
    requires var t := Trim(ToLower(searchTerm)); |t| > 0 && IsLetter(t[0])
    ensures !Contains(phone, Trim(ToLower(searchTerm)))
  {
    LoweredTermHasNoUpper(searchTerm);
    LowerLetterMissing(phone, Trim(ToLower(searchTerm)));
  }

  /** A term starting with a small letter does not occur where there are none. */
  lemma LowerLetterMissing(phone: string, t: string)
    requires forall i :: 0 <= i < |phone| ==> !('a' <= phone[i] <= 'z')
    requires |t| > 0 && 'a' <= t[0] <= 'z'
    ensures !Contains(phone, t)
  {
    forall i | 0 <= i <= |phone| ensures !OccursAt(phone, t, i) {
      if i + |t| <= |phone| {
        assert phone[i..i + |t|][0] == phone[i];
      }
    }
  }

  /** The trimmed, lowered term holds no capital letter. */
  lemma LoweredTermHasNoUpper(searchTerm: string)
    ensures var t := Trim(ToLower(searchTerm)); forall j :: 0 <= j < |t| ==> !IsUpper(t[j])
  {
    TrimKeepsNoUpper(ToLower(searchTerm));
  }

  lemma TrimKeepsNoUpper(s: string)
    requires forall i :: 0 <= i < |s| ==> !IsUpper(s[i])
    ensures forall j :: 0 <= j < |Trim(s)| ==> !IsUpper(Trim(s)[j])
  {
    var t := Trim(s);
    var k :| 0 <= k <= |s| - |t| && t == s[k..k + |t|] && IsBlank(s[..k]) && IsBlank(s[k + |t|..]);
    forall j | 0 <= j < |t| ensures !IsUpper(t[j]) {
      assert t[j] == s[k + j];
    }
  }

  /** Deleting a customer leaves its contacts, systems and work orders as they were. */
  lemma DeleteKeepsDependents(db: Db, id: int, c: Clock)
    ensures var d := Delete(db, id, c).db;
      d.contacts == db.contacts && d.securitySystems == db.securitySystems && d.workOrders == db.workOrders
      && GetContacts(d, id) == GetContacts(db, id) && GetSystems(d, id) == GetSystems(db, id)
  {
  }

  /** A deleted customer is no longer found, listed or searched. */
  lemma DeleteHides(db: Db, id: int, c: Clock, searchTerm: string)
    requires forall k :: k in db.customers ==> db.customers[k].id == k
    requires id in db.customers
    ensures var d := Delete(db, id, c).db;
      GetById(d, id) == None
      && (forall cu :: cu in GetAll(d) ==> cu.id != id)
      && (forall cu :: cu in Search(d, searchTerm) ==> cu.id != id)
  {
  }

  /** A created customer is found by id and listed. */
  lemma CreateThenGet(db: Db, cu: Customer, c: Clock)
    ensures var o := Create(db, cu, c);
      GetById(o.db, o.result.value.id) == Some(o.result.value) && o.result.value in GetAll(o.db)
  {
    var o := Create(db, cu, c);
    assert o.db.customers[o.result.value.id] == o.result.value;
  }

  // ------------------------------------------------------------ contacts

  /** The name of the contact's type, read through the navigation property. */
  function ContactTypeName(types: map<int, Lookup>, x: Contact): Option<string> {
    if x.contactTypeId in types && types[x.contactTypeId].TypeRow? then Some(types[x.contactTypeId].name) else None
  }

  /** `OrderBy(c => c.ContactType.TypeName).ThenBy(c => c.Name)`. */
  function ContactOrder(types: map<int, Lookup>): (Contact, Contact) -> bool {
    ThenBy(ByOptionText((x: Contact) => ContactTypeName(types, x)), ByText((x: Contact) => x.name))
  }

  /** `GetCustomerContactsAsync`: the customer's active contacts, by type name then name. */
  function GetContacts(db: Db, customerId: int): (r: seq<Contact>)
    ensures forall x :: x in r <==> x in db.contacts.Values && x.isActive && x.customerId == customerId
    ensures SortedBy(r, ContactOrder(db.Lookups(ContactTypes)))
  {
    var types := db.Lookups(ContactTypes);
    ByOptionTextTotal((x: Contact) => ContactTypeName(types, x));
    ByTextTotal((x: Contact) => x.name);
    ThenByTotal(ByOptionText((x: Contact) => ContactTypeName(types, x)), ByText((x: Contact) => x.name));
    Select(db.contacts, (x: Contact) => x.customerId == customerId && x.isActive, ContactOrder(types))
  }

  /** `AddContactAsync`: stamped and active, under a fresh id. */
  function AddContact(db: Db, x: Contact, c: Clock): (o: Outcome<Contact>)
    ensures o.result.Ok?
    ensures var added := o.result.value;
      && added.id !in db.contacts
      && added == x.(id := added.id, createdDate := c.Now(), isActive := true)
      && o.db == db.(contacts := db.contacts[added.id := added])
  {
    var id := NextId(db.contacts);
    var added := x.(id := id, createdDate := c.Now(), isActive := true);
    Outcome(db.(contacts := db.contacts[id := added]), Ok(added))
  }

  /** `UpdateContactAsync`: name, phones, email and type are taken from the input; the
      contact stays with its customer and keeps its flag. */
  function UpdateContact(db: Db, x: Contact): (o: Outcome<Contact>)
    ensures o.result.Err? <==> x.id !in db.contacts
    ensures o.result.Err? ==> o.db == db && o.result.error == NotFound(x.id)
    ensures o.result.Ok? ==>
      var e := db.contacts[x.id];
      && o.result.value == x.(id := e.id, customerId := e.customerId, createdDate := e.createdDate, isActive := e.isActive)
      && o.db == db.(contacts := db.contacts[x.id := o.result.value])
  {
    if x.id !in db.contacts then Outcome(db, Err(NotFound(x.id)))
    else
      var e := db.contacts[x.id];
      var updated := e.(name := x.name, homePhone := x.homePhone, businessPhone := x.businessPhone,
        cellPhone := x.cellPhone, emailAddress := x.emailAddress, contactTypeId := x.contactTypeId);
      Outcome(db.(contacts := db.contacts[x.id := updated]), Ok(updated))
  }

  /** `DeleteContactAsync`: a soft delete. */
  function DeleteContact(db: Db, id: int): (o: Outcome<bool>)
    ensures o.result == Ok(id in db.contacts)
    ensures id !in db.contacts ==> o.db == db
    ensures id in db.contacts ==> o.db == db.(contacts := db.contacts[id := db.contacts[id].(isActive := false)])
  {
    if id !in db.contacts then Outcome(db, Ok(false))
    else Outcome(db.(contacts := db.contacts[id := db.contacts[id].(isActive := false)]), Ok(true))
  }

  /** A deleted contact drops out of its customer's list. */
  lemma DeleteContactHides(db: Db, id: int)
    requires forall k :: k in db.contacts ==> db.contacts[k].id == k
    requires id in db.contacts
    ensures forall x :: x in GetContacts(DeleteContact(db, id).db, db.contacts[id].customerId) ==> x.id != id
  {
  }

  // ------------------------------------------------------------ security systems

  /** `GetCustomerSecuritySystemsAsync`: the customer's active systems, oldest first. */
  function GetSystems(db: Db, customerId: int): (r: seq<SecuritySystem>)
    ensures forall s :: s in r <==> s in db.securitySystems.Values && s.isActive && s.customerId == customerId
    ensures forall i, j :: 0 <= i < j < |r| ==> r[i].createdDate <= r[j].createdDate
  {
    ByIntTotal((s: SecuritySystem) => s.createdDate);
    Select(db.securitySystems, (s: SecuritySystem) => s.customerId == customerId && s.isActive,
      ByInt((s: SecuritySystem) => s.createdDate))
  }

  /** `AddSecuritySystemAsync`: stamped and active, under a fresh id. */
  function AddSystem(db: Db, s: SecuritySystem, c: Clock): (o: Outcome<SecuritySystem>)
    ensures o.result.Ok?
    ensures var added := o.result.value;
      && added.id !in db.securitySystems
      && added == s.(id := added.id, createdDate := c.Now(), isActive := true)
      && o.db == db.(securitySystems := db.securitySystems[added.id := added])
  {
    var id := NextId(db.securitySystems);
    var added := s.(id := id, createdDate := c.Now(), isActive := true);
    Outcome(db.(securitySystems := db.securitySystems[id := added]), Ok(added))
  }

  /** `UpdateSecuritySystemAsync`: the input's fields are taken, except that the system
      stays with its customer, keeps its creation date and flag, and is stamped. */
  function UpdateSystem(db: Db, s: SecuritySystem, c: Clock): (o: Outcome<SecuritySystem>)
    ensures o.result.Err? <==> s.id !in db.securitySystems
    ensures o.result.Err? ==> o.db == db && o.result.error == NotFound(s.id)
    ensures o.result.Ok? ==>
      var e := db.securitySystems[s.id];
      && o.result.value == s.(id := e.id, customerId := e.customerId, createdDate := e.createdDate,
           isActive := e.isActive, modifiedDate := Some(c.Now()))
      && o.db == db.(securitySystems := db.securitySystems[s.id := o.result.value])
  {
    if s.id !in db.securitySystems then Outcome(db, Err(NotFound(s.id)))
    else
      var e := db.securitySystems[s.id];
      var updated := e.(
        centralStationNumber := s.centralStationNumber, panelTypeId := s.panelTypeId,
        monitoringTypeId := s.monitoringTypeId, monitoringStartDate := s.monitoringStartDate,
        installedDate := s.installedDate, masterSecurityCode := s.masterSecurityCode,
        codeWord := s.codeWord, policePhone := s.policePhone, fireDeptPhone := s.fireDeptPhone,
        ambulancePhone := s.ambulancePhone, cityPermitNumber := s.cityPermitNumber,
        permitDueDate := s.permitDueDate, authorityNotes := s.authorityNotes,
        primaryCommunicatorId := s.primaryCommunicatorId, secondaryCommunicatorId := s.secondaryCommunicatorId,
        modifiedDate := Some(c.Now()));
      Outcome(db.(securitySystems := db.securitySystems[s.id := updated]), Ok(updated))
  }

  /** `DeleteSecuritySystemAsync`: a soft delete, stamped. */
  function DeleteSystem(db: Db, id: int, c: Clock): (o: Outcome<bool>)
    ensures o.result == Ok(id in db.securitySystems)
    ensures id !in db.securitySystems ==> o.db == db
    ensures id in db.securitySystems ==>
      o.db == db.(securitySystems := db.securitySystems[id :=
        db.securitySystems[id].(isActive := false, modifiedDate := Some(c.Now()))])
  {
    if id !in db.securitySystems then Outcome(db, Ok(false))
    else
      var e := db.securitySystems[id];
      Outcome(db.(securitySystems := db.securitySystems[id := e.(isActive := false, modifiedDate := Some(c.Now()))]), Ok(true))
  }

  /** A deleted system drops out of its customer's list. */
  lemma DeleteSystemHides(db: Db, id: int, c: Clock)
    requires forall k :: k in db.securitySystems ==> db.securitySystems[k].id == k
    requires id in db.securitySystems
    ensures forall s :: s in GetSystems(DeleteSystem(db, id, c).db, db.securitySystems[id].customerId) ==> s.id != id
  {
  }
}

=== FILE: dashboard.dfy ===
/** The start screen (`DashboardViewModel`): counts and revenue over the active customers
    and work orders, and three short lists — the newest orders, the orders due in the coming
    week, and the newest customers. */
module Dashboard {
  import opened Sorting
  import opened Tables
  import opened Calendar
  import opened Models
  import Customers
  import WorkOrders
  import WorkOrderScreen

  /** Each short list shows at most this many rows (`Take(5)`). */
  const ListLength: nat := 5

  /** The upcoming list looks this many days ahead (`DateTime.Today.AddDays(7)`). */
  const WeekAhead: int := 7

  // ------------------------------------------------------------ customer metrics

  /** Created on or after midnight of the first of the current month. */
  predicate NewThisMonth(cu: Customer, c: Clock) {
    cu.createdDate >= c.MonthStart()
  }

  /** `TotalCustomers`: one per active customer. */
  function TotalCustomers(db: Db): (n: nat)
    ensures n == |set k | k in db.customers && db.customers[k].isActive|
    ensures n == 0 <==> forall cu :: cu in db.customers.Values ==> !cu.isActive
  {
    var all := Customers.GetAll(db);
    assert |all| == 0 <==> forall cu :: cu in db.customers.Values ==> !cu.isActive by {
      assert |all| > 0 ==> all[0] in all;
    }
    ActiveCustomerKeys(db);
    |all|
  }

  /** The customer list holds one row per active key. */
  lemma ActiveCustomerKeys(db: Db)
    ensures |Customers.GetAll(db)| == |set k | k in db.customers && db.customers[k].isActive|
  {
    Customers.CountAll(db, (cu: Customer) => true);
    assert KeysWhere(db.customers, Customers.Live) == set k | k in db.customers && db.customers[k].isActive;
  }

  /** The `NewCustomersThisMonth` test as a value. */
  function NewTest(c: Clock): Customer -> bool {
    (cu: Customer) => NewThisMonth(cu, c)
  }

  /** `NewCustomersThisMonth`: one per active customer created this month. */
  function NewCustomers(db: Db, c: Clock): (n: nat)
    ensures n == |set k | k in db.customers && db.customers[k].isActive && NewThisMonth(db.customers[k], c)|
    ensures n <= TotalCustomers(db)
    ensures n == 0 <==> forall cu :: cu in db.customers.Values && cu.isActive ==> !NewThisMonth(cu, c)
  {
    NewCustomerKeys(db, c);
    CountWhere(Customers.GetAll(db), NewTest(c))
  }

  lemma NewCustomerKeys(db: Db, c: Clock)
    ensures CountWhere(Customers.GetAll(db), NewTest(c))
      == |set k | k in db.customers && db.customers[k].isActive && NewThisMonth(db.customers[k], c)|
  {
    Customers.CountAll(db, NewTest(c));
    NewCustomerKeysSame(db, c);
  }

  lemma NewCustomerKeysSame(db: Db, c: Clock)
    ensures KeysWhere(db.customers, Both(Customers.Live, NewTest(c)))
      == set k | k in db.customers && db.customers[k].isActive && NewThisMonth(db.customers[k], c)
  {
  }

  // ------------------------------------------------------------ work-order metrics

  /** Unscheduled, scheduled, in progress or pending: the statuses that still need work. */
  predicate IsPending(statusId: int) {
    statusId == Unscheduled || statusId == Scheduled || statusId == InProgress || statusId == Pending
  }

  /** Completed with a completion date on or after the first of the current month. */
  predicate CompletedThisMonth(w: WorkOrder, c: Clock) {
    w.statusId == Completed && w.completedDate.Some? && w.completedDate.value >= c.MonthStart()
  }

  /** An order whose actual cost counts towards the month's revenue. */
  predicate Billed(w: WorkOrder, c: Clock) {
    CompletedThisMonth(w, c) && w.actualCost.Some?
  }

  /** `TotalWorkOrders`: one per active order. */
  function TotalWorkOrders(db: Db): (n: nat)
    ensures n == |set k | k in db.workOrders && db.workOrders[k].isActive|
    ensures n == 0 <==> forall w :: w in db.workOrders.Values ==> !w.isActive
  {
    var all := WorkOrders.GetAll(db);
    assert |all| == 0 <==> forall w :: w in db.workOrders.Values ==> !w.isActive by {
      assert |all| > 0 ==> all[0] in all;
    }
    ActiveOrderKeys(db);
    |all|
  }

  /** The order list holds one row per active key. */
  lemma ActiveOrderKeys(db: Db)
    ensures |WorkOrders.GetAll(db)| == |set k | k in db.workOrders && db.workOrders[k].isActive|
  {
    WorkOrders.CountAll(db, (w: WorkOrder) => true);
    assert KeysWhere(db.workOrders, WorkOrders.Live) == set k | k in db.workOrders && db.workOrders[k].isActive;
  }

  /** The `PendingWorkOrders` test. */
  predicate PendingOrder(w: WorkOrder) {
    IsPending(w.statusId)
  }

  /** `PendingWorkOrders`: one per active order still to be done. */
  function PendingCount(db: Db): (n: nat)
    ensures n == |set k | k in db.workOrders && db.workOrders[k].isActive && IsPending(db.workOrders[k].statusId)|
    ensures n <= TotalWorkOrders(db)
    ensures n == 0 <==> forall w :: w in db.workOrders.Values && w.isActive ==> !IsPending(w.statusId)
  {
    PendingKeys(db);
    CountWhere(WorkOrders.GetAll(db), PendingOrder)
  }

  lemma PendingKeys(db: Db)
    ensures CountWhere(WorkOrders.GetAll(db), PendingOrder)
      == |set k | k in db.workOrders && db.workOrders[k].isActive && IsPending(db.workOrders[k].statusId)|
  {
    WorkOrders.CountAll(db, PendingOrder);
    PendingKeysSame(db);
  }

  lemma PendingKeysSame(db: Db)
    ensures KeysWhere(db.workOrders, Both(WorkOrders.Live, PendingOrder))
      == set k | k in db.workOrders && db.workOrders[k].isActive && IsPending(db.workOrders[k].statusId)
  {
    forall k | k in db.workOrders
      ensures Both(WorkOrders.Live, PendingOrder)(db.workOrders[k])
        == (db.workOrders[k].isActive && IsPending(db.workOrders[k].statusId))
    {
      var w := db.workOrders[k];
      assert Both(WorkOrders.Live, PendingOrder)(w) == (WorkOrders.Live(w) && PendingOrder(w));
    }
  }

  /** The `OverdueWorkOrders` test as a value. */
  function OverdueTest(today: int): WorkOrder -> bool {
    (w: WorkOrder) => WorkOrderScreen.IsOverdue(w, today)
  }

  /** `OverdueWorkOrders`: one per active overdue order. The dashboard's test is the
      work-order screen's overdue test — scheduled before today's midnight and neither
      completed nor canceled. */
  function OverdueCount(db: Db, today: int): (n: nat)
    ensures n == |set k | k in db.workOrders && db.workOrders[k].isActive && WorkOrderScreen.IsOverdue(db.workOrders[k], today)|
    ensures n <= TotalWorkOrders(db)
    ensures n == 0 <==> forall w :: w in db.workOrders.Values && w.isActive ==>
      !(w.scheduledDate.Some? && DayOf(w.scheduledDate.value) < today && !WorkOrderScreen.IsFinished(w.statusId))
  {
    OverdueKeys(db, today);
    CountWhere(WorkOrders.GetAll(db), OverdueTest(today))
  }

  lemma OverdueKeys(db: Db, today: int)
    ensures CountWhere(WorkOrders.GetAll(db), OverdueTest(today))
      == |set k | k in db.workOrders && db.workOrders[k].isActive && WorkOrderScreen.IsOverdue(db.workOrders[k], today)|
  {
    WorkOrders.CountAll(db, OverdueTest(today));
    OverdueKeysSame(db, today);
  }

  lemma OverdueKeysSame(db: Db, today: int)
    ensures KeysWhere(db.workOrders, Both(WorkOrders.Live, OverdueTest(today)))
      == set k | k in db.workOrders && db.workOrders[k].isActive && WorkOrderScreen.IsOverdue(db.workOrders[k], today)
  {
  }

  /** The `CompletedThisMonth` test as a value. */
  function CompletedTest(c: Clock): WorkOrder -> bool {
    (w: WorkOrder) => CompletedThisMonth(w, c)
  }

  /** `CompletedThisMonth`: one per active order completed this month. */
  function CompletedCount(db: Db, c: Clock): (n: nat)
    ensures n == |set k | k in db.workOrders && db.workOrders[k].isActive && CompletedThisMonth(db.workOrders[k], c)|
    ensures n <= TotalWorkOrders(db)
    ensures n == 0 <==> forall w :: w in db.workOrders.Values && w.isActive ==> !CompletedThisMonth(w, c)
  {
    CompletedKeys(db, c);
    CountWhere(WorkOrders.GetAll(db), CompletedTest(c))
  }

  lemma CompletedKeys(db: Db, c: Clock)
    ensures CountWhere(WorkOrders.GetAll(db), CompletedTest(c))
      == |set k | k in db.workOrders && db.workOrders[k].isActive && CompletedThisMonth(db.workOrders[k], c)|
  {
    WorkOrders.CountAll(db, CompletedTest(c));
    CompletedKeysSame(db, c);
  }

  lemma CompletedKeysSame(db: Db, c: Clock)
    ensures KeysWhere(db.workOrders, Both(WorkOrders.Live, CompletedTest(c)))
      == set k | k in db.workOrders && db.workOrders[k].isActive && CompletedThisMonth(db.workOrders[k], c)
  {
  }

  /** The sum of the actual costs of orders that all have one (`Sum(wo => wo.ActualCost.Value)`). */
  function CostSum(s: seq<WorkOrder>): (t: real)
    requires forall i :: 0 <= i < |s| ==> s[i].actualCost.Some?
    ensures (forall i :: 0 <= i < |s| ==> s[i].actualCost.value >= 0.0) ==> t >= 0.0
    ensures |s| == 0 ==> t == 0.0
  {
    if |s| == 0 then 0.0 else CostSum(s[..|s| - 1]) + s[|s| - 1].actualCost.value
  }

  /** Summing two runs of orders is summing each. */
  lemma {:induction false} CostSumAppend(a: seq<WorkOrder>, b: seq<WorkOrder>)
    requires forall i :: 0 <= i < |a| ==> a[i].actualCost.Some?
    requires forall i :: 0 <= i < |b| ==> b[i].actualCost.Some?
    ensures CostSum(a + b) == CostSum(a) + CostSum(b)
    decreases |b|
  {
    if |b| == 0 {
      assert a + b == a;
    } else {
      assert (a + b)[..|a + b| - 1] == a + b[..|b| - 1];
      CostSumAppend(a, b[..|b| - 1]);
    }
  }

  /** The `MonthlyRevenue` test as a value. */
  function BilledTest(c: Clock): WorkOrder -> bool {
    (w: WorkOrder) => Billed(w, c)
  }

  /** The orders whose actual cost makes up `MonthlyRevenue`: one per active billed key. */
  function BilledOrders(db: Db, c: Clock): (r: seq<WorkOrder>)
    ensures forall i :: 0 <= i < |r| ==> r[i].actualCost.Some?
    ensures forall w :: w in r <==> w in db.workOrders.Values && w.isActive && Billed(w, c)
    ensures |r| == |set k | k in db.workOrders && db.workOrders[k].isActive && Billed(db.workOrders[k], c)|
  {
    BilledKeys(db, c);
    Filter(WorkOrders.GetAll(db), BilledTest(c))
  }

  lemma BilledKeys(db: Db, c: Clock)
    ensures CountWhere(WorkOrders.GetAll(db), BilledTest(c))
      == |set k | k in db.workOrders && db.workOrders[k].isActive && Billed(db.workOrders[k], c)|
  {
    WorkOrders.CountAll(db, BilledTest(c));
    BilledKeysSame(db, c);
  }

  lemma BilledKeysSame(db: Db, c: Clock)
    ensures KeysWhere(db.workOrders, Both(WorkOrders.Live, BilledTest(c)))
      == set k | k in db.workOrders && db.workOrders[k].isActive && Billed(db.workOrders[k], c)
  {
  }

  /** `MonthlyRevenue`: the sum of the actual costs of the billed orders — the active orders
      completed this month that have an actual cost. It is zero when nothing was completed
      this month and never negative when no cost is. */
  function MonthlyRevenue(db: Db, c: Clock): (t: real)
    ensures t == CostSum(BilledOrders(db, c))
    ensures CompletedCount(db, c) == 0 ==> t == 0.0
    ensures (forall w :: w in db.workOrders.Values && w.isActive && w.actualCost.Some? ==> w.actualCost.value >= 0.0)
      ==> t >= 0.0
  {
    BilledAreCompleted(db, c);
    BilledInTable(db, c);
    CostSum(BilledOrders(db, c))
  }

  /** The orders all have an actual cost. */
  predicate AllCosted(s: seq<WorkOrder>) {
    forall i :: 0 <= i < |s| ==> s[i].actualCost.Some?
  }

  /** The revenue does not depend on the order the billed orders are listed in. */
  lemma {:induction false} CostSumPermutation(a: seq<WorkOrder>, b: seq<WorkOrder>)
    requires AllCosted(a) && multiset(a) == multiset(b)
    ensures AllCosted(b)
    ensures CostSum(a) == CostSum(b)
    decreases |a|
  {
    PermutationCosted(a, b);
    if |a| > 0 {
      var x, a' := a[|a| - 1], a[..|a| - 1];
      assert a == a' + [x];
      assert x in multiset(b);
      var i :| 0 <= i < |b| && b[i] == x;
      var b1, b2 := b[..i], b[i + 1..];
      assert b == b1 + [x] + b2;
      CostSumMiddle(b1, x, b2);
      assert multiset(b) == multiset(b1 + b2) + multiset{x} by {
        assert multiset(b1 + b2) == multiset(b1) + multiset(b2);
      }
      MultisetCancel(multiset(a'), multiset(b1 + b2), x);
      CostSumPermutation(a', b1 + b2);
    }
  }

  lemma PermutationCosted(a: seq<WorkOrder>, b: seq<WorkOrder>)
    requires AllCosted(a) && multiset(a) == multiset(b)
    ensures AllCosted(b)
  {
    forall i | 0 <= i < |b| ensures b[i].actualCost.Some? {
      assert b[i] in multiset(a);
      var j :| 0 <= j < |a| && a[j] == b[i];
    }
  }

  /** Taking one order out of a run takes its cost out of the sum. */
  lemma CostSumMiddle(s1: seq<WorkOrder>, x: WorkOrder, s2: seq<WorkOrder>)
    requires AllCosted(s1) && x.actualCost.Some? && AllCosted(s2)
    ensures AllCosted(s1 + s2) && AllCosted(s1 + [x] + s2)
    ensures CostSum(s1 + [x] + s2) == CostSum(s1 + s2) + x.actualCost.value
  {
    assert CostSum([x]) == x.actualCost.value by {
      assert [x][..0] == [];
    }
    CostSumAppend(s1, [x]);
    CostSumAppend(s1 + [x], s2);
    CostSumAppend(s1, s2);
  }

  lemma BilledInTable(db: Db, c: Clock)
    ensures forall i :: 0 <= i < |BilledOrders(db, c)| ==>
      BilledOrders(db, c)[i] in db.workOrders.Values && BilledOrders(db, c)[i].isActive
  {
    var r := BilledOrders(db, c);
    assert forall i :: 0 <= i < |r| ==> r[i] in r;
  }

  /** Every order counted in the month's revenue is counted as completed this month. */
  lemma BilledAreCompleted(db: Db, c: Clock)
    ensures |BilledOrders(db, c)| <= CompletedCount(db, c)
  {
    CountMonotone(WorkOrders.GetAll(db), BilledTest(c), CompletedTest(c));
  }

  /** A pending order is never completed, so the two counts share no order. */
  lemma PendingAndCompletedWithinTotal(db: Db, c: Clock)
    ensures PendingCount(db) + CompletedCount(db, c) <= TotalWorkOrders(db)
  {
    CountDisjoint(WorkOrders.GetAll(db), PendingOrder, CompletedTest(c));
  }

  /** When every active order carries one of the six known statuses, an overdue order is a
      pending one, so the overdue count never exceeds the pending count. */
  lemma OverdueArePending(db: Db, today: int)
    requires forall w :: w in db.workOrders.Values && w.isActive ==> Unscheduled <= w.statusId <= Completed
    ensures OverdueCount(db, today) <= PendingCount(db)
  {
    CountMonotone(WorkOrders.GetAll(db), OverdueTest(today), PendingOrder);
  }

  // ------------------------------------------------------------ the short lists

  function OrderCreated(w: WorkOrder): int {
    w.createdDate
  }

  function CustomerCreated(cu: Customer): int {
    cu.createdDate
  }

  /** `RecentWorkOrders`: the five newest of the loaded orders, newest first; any order left
      out is no newer than every order shown, and none is left out when fewer than five are shown. */
  function RecentWorkOrders(all: seq<WorkOrder>): (r: seq<WorkOrder>)
    ensures |r| == if |all| < ListLength then |all| else ListLength
    ensures multiset(r) <= multiset(all)
    ensures forall w :: w in r ==> w in all
    ensures forall i, j :: 0 <= i < j < |r| ==> r[i].createdDate >= r[j].createdDate
    ensures forall w, i :: w in all && w !in r && 0 <= i < |r| ==> w.createdDate <= r[i].createdDate
    ensures |r| < ListLength ==> forall w :: w in all ==> w in r
    ensures forall y :: Ties(r, y, ByIntDesc(OrderCreated)) <= Ties(all, y, ByIntDesc(OrderCreated))
  {
    TopByIntDesc(all, OrderCreated, ListLength)
  }

  /** `RecentCustomers`: the five newest of the loaded customers, newest first; any customer
      left out is no newer than every customer shown, and none is left out when fewer than
      five are shown. */
  function RecentCustomers(all: seq<Customer>): (r: seq<Customer>)
    ensures |r| == if |all| < ListLength then |all| else ListLength
    ensures multiset(r) <= multiset(all)
    ensures forall cu :: cu in r ==> cu in all
    ensures forall i, j :: 0 <= i < j < |r| ==> r[i].createdDate >= r[j].createdDate
    ensures forall cu, i :: cu in all && cu !in r && 0 <= i < |r| ==> cu.createdDate <= r[i].createdDate
    ensures |r| < ListLength ==> forall cu :: cu in all ==> cu in r
    ensures forall y :: Ties(r, y, ByIntDesc(CustomerCreated)) <= Ties(all, y, ByIntDesc(CustomerCreated))
  {
    TopByIntDesc(all, CustomerCreated, ListLength)
  }

  /** The upcoming-list test: scheduled between today's midnight and the midnight seven days
      on, both included, and neither completed nor canceled. */
  predicate DueThisWeek(w: WorkOrder, today: int) {
    && w.scheduledDate.Some?
    && w.scheduledDate.value >= StartOfDay(today)
    && w.scheduledDate.value <= StartOfDay(today + WeekAhead)
    && w.statusId != Completed && w.statusId != Canceled
  }

  /** The window in days: today through the sixth day on, plus the single instant of midnight
      starting the seventh day. */
  lemma DueThisWeekMeaning(w: WorkOrder, today: int)
    ensures DueThisWeek(w, today) <==>
      && w.scheduledDate.Some?
      && ((today <= DayOf(w.scheduledDate.value) < today + WeekAhead) || w.scheduledDate.value == StartOfDay(today + WeekAhead))
      && !WorkOrderScreen.IsFinished(w.statusId)
  {
    if w.scheduledDate.Some? {
      BeforeMidnight(w.scheduledDate.value, today);
      AtMostMidnight(w.scheduledDate.value, today + WeekAhead);
    }
  }

  /** The dashboard's week and the work-order screen's `GetUpcomingWorkOrders(7)` differ at
      both ends: the dashboard shows orders due today, which the screen does not, and the
      screen shows orders later than midnight on the seventh day, which the dashboard does not. */
  lemma WeekWindowsDiffer(w: WorkOrder, today: int)
    ensures DueThisWeek(w, today) && !WorkOrderScreen.IsUpcoming(w, today, WeekAhead) <==>
      w.scheduledDate.Some? && DayOf(w.scheduledDate.value) == today && !WorkOrderScreen.IsFinished(w.statusId)
    ensures WorkOrderScreen.IsUpcoming(w, today, WeekAhead) && !DueThisWeek(w, today) <==>
      && w.scheduledDate.Some? && DayOf(w.scheduledDate.value) == today + WeekAhead
      && w.scheduledDate.value != StartOfDay(today + WeekAhead) && !WorkOrderScreen.IsFinished(w.statusId)
  {
    DueThisWeekMeaning(w, today);
    if w.scheduledDate.Some? && w.scheduledDate.value == StartOfDay(today + WeekAhead) {
      assert DayOf(w.scheduledDate.value) == today + WeekAhead;
    }
  }

  /** `UpcomingWorkOrders`: up to five of the loaded orders due this week, by scheduled date
      and then start time; any due order left out comes after every order shown, and none is
      left out when fewer than five are shown. */
  function UpcomingWorkOrders(all: seq<WorkOrder>, today: int): (r: seq<WorkOrder>)
    ensures |r| <= ListLength
    ensures multiset(r) <= multiset(all)
    ensures forall w :: w in r ==> w in all && DueThisWeek(w, today)
    ensures SortedBy(r, WorkOrders.BySchedule)
    ensures forall w, i :: w in all && DueThisWeek(w, today) && w !in r && 0 <= i < |r| ==> WorkOrders.BySchedule(r[i], w)
    ensures |r| < ListLength ==> forall w :: w in all && DueThisWeek(w, today) ==> w in r
  {
    WorkOrders.ByScheduleTotal();
    FilterSubMultiset(all, (w: WorkOrder) => DueThisWeek(w, today));
    Top(Filter(all, (w: WorkOrder) => DueThisWeek(w, today)), WorkOrders.BySchedule, ListLength)
  }

  /** The short lists show each loaded row at most once: from rows without repeats, all
      three lists are without repeats. */
  lemma ShortListsNoRepeats(orders: seq<WorkOrder>, customers: seq<Customer>, today: int)
    requires NoRepeats(orders) && NoRepeats(customers)
    ensures NoRepeats(RecentWorkOrders(orders))
    ensures NoRepeats(RecentCustomers(customers))
    ensures NoRepeats(UpcomingWorkOrders(orders, today))
  {
    SubMultisetNoRepeats(RecentWorkOrders(orders), orders);
    SubMultisetNoRepeats(RecentCustomers(customers), customers);
    SubMultisetNoRepeats(UpcomingWorkOrders(orders, today), orders);
  }

  // ------------------------------------------------------------ the whole screen

  datatype Summary = Summary(
    totalCustomers: nat,
    newCustomersThisMonth: nat,
    totalWorkOrders: nat,
    pendingWorkOrders: nat,
    overdueWorkOrders: nat,
    completedThisMonth: nat,
    monthlyRevenue: real,
    recentWorkOrders: seq<WorkOrder>,
    upcomingWorkOrders: seq<WorkOrder>,
    recentCustomers: seq<Customer>)

  /** `LoadDashboardDataAsync`: every figure and list from one reading of the database and
      the clock. The counts are consistent with one another, and every listed row is active. */
  function Load(db: Db, c: Clock): (d: Summary)
    ensures d.totalCustomers == |set k | k in db.customers && db.customers[k].isActive|
    ensures d.newCustomersThisMonth == |set k | k in db.customers && db.customers[k].isActive && NewThisMonth(db.customers[k], c)|
    ensures d.totalWorkOrders == |set k | k in db.workOrders && db.workOrders[k].isActive|
    ensures d.overdueWorkOrders == |set k | k in db.workOrders && db.workOrders[k].isActive && WorkOrderScreen.IsOverdue(db.workOrders[k], c.Today())|
    ensures d.pendingWorkOrders == |set k | k in db.workOrders && db.workOrders[k].isActive && IsPending(db.workOrders[k].statusId)|
    ensures d.completedThisMonth == |set k | k in db.workOrders && db.workOrders[k].isActive && CompletedThisMonth(db.workOrders[k], c)|
    ensures d.monthlyRevenue == CostSum(BilledOrders(db, c))
    ensures d.newCustomersThisMonth <= d.totalCustomers
    ensures d.pendingWorkOrders + d.completedThisMonth <= d.totalWorkOrders
    ensures d.overdueWorkOrders <= d.totalWorkOrders
    ensures d.completedThisMonth == 0 ==> d.monthlyRevenue == 0.0
    ensures |d.recentWorkOrders| <= ListLength && |d.upcomingWorkOrders| <= ListLength && |d.recentCustomers| <= ListLength
    ensures forall w :: w in d.upcomingWorkOrders ==> w in d.recentWorkOrders || |d.recentWorkOrders| == ListLength
  {
    PendingAndCompletedWithinTotal(db, c);
    var today := c.Today();
    var orders := WorkOrders.GetAll(db);
    var recent := RecentWorkOrders(orders);
    var upcoming := UpcomingWorkOrders(orders, today);
    var customers := RecentCustomers(Customers.GetAll(db));
    Summary(TotalCustomers(db), NewCustomers(db, c), TotalWorkOrders(db), PendingCount(db),
      OverdueCount(db, today), CompletedCount(db, c), MonthlyRevenue(db, c),
      recent, upcoming, customers)
  }

  /** Every row the dashboard lists is an active row of the database. */
  lemma LoadShowsActiveRows(db: Db, c: Clock)
    ensures var d := Load(db, c);
      && (forall w :: w in d.recentWorkOrders || w in d.upcomingWorkOrders ==> w in db.workOrders.Values && w.isActive)
      && (forall cu :: cu in d.recentCustomers ==> cu in db.customers.Values && cu.isActive)
  {
  }
}

=== FILE: lists.dfy ===
/** The in-place edits the screens make to their bound collections:
    `FirstOrDefault` + `IndexOf` + indexer assignment, and `Remove`. */
module Lists {
  import opened Results

  /** The index of the first element satisfying `p`, if any. */
  function FirstIndex<T>(s: seq<T>, p: T -> bool): (r: Option<nat>)
    ensures r.Some? ==> r.value < |s| && p(s[r.value]) && forall j :: 0 <= j < r.value ==> !p(s[j])
    ensures r.None? ==> forall j :: 0 <= j < |s| ==> !p(s[j])
  {
    if |s| == 0 then None
    else if p(s[0]) then Some(0)
    else
      match FirstIndex(s[1..], p)
      case None => None
      case Some(i) => Some(i + 1)
  }

  /** The test `item => getId(item) == getId(saved)`. */
  function SameId<T>(id: T -> int, saved: T): T -> bool {
    x => id(x) == id(saved)
  }

  /** `var existing = s.FirstOrDefault(p); if (existing != null) s[s.IndexOf(existing)] = x;` */
  function ReplaceFirst<T>(s: seq<T>, p: T -> bool, x: T): (r: seq<T>)
    ensures |r| == |s|
    ensures FirstIndex(s, p).None? ==> r == s
    ensures FirstIndex(s, p).Some? ==> r == s[FirstIndex(s, p).value := x]
  {
    match FirstIndex(s, p)
    case None => s
    case Some(i) => s[i := x]
  }

  /** Replacing changes one position at most: everything else is where it was. */
  lemma ReplaceFirstFrame<T>(s: seq<T>, p: T -> bool, x: T, k: nat)
    requires k < |s| && !p(s[k])
    ensures ReplaceFirst(s, p, x)[k] == s[k]
  {
  }

  /** `s.Remove(x)`: cuts out the first occurrence of `x`; no change when there is none. */
  function RemoveFirst<T(==)>(s: seq<T>, x: T): (r: seq<T>)
    ensures x !in s ==> r == s
    ensures x in s ==> |r| == |s| - 1 && multiset(r) == multiset(s) - multiset{x}
  {
    match FirstIndex(s, y => y == x)
    case None => s
    case Some(i) =>
      assert s == s[..i] + [x] + s[i + 1..];
      s[..i] + s[i + 1..]
  }

  /** What stays keeps its order: before the cut nothing moves, after it everything moves up by one. */
  lemma RemoveFirstKeepsOrder<T>(s: seq<T>, x: T, k: nat)
    requires x in s && k < |s| - 1
    ensures var i := FirstIndex(s, y => y == x).value;
      RemoveFirst(s, x)[k] == if k < i then s[k] else s[k + 1]
  {
  }
}

=== FILE: models.dfy ===
/** The entities of the alarm-company database and the database itself.
    A nullable reference string (`string?`) is a `string` in which null is the
    empty string: the core only ever reads such fields through
    `IsNullOrWhiteSpace` or `x != null && x.Contains(..)`, where the two agree.
    `decimal` is `real`; `DateTime` is `Instant`; a `TimeSpan` of the day is seconds. */
module Models {
  import opened Results
  import opened Calendar

  // Work-order status codes (`WorkOrderStatusEnum`).
  const Unscheduled: int := 1
  const Scheduled: int := 2
  const InProgress: int := 3
  const Pending: int := 4
  const Canceled: int := 5
  const Completed: int := 6

  /** Neither Completed nor Canceled: the order still needs work. */
  predicate IsOpenStatus(statusId: int) {
    statusId != Completed && statusId != Canceled
  }

  datatype Customer = Customer(
    id: int,
    companyName: string,
    firstName: string,
    lastName: string,
    street: string,
    city: string,
    state: string,
    zipCode: string,
    county: string,
    emailAddress: string,
    homePhone: string,
    businessPhone: string,
    cellPhone: string,
    customerTypeId: int,
    linkedCustomerId: Option<int>,
    createdDate: Instant,
    modifiedDate: Option<Instant>,
    isActive: bool)

  datatype Contact = Contact(
    id: int,
    customerId: int,
    name: string,
    homePhone: string,
    businessPhone: string,
    cellPhone: string,
    emailAddress: string,
    contactTypeId: int,
    createdDate: Instant,
    isActive: bool)

  datatype SecuritySystem = SecuritySystem(
    id: int,
    customerId: int,
    centralStationNumber: string,
    panelTypeId: Option<int>,
    monitoringTypeId: Option<int>,
    monitoringStartDate: Option<Instant>,
    installedDate: Option<Instant>,
    masterSecurityCode: string,
    codeWord: string,
    policePhone: string,
    fireDeptPhone: string,
    ambulancePhone: string,
    cityPermitNumber: string,
    permitDueDate: Option<Instant>,
    authorityNotes: string,
    primaryCommunicatorId: Option<int>,
    secondaryCommunicatorId: Option<int>,
    createdDate: Instant,
    modifiedDate: Option<Instant>,
    isActive: bool)

  datatype Zone = Zone(
    id: int,
    securitySystemId: int,
    zoneNumber: int,
    signal: string,
    description: string,
    deviceTypeId: Option<int>,
    wirelessId: string,
    createdDate: Instant,
    isActive: bool)

  datatype Technician = Technician(
    id: int,
    firstName: string,
    lastName: string,
    emailAddress: string,
    phoneNumber: string,
    cellPhone: string,
    employeeNumber: string,
    hireDate: Option<Instant>,
    specializations: string,
    certifications: string,
    isActive: bool,
    createdDate: Instant)

  datatype Communicator = Communicator(
    id: int,
    communicatorTypeId: int,
    manufacturer: string,
    modelNumber: string,
    radioId: string,
    ipAddress: string,
    gateway: string,
    subnet: string,
    phoneNumber1: string,
    phoneNumber2: string,
    notes: string,
    createdDate: Instant,
    isActive: bool)

  datatype WorkOrder = WorkOrder(
    id: int,
    number: string,
    customerId: int,
    description: string,
    workOrderTypeId: int,
    categoryId: int,
    statusId: int,
    technicianId: Option<int>,
    scheduledDate: Option<Instant>,
    scheduledStartTime: Option<int>,
    endTime: Option<int>,
    estimatedHours: Option<real>,
    actualHours: Option<real>,
    completedDate: Option<Instant>,
    notes: string,
    estimatedCost: Option<real>,
    actualCost: Option<real>,
    createdDate: Instant,
    modifiedDate: Option<Instant>,
    createdBy: string,
    isActive: bool)

  datatype WorkOrderItem = WorkOrderItem(
    id: int,
    workOrderId: int,
    description: string,
    quantity: real,
    unitPrice: real,
    partNumber: string,
    notes: string,
    createdDate: Instant,
    isActive: bool)
  {
    /** `TotalPrice => Quantity * UnitPrice`. */
    function TotalPrice(): real {
      quantity * unitPrice
    }
  }

  /** The nine lookup tables maintained on the settings screen. */
  datatype LookupKind =
    | CustomerTypes | ContactTypes | PanelTypes | MonitoringTypes | DeviceTypes
    | CommunicatorTypes | WorkOrderTypes | WorkOrderCategories | WorkOrderStatuses

  /** A lookup row. Most lookups are a name and a description; panel types are a
      manufacturer and model, statuses add a colour and a sort position. */
  datatype Lookup =
    | TypeRow(id: int, name: string, description: string, isActive: bool)
    | PanelRow(id: int, manufacturer: string, modelNumber: string, description: string, isActive: bool)
    | StatusRow(id: int, name: string, description: string, colorCode: string, sortOrder: int, isActive: bool)
  {
    /** The row with its activity flag replaced. */
    function WithActive(active: bool): Lookup {
      match this
      case TypeRow(i, n, d, _) => TypeRow(i, n, d, active)
      case PanelRow(i, m, n, d, _) => PanelRow(i, m, n, d, active)
      case StatusRow(i, n, d, c, s, _) => StatusRow(i, n, d, c, s, active)
    }

    function WithId(newId: int): Lookup {
      match this
      case TypeRow(_, n, d, a) => TypeRow(newId, n, d, a)
      case PanelRow(_, m, n, d, a) => PanelRow(newId, m, n, d, a)
      case StatusRow(_, n, d, c, s, a) => StatusRow(newId, n, d, c, s, a)
    }
  }

  /** Which shape of row a lookup table holds. */
  predicate Fits(kind: LookupKind, row: Lookup) {
    match kind
    case PanelTypes => row.PanelRow?
    case WorkOrderStatuses => row.StatusRow?
    case _ => row.TypeRow?
  }

  /** The database: one table per entity, each a map from primary key to row. */
  datatype Db = Db(
    lookups: map<LookupKind, map<int, Lookup>>,
    technicians: map<int, Technician>,
    communicators: map<int, Communicator>,
    customers: map<int, Customer>,
    contacts: map<int, Contact>,
    securitySystems: map<int, SecuritySystem>,
    zones: map<int, Zone>,
    workOrders: map<int, WorkOrder>,
    workOrderItems: map<int, WorkOrderItem>)
  {
    /** The table of one lookup kind (empty when never populated). */
    function Lookups(kind: LookupKind): map<int, Lookup> {
      if kind in lookups then lookups[kind] else map[]
    }

    function WithLookups(kind: LookupKind, table: map<int, Lookup>): (d: Db)
      ensures d.Lookups(kind) == table
      ensures forall k :: k != kind ==> d.Lookups(k) == Lookups(k)
      ensures d == this.(lookups := d.lookups)
    {
      this.(lookups := lookups[kind := table])
    }
  }

  /** Why a service call throws instead of returning. */
  datatype Failure =
    | NotFound(id: int)              // the row to update does not exist
    | InUse(id: int)                 // an active row still refers to the row to delete
    | DuplicateNumber(number: string) // the unique index on `WorkOrderNumber` rejects the insert

  /** A service call: the database afterwards and the value returned or the exception
      raised. A call that raises saves nothing. */
  datatype Outcome<T> = Outcome(db: Db, result: Result<T, Failure>)

  /** Every row is stored under its own primary key. */
  ghost predicate WellKeyed(db: Db) {
    && (forall kind, k :: k in db.Lookups(kind) ==> db.Lookups(kind)[k].id == k && Fits(kind, db.Lookups(kind)[k]))
    && (forall k :: k in db.technicians ==> db.technicians[k].id == k)
    && (forall k :: k in db.communicators ==> db.communicators[k].id == k)
    && (forall k :: k in db.customers ==> db.customers[k].id == k)
    && (forall k :: k in db.contacts ==> db.contacts[k].id == k)
    && (forall k :: k in db.securitySystems ==> db.securitySystems[k].id == k)
    && (forall k :: k in db.zones ==> db.zones[k].id == k)
    && (forall k :: k in db.workOrders ==> db.workOrders[k].id == k)
    && (forall k :: k in db.workOrderItems ==> db.workOrderItems[k].id == k)
  }

  /** Storing a work order under its own id keeps the database well keyed. */
  lemma WellKeyedWithOrder(db: Db, row: WorkOrder)
    requires WellKeyed(db)
    ensures WellKeyed(db.(workOrders := db.workOrders[row.id := row]))
  {
    var d := db.(workOrders := db.workOrders[row.id := row]);
    forall kind ensures d.Lookups(kind) == db.Lookups(kind) {
    }
  }

  /** The unique index on `WorkOrderNumber`: no two orders, active or not, share a number. */
  ghost predicate NumbersUnique(db: Db) {
    forall j, k :: j in db.workOrders && k in db.workOrders && j != k ==>
      db.workOrders[j].number != db.workOrders[k].number
  }

  /** Some work order, active or soft-deleted, already carries `number`. */
  predicate NumberTaken(orders: map<int, WorkOrder>, number: string) {
    exists k :: k in orders && orders[k].number == number
  }

  const EmptyDb: Db := Db(map[], map[], map[], map[], map[], map[], map[], map[], map[])

  function TypeTable(rows: seq<(string, string)>): (t: map<int, Lookup>)
    ensures forall k :: k in t <==> 1 <= k <= |rows|
    ensures forall k :: k in t ==> t[k] == TypeRow(k, rows[k - 1].0, rows[k - 1].1, true)
    ensures forall k :: k in t ==> t[k].TypeRow? && t[k].id == k && t[k].isActive
  {
    if |rows| == 0 then map[]
    else
      var n := |rows|;
      TypeTable(rows[..n - 1])[n := TypeRow(n, rows[n - 1].0, rows[n - 1].1, true)]
  }

  /** The statuses seeded with the database: ids 1 to 6 in the order of `WorkOrderStatusEnum`. */
  const SeedStatuses: map<int, Lookup> := map[
    1 := StatusRow(1, "Unscheduled", "Not yet scheduled", "#FF6B6B", 1, true),
    2 := StatusRow(2, "Scheduled", "Scheduled for completion", "#4ECDC4", 2, true),
    3 := StatusRow(3, "In Progress", "Currently being worked on", "#45B7D1", 3, true),
    4 := StatusRow(4, "Pending", "Waiting for parts or approval", "#FFA726", 4, true),
    5 := StatusRow(5, "Canceled", "Work order canceled", "#78909C", 5, true),
    6 := StatusRow(6, "Completed", "Work completed successfully", "#66BB6A", 6, true)]

  const SeedPanels: map<int, Lookup> := map[
    1 := PanelRow(1, "Honeywell", "VISTA-20P", "VISTA-20P Control Panel", true),
    2 := PanelRow(2, "DSC", "PC1864", "PowerSeries PC1864 Panel", true),
    3 := PanelRow(3, "2GIG", "GC3", "2GIG Go!Control Panel", true),
    4 := PanelRow(4, "Qolsys", "IQ Panel 2", "Qolsys IQ Panel 2", true)]

  /** The seeded name and description of each row of a name-and-description lookup table,
      in id order. */
  function SeedNames(kind: LookupKind): seq<(string, string)> {
    match kind
    case CustomerTypes => [
      ("Residential", "Residential customers"), ("Commercial", "Commercial customers"),
      ("Government", "Government entities"), ("Education", "Educational institutions")]
    case ContactTypes => [
      ("Owner", "Property owner"), ("Primary", "Primary contact"), ("Secondary", "Secondary contact")]
    case MonitoringTypes => [
      ("Security Monitored", "Security monitoring service"), ("Fire UL Monitored", "UL listed fire monitoring"),
      ("Un Monitored", "Local alarm only")]
    case DeviceTypes => [
      ("Door/Window", "Door and window sensors"), ("Motion", "Motion detectors"),
      ("Glass Break", "Glass break detectors"), ("Smoke", "Smoke detectors"), ("Heat", "Heat detectors"),
      ("Carbon Monoxide", "CO detectors"), ("Panic", "Panic buttons"), ("Medical", "Medical alert devices"),
      ("Other", "Other device types")]
    case CommunicatorTypes => [
      ("GSM/Cell", "Cellular communicator"), ("AES", "AES radio communicator"),
      ("IP", "Internet protocol communicator"), ("POTS", "Plain old telephone service"),
      ("Other", "Other communication methods")]
    case WorkOrderTypes => [
      ("Service Call", "Service and repair calls"), ("Installation", "New system installations"),
      ("Inspection", "System inspections")]
    case WorkOrderCategories => [
      ("Security System", "Security alarm system work"), ("Fire System", "Fire alarm system work"),
      ("CCTV", "Video surveillance work"), ("Access Control", "Access control system work")]
    case _ => []
  }

  /** The seeded rows of one lookup table. */
  function SeedTable(kind: LookupKind): (t: map<int, Lookup>)
    ensures forall k :: k in t ==> t[k].id == k && Fits(kind, t[k]) && t[k].isActive
  {
    if kind == WorkOrderStatuses then SeedStatuses
    else if kind == PanelTypes then SeedPanels
    else TypeTable(SeedNames(kind))
  }

  /** The database as first created: the seeded lookup rows and nothing else. */
  function SeedDb(): (db: Db)
    ensures WellKeyed(db) && NumbersUnique(db)
    ensures forall kind, k :: k in db.Lookups(kind) ==> db.Lookups(kind)[k].isActive
  {
    EmptyDb.(lookups := map kind: LookupKind | kind in AllKinds :: SeedTable(kind))
  }

  const AllKinds: set<LookupKind> := {
    CustomerTypes, ContactTypes, PanelTypes, MonitoringTypes, DeviceTypes,
    CommunicatorTypes, WorkOrderTypes, WorkOrderCategories, WorkOrderStatuses}
}

=== FILE: numbering.dfy ===
/** Work-order numbers `WO<year>-<nnnn>`. `GenerateAsWritten` follows
    `GenerateWorkOrderNumberAsync` step by step, and the work-order service
    uses it; `NextNumber` is the numbering it evidently intends (one past the
    highest number issued this year). */
module Numbering {
  import opened Results
  import opened Text
  import opened Numerals
  import opened Sorting
  import opened Calendar

  /** `$"WO{DateTime.Now.Year}"` */
  function Prefix(c: Clock): (p: string)
    ensures StartsWith(p, "WO") && |p| > 2
  {
    "WO" + NatToString(c.year)
  }

  /** `$"WO{DateTime.Now:yyyyMMddHHmmss}"`, the fallback when generation fails. */
  function Timestamp(c: Clock): (r: string)
    ensures StartsWith(r, "WO")
  {
    "WO" + Pad(c.year, 4) + Pad(c.month, 2) + Pad(c.day, 2) + Pad(c.hour, 2) + Pad(c.minute, 2) + Pad(c.second, 2)
  }

  /** The greatest string in ordinal order (`OrderByDescending(..).FirstOrDefault()`). */
  function LexMax(s: seq<string>): (r: Option<string>)
    ensures r.None? <==> |s| == 0
    ensures r.Some? ==> r.value in s && forall x :: x in s ==> LexLe(x, r.value)
  {
    if |s| == 0 then None
    else
      match LexMax(s[..|s| - 1])
      case None => Some(s[|s| - 1])
      case Some(m) =>
        LexLeTotalOrder();
        assert s == s[..|s| - 1] + [s[|s| - 1]];
        if LexLe(m, s[|s| - 1]) then Some(s[|s| - 1]) else Some(m)
  }

  /** The numbers that start with the prefix (`Where(w => w.WorkOrderNumber.StartsWith(prefix))`). */
  function Matches(numbers: seq<string>, p: string): (r: seq<string>)
    ensures forall x :: x in r <==> x in numbers && StartsWith(x, p)
  {
    Filter(numbers, (x: string) => StartsWith(x, p))
  }

  /** `GenerateWorkOrderNumberAsync` as written. `numbers` holds the numbers of all
      work orders, soft-deleted ones included. */
  function GenerateAsWritten(numbers: seq<string>, c: Clock): (r: string)
    ensures StartsWith(r, "WO")
    ensures (forall x :: x in numbers ==> !StartsWith(x, Prefix(c))) ==> r == Prefix(c) + "-0001"
  {
    var p := Prefix(c);
    match LexMax(Matches(numbers, p))
    case None => p + "-0001"
    case Some(last) =>
      if |last| < |p| + 1 then
        // `Substring(prefix.Length + 1)` on the bare prefix throws; the handler returns a timestamp.
        Timestamp(c)
      else
        match TryParseInt32(last[|p| + 1..])
        case Some(n) => p + "-" + FormatD(Wrap32(n + 1), 4)
        case None => p + "-0001"
  }

  /** `p-dddd`: the prefix, a hyphen and exactly four digits. */
  predicate IsCanonical(x: string, p: string) {
    |x| == |p| + 5 && x[..|p| + 1] == p + "-" && AllDigits(x[|p| + 1..])
  }

  /** The four-digit number of a canonical work-order number. */
  function Serial(x: string, p: string): (n: nat)
    requires IsCanonical(x, p)
    ensures n < 10000
  {
    assert Pow10(4) == 10000;
    ValueOf(x[|p| + 1..])
  }

  /** Two canonical numbers compare as strings exactly as their serials compare. */
  lemma CanonicalOrder(x: string, y: string, p: string)
    requires IsCanonical(x, p) && IsCanonical(y, p)
    ensures LexLess(x, y) <==> Serial(x, p) < Serial(y, p)
  {
    var q := p + "-";
    assert x == q + x[|q|..] && y == q + y[|q|..];
    LexLessCommonPrefix(q, x[|q|..], y[|q|..]);
    LexLessSameLengthDigits(x[|q|..], y[|q|..]);
  }

  /** The canonical number with serial `n`. */
  function Canonical(p: string, n: nat): (x: string)
    requires n < 10000
    ensures IsCanonical(x, p) && Serial(x, p) == n
  {
    NatToStringLength(n, 4);
    var x := p + "-" + Pad(n, 4);
    assert x[..|p| + 1] == p + "-" && x[|p| + 1..] == Pad(n, 4);
    x
  }

  /** The greatest match under the current prefix, if any. */
  function Last(numbers: seq<string>, c: Clock): Option<string> {
    LexMax(Matches(numbers, Prefix(c)))
  }

  /** When the greatest match is a canonical number below 9999, the generated number is
      the next canonical number. */
  lemma GenerateNext(numbers: seq<string>, c: Clock)
    requires Last(numbers, c).Some? && IsCanonical(Last(numbers, c).value, Prefix(c))
    requires Serial(Last(numbers, c).value, Prefix(c)) < 9999
    ensures GenerateAsWritten(numbers, c) == Canonical(Prefix(c), Serial(Last(numbers, c).value, Prefix(c)) + 1)
  {
    var p := Prefix(c);
    var last := Last(numbers, c).value;
    var n := Serial(last, p);
    ParseDigitString(last[|p| + 1..]);
    assert TryParseInt32(last[|p| + 1..]) == Some(n);
    assert FormatD(Wrap32(n + 1), 4) == Pad(n + 1, 4);
  }

  /** ... and that number sorts after every existing match, so it is new. */
  lemma GenerateAdvances(numbers: seq<string>, c: Clock)
    requires Last(numbers, c).Some? && IsCanonical(Last(numbers, c).value, Prefix(c))
    requires Serial(Last(numbers, c).value, Prefix(c)) < 9999
    ensures forall x :: x in numbers && StartsWith(x, Prefix(c)) ==> LexLess(x, GenerateAsWritten(numbers, c))
    ensures GenerateAsWritten(numbers, c) !in numbers
  {
    var p := Prefix(c);
    var last := Last(numbers, c).value;
    GenerateNext(numbers, c);
    var r := GenerateAsWritten(numbers, c);
    CanonicalOrder(last, r, p);
    assert LexLess(last, r);
    forall x | x in numbers && StartsWith(x, p) ensures LexLess(x, r) {
      assert x in Matches(numbers, p);
      if x != last {
        LexLessTransitive(x, last, r);
      }
    }
    if r in numbers {
      assert r[..|p|] == p;
      LexLessIrreflexive(r);
    }
  }

  /** When the only existing number of the year is the bare prefix, `Substring` fails and
      the timestamp is returned. */
  lemma GenerateBarePrefix(numbers: seq<string>, c: Clock)
    requires Prefix(c) in numbers
    requires forall x :: x in numbers && StartsWith(x, Prefix(c)) ==> x == Prefix(c)
    ensures GenerateAsWritten(numbers, c) == Timestamp(c)
  {
    var p := Prefix(c);
    assert StartsWith(p, p);
    assert p in Matches(numbers, p);
  }

  /** The failing branch of the generator: a greatest match whose text after the prefix
      and one more character does not parse restarts the year at `-0001`. */
  lemma GenerateUnparsable(numbers: seq<string>, c: Clock)
    requires Last(numbers, c).Some? && |Last(numbers, c).value| >= |Prefix(c)| + 1
    requires TryParseInt32(Last(numbers, c).value[|Prefix(c)| + 1..]) == None
    ensures GenerateAsWritten(numbers, c) == Prefix(c) + "-0001"
  {
  }

  /** An instance of the failing branch where `-0001` is already taken, so the number
      issued collides. */
  lemma GenerateUnparsableCollides(c: Clock)
    ensures var numbers := [Prefix(c) + "-0001", Prefix(c) + "-x"];
      GenerateAsWritten(numbers, c) == Prefix(c) + "-0001" && GenerateAsWritten(numbers, c) in numbers
  {
    var p := Prefix(c);
    var a, b := p + "-0001", p + "-x";
    var numbers := [a, b];
    assert StartsWith(a, p) && StartsWith(b, p);
    LexLessCommonPrefix(p, "-0001", "-x");
    assert LexLess("-0001", "-x");
    LastOfTwo(numbers, c, b, a);
    assert b[|p| + 1..] == "x";
    assert TryParseInt32("x") == None by {
      TrimUnchanged("x");
    }
  }

  /** `int.TryParse("9999")` gives 9999. */
  lemma Parse9999()
    ensures TryParseInt32("9999") == Some(9999)
  {
    assert NatToString(9999) == "9999";
    ParseDigitString("9999");
  }

  /** `(9999 + 1).ToString("D4")` is five digits long. */
  lemma Format10000()
    ensures FormatD(Wrap32(9999 + 1), 4) == "10000"
  {
    assert Wrap32(10000) == 10000;
    assert NatToString(10000) == "10000";
    assert Pad(10000, 4) == "10000";
  }

  /** The parsing branch of the generator: a greatest match whose text after the prefix
      and one more character parses to `n` yields `n + 1` in four-digit form. */
  lemma GenerateParsed(numbers: seq<string>, c: Clock, n: int)
    requires Last(numbers, c).Some? && |Last(numbers, c).value| >= |Prefix(c)| + 1
    requires TryParseInt32(Last(numbers, c).value[|Prefix(c)| + 1..]) == Some(n)
    ensures GenerateAsWritten(numbers, c) == Prefix(c) + "-" + FormatD(Wrap32(n + 1), 4)
  {
  }

  /** Whenever `p-9999` is the greatest match, the generator issues `p-10000`. */
  lemma GenerateAfterLast9999(numbers: seq<string>, c: Clock)
    requires Last(numbers, c) == Some(Prefix(c) + "-9999")
    ensures GenerateAsWritten(numbers, c) == Prefix(c) + "-10000"
  {
    var p := Prefix(c);
    assert p + "-" + "10000" == p + "-10000";
    assert (p + "-9999")[|p| + 1..] == "9999";
    Parse9999();
    Format10000();
    GenerateParsed(numbers, c, 9999);
  }

  /** After `p-9999` the generator issues the five-digit `p-10000`. */
  lemma GenerateAfter9999(c: Clock)
    ensures GenerateAsWritten([Prefix(c) + "-9999"], c) == Prefix(c) + "-10000"
  {
    var a := Prefix(c) + "-9999";
    LastOfOne([a], c, a);
    GenerateAfterLast9999([a], c);
  }

  /** Once `p-10000` exists the generator issues `p-10000` again: as a string it sorts
      before `p-9999`, so `p-9999` stays the greatest match. */
  lemma GenerateRepeats10000(c: Clock)
    ensures var numbers := [Prefix(c) + "-9999", Prefix(c) + "-10000"];
      GenerateAsWritten(numbers, c) == Prefix(c) + "-10000" && GenerateAsWritten(numbers, c) in numbers
  {
    var p := Prefix(c);
    var a, b := p + "-9999", p + "-10000";
    LexLessCommonPrefix(p, "-10000", "-9999");
    assert LexLess("-10000", "-9999");
    LastOfTwo([a, b], c, a, b);
    GenerateAfterLast9999([a, b], c);
  }

  /** A single match is the greatest. */
  lemma LastOfOne(numbers: seq<string>, c: Clock, x: string)
    requires numbers == [x] && StartsWith(x, Prefix(c))
    ensures Last(numbers, c) == Some(x)
  {
    assert x in Matches(numbers, Prefix(c));
  }

  /** Of two matches, the greatest is the one the other sorts below. */
  lemma LastOfTwo(numbers: seq<string>, c: Clock, hi: string, lo: string)
    requires numbers == [hi, lo] || numbers == [lo, hi]
    requires StartsWith(hi, Prefix(c)) && StartsWith(lo, Prefix(c)) && LexLess(lo, hi)
    ensures Last(numbers, c) == Some(hi)
  {
    var last := Last(numbers, c).value;
    assert hi in Matches(numbers, Prefix(c)) && lo in Matches(numbers, Prefix(c));
    assert LexLe(hi, last) && LexLe(lo, last);
    assert last == hi || last == lo;
    if last == lo {
      LexLessAsymmetric(lo, hi);
    }
  }

  // ------------------------------------------------------------ the intended rule

  /** The serial of a number of the form `p-<digits>` (any number of digits). */
  function SuffixValue(x: string, p: string): (v: Option<nat>)
    ensures v.Some? ==> StartsWith(x, p)
  {
    if |x| > |p| + 1 && x[..|p| + 1] == p + "-" && AllDigits(x[|p| + 1..]) then
      assert x[..|p|] == p;
      Some(ValueOf(x[|p| + 1..]))
    else None
  }

  /** The highest serial issued under prefix `p`, or 0 when there is none. */
  function MaxSerial(numbers: seq<string>, p: string): (m: nat)
    ensures forall x :: x in numbers && SuffixValue(x, p).Some? ==> SuffixValue(x, p).value <= m
    ensures m > 0 ==> exists x :: x in numbers && SuffixValue(x, p) == Some(m)
    ensures (forall x :: x in numbers ==> SuffixValue(x, p).None?) ==> m == 0
  {
    if |numbers| == 0 then 0
    else
      var rest := numbers[..|numbers| - 1];
      var x := numbers[|numbers| - 1];
      assert numbers == rest + [x];
      var m := MaxSerial(rest, p);
      match SuffixValue(x, p)
      case Some(v) => if v > m then v else m
      case None => m
  }

  /** The evident intent of the generator: one past the highest serial of the year,
      compared as numbers rather than strings, padded to at least four digits. */
  function NextNumber(numbers: seq<string>, c: Clock): (r: string)
    ensures SuffixValue(r, Prefix(c)) == Some(MaxSerial(numbers, Prefix(c)) + 1)
    ensures forall x :: x in numbers && SuffixValue(x, Prefix(c)).Some? ==>
      SuffixValue(x, Prefix(c)).value < SuffixValue(r, Prefix(c)).value
    ensures r !in numbers
  {
    var p := Prefix(c);
    var n := MaxSerial(numbers, p) + 1;
    var r := p + "-" + Pad(n, 4);
    assert r[..|p| + 1] == p + "-" && r[|p| + 1..] == Pad(n, 4);
    r
  }

  /** With no number of the year yet, both rules start at `-0001`. */
  lemma NextNumberFirst(numbers: seq<string>, c: Clock)
    requires forall x :: x in numbers ==> !StartsWith(x, Prefix(c))
    ensures NextNumber(numbers, c) == Prefix(c) + "-0001"
    ensures GenerateAsWritten(numbers, c) == NextNumber(numbers, c)
  {
    var p := Prefix(c);
    assert forall x :: x in numbers ==> SuffixValue(x, p).None?;
    assert Pad(1, 4) == "0001";
  }

  /** Where every number of the year is canonical and the highest serial is below 9999,
      the code as written and the intended rule issue the same number. */
  lemma NextNumberAgrees(numbers: seq<string>, c: Clock)
    requires forall x :: x in numbers && StartsWith(x, Prefix(c)) ==> IsCanonical(x, Prefix(c))
    requires exists x :: x in numbers && StartsWith(x, Prefix(c))
    requires forall x :: x in numbers && StartsWith(x, Prefix(c)) ==> Serial(x, Prefix(c)) < 9999
    ensures GenerateAsWritten(numbers, c) == NextNumber(numbers, c)
  {
    var p := Prefix(c);
    var w :| w in numbers && StartsWith(w, p);
    assert w in Matches(numbers, p);
    var last := Last(numbers, c).value;
    GenerateNext(numbers, c);
    MaxSerialOfGreatest(numbers, p, last);
  }

  /** Among canonical numbers the greatest as a string carries the highest serial. */
  lemma MaxSerialOfGreatest(numbers: seq<string>, p: string, last: string)
    requires forall x :: x in numbers && StartsWith(x, p) ==> IsCanonical(x, p)
    requires last in numbers && StartsWith(last, p)
    requires forall x :: x in numbers && StartsWith(x, p) ==> LexLe(x, last)
    ensures MaxSerial(numbers, p) == Serial(last, p)
  {
    assert SuffixValue(last, p) == Some(Serial(last, p));
    var m := MaxSerial(numbers, p);
    if m > 0 {
      var x :| x in numbers && SuffixValue(x, p) == Some(m);
      assert Serial(x, p) == m;
      CanonicalOrder(x, last, p);
    }
  }
}

=== FILE: numerals.dfy ===
/** Decimal numerals: `int.ToString()`, the `"D<n>"` zero-padded format,
    `int.TryParse` with the default integer style, and C#'s unchecked
    32-bit arithmetic. */
module Numerals {
  import opened Results
  import opened Text

  const Int32Min: int := -0x8000_0000
  const Int32Max: int := 0x7FFF_FFFF

  predicate IsInt32(n: int) {
    Int32Min <= n <= Int32Max
  }

  /** Unchecked `int` arithmetic: the result is reduced into the 32-bit two's-complement range. */
  function Wrap32(n: int): (r: int)
    ensures IsInt32(r)
    ensures (r - n) % 0x1_0000_0000 == 0
    ensures IsInt32(n) ==> r == n
  {
    (n - Int32Min) % 0x1_0000_0000 + Int32Min
  }

  /** Adding one to `int.MaxValue` wraps to `int.MinValue`. */
  lemma WrapMaxPlusOne()
    ensures Wrap32(Int32Max + 1) == Int32Min
  {
  }

  function Pow10(k: nat): (r: nat)
    ensures r >= 1
  {
    if k == 0 then 1 else 10 * Pow10(k - 1)
  }

  function DigitChar(d: nat): (c: char)
    requires d < 10
    ensures IsDigit(c)
  {
    ('0' as int + d) as char
  }

  function DigitValue(c: char): (d: nat)
    requires IsDigit(c)
    ensures d < 10 && DigitChar(d) == c
  {
    c as int - '0' as int
  }

  /** The value of a string of decimal digits, most significant digit first. */
  function ValueOf(s: string): (v: nat)
    requires AllDigits(s)
    ensures v < Pow10(|s|)
  {
    if |s| == 0 then 0 else ValueOf(s[..|s| - 1]) * 10 + DigitValue(s[|s| - 1])
  }

  /** `n.ToString()` for a non-negative `n`: its digits, without leading zeros. */
  function NatToString(n: nat): (r: string)
    ensures 0 < |r| && AllDigits(r)
    ensures |r| > 1 ==> r[0] != '0'
    ensures ValueOf(r) == n
  {
    if n < 10 then [DigitChar(n)]
    else
      var p := NatToString(n / 10);
      var r := p + [DigitChar(n % 10)];
      assert r[..|r| - 1] == p;
      r
  }

  /** A numeral needs more than `k` digits exactly when the number reaches `10^k`. */
  lemma {:induction false} NatToStringLength(n: nat, k: nat)
    requires k > 0
    ensures |NatToString(n)| <= k <==> n < Pow10(k)
  {
    if n >= 10 && k > 1 {
      NatToStringLength(n / 10, k - 1);
    } else if n >= 10 {
      assert |NatToString(n)| >= 2 by { assert |NatToString(n / 10)| >= 1; }
    }
  }

  function Zeros(k: nat): (r: string)
    ensures |r| == k
    ensures forall i :: 0 <= i < k ==> r[i] == '0'
  {
    seq(k, i => '0')
  }

  /** Leading zeros do not change the value of a numeral. */
  lemma {:induction false} ValueOfLeadingZeros(k: nat, s: string)
    requires AllDigits(s)
    ensures AllDigits(Zeros(k) + s) && ValueOf(Zeros(k) + s) == ValueOf(s)
    decreases |s|
  {
    var z := Zeros(k) + s;
    if |s| == 0 {
      assert z == Zeros(k);
      ValueOfZeros(k);
    } else {
      assert z[..|z| - 1] == Zeros(k) + s[..|s| - 1];
      ValueOfLeadingZeros(k, s[..|s| - 1]);
    }
  }

  lemma {:induction false} ValueOfZeros(k: nat)
    ensures AllDigits(Zeros(k)) && ValueOf(Zeros(k)) == 0
  {
    if k > 0 {
      assert Zeros(k)[..k - 1] == Zeros(k - 1);
      ValueOfZeros(k - 1);
    }
  }

  /** The digits of `n`, left-padded with zeros to at least `w` characters. */
  function Pad(n: nat, w: nat): (r: string)
    ensures AllDigits(r) && ValueOf(r) == n
    ensures |r| == if |NatToString(n)| <= w then w else |NatToString(n)|
  {
    var s := NatToString(n);
    var z := if |s| <= w then w - |s| else 0;
    ValueOfLeadingZeros(z, s);
    Zeros(z) + s
  }

  /** `n.ToString("D<w>")`: a minus sign for negative numbers, then the magnitude padded to `w` digits. */
  function FormatD(n: int, w: nat): (r: string)
    ensures 0 < |r|
    ensures n < 0 <==> r[0] == '-'
    ensures n >= 0 ==> AllDigits(r) && ValueOf(r) == n
    ensures n < 0 ==> AllDigits(r[1..]) && ValueOf(r[1..]) == -n
  {
    if n < 0 then
      var r := "-" + Pad(-n, w);
      assert r[1..] == Pad(-n, w);
      r
    else
      Pad(n, w)
  }

  /** Among numerals of one length, ordinal string order is numeric order. */
  lemma {:induction false} LexLessSameLengthDigits(a: string, b: string)
    requires |a| == |b| && AllDigits(a) && AllDigits(b)
    ensures LexLess(a, b) <==> ValueOf(a) < ValueOf(b)
  {
    LexLessValueOf(a, b);
    LexLessValueOf(b, a);
    LexLessTotal(a, b);
  }

  lemma {:induction false} LexLessValueOf(a: string, b: string)
    requires |a| == |b| && AllDigits(a) && AllDigits(b)
    ensures LexLess(a, b) ==> ValueOf(a) < ValueOf(b)
  {
    if |a| > 0 {
      var a', b' := a[..|a| - 1], b[..|b| - 1];
      assert a == a' + [a[|a| - 1]] && b == b' + [b[|b| - 1]];
      LexLessAppend(a', a[|a| - 1], b', b[|b| - 1]);
      LexLessValueOf(a', b');
    }
  }

  /** Zero-padded numerals below `10^w` sort as ordinal strings in numeric order. */
  lemma PadOrder(a: nat, b: nat, w: nat)
    requires w > 0 && a < Pow10(w) && b < Pow10(w)
    ensures |Pad(a, w)| == w && |Pad(b, w)| == w
    ensures LexLess(Pad(a, w), Pad(b, w)) <==> a < b
  {
    NatToStringLength(a, w);
    NatToStringLength(b, w);
    LexLessSameLengthDigits(Pad(a, w), Pad(b, w));
  }

  /** `int.TryParse(s, out n)` with the default integer style: surrounding white space,
      an optional leading sign, one or more digits, and a value that fits in 32 bits. */
  function TryParseInt32(s: string): (r: Option<int>)
    ensures r.Some? ==> IsInt32(r.value)
  {
    var t := Trim(s);
    if |t| > 0 && (t[0] == '-' || t[0] == '+') then ParseMagnitude(t[1..], t[0] == '-')
    else ParseMagnitude(t, false)
  }

  function ParseMagnitude(d: string, negative: bool): (r: Option<int>)
    ensures r.Some? <==> 0 < |d| && AllDigits(d) && IsInt32(Signed(ValueOf(d), negative))
    ensures r.Some? ==> r.value == Signed(ValueOf(d), negative)
  {
    if |d| == 0 || !AllDigits(d) then None
    else
      var v := Signed(ValueOf(d), negative);
      if IsInt32(v) then Some(v) else None
  }

  function Signed(m: nat, negative: bool): int {
    if negative then -(m as int) else m
  }

  /** A string that starts and ends with something other than white space trims to itself. */
  lemma TrimUnchanged(s: string)
    requires |s| > 0 ==> !IsWhiteSpace(s[0]) && !IsWhiteSpace(s[|s| - 1])
    ensures Trim(s) == s
  {
    assert SkipSpace(s, 0) == 0;
  }

  /** Parsing a `"D<w>"` numeral gives back the number. */
  lemma ParseFormatD(n: int, w: nat)
    requires IsInt32(n)
    ensures TryParseInt32(FormatD(n, w)) == Some(n)
  {
    var r := FormatD(n, w);
    TrimUnchanged(r);
  }

  /** A string of digits that starts with neither a sign nor white space parses to its value when it fits. */
  lemma ParseDigitString(d: string)
    requires 0 < |d| && AllDigits(d) && IsInt32(ValueOf(d))
    ensures TryParseInt32(d) == Some(ValueOf(d))
  {
    TrimUnchanged(d);
    assert Trim(d) == d;
    assert !(d[0] == '-' || d[0] == '+');
  }

  /** Parsing fails on white space alone and on a lone sign. */
  lemma ParseRejectsBlank(s: string)
    requires IsBlank(s)
    ensures TryParseInt32(s) == None
  {
    assert |Trim(s)| == 0;
  }

  lemma ParseRejectsSign(s: string)
    requires s == "-" || s == "+"
    ensures TryParseInt32(s) == None
  {
    TrimUnchanged(s);
    assert Trim(s)[1..] == [];
  }
}

=== FILE: results.dfy ===
/** Optional values and success-or-error results, used for the nullable fields
    of the entities and for the exceptions the services raise. */
module Results {

  /** A value that may be absent (a C# nullable or a null reference). */
  datatype Option<+T> = None | Some(value: T) {

    /** The value, or `default` when absent (the C# `??` operator). */
    function GetOr(default: T): T {
      match this
      case Some(v) => v
      case None => default
    }
  }

  /** The outcome of an operation that either returns a value or raises an error. */
  datatype Result<+T, +E> = Ok(value: T) | Err(error: E) {

    predicate IsFailure() {
      Err?
    }
  }
}

=== FILE: settings.dfy ===
/** `SettingsService`: the nine lookup tables, technicians and communicators.
    Every table has the same four operations; deleting is a soft delete guarded
    by a check that no active row still refers to the one being deleted. */
module Settings {
  import opened Results
  import opened Text
  import opened Sorting
  import opened Tables
  import opened Calendar
  import opened Models

  // ------------------------------------------------------------ lookup tables

  /** The text a lookup list is sorted by first: the name, or a panel's manufacturer. */
  function NameKey(r: Lookup): string {
    match r
    case TypeRow(_, n, _, _) => n
    case PanelRow(_, m, _, _, _) => m
    case StatusRow(_, n, _, _, _, _) => n
  }

  /** A panel's model number; other rows have none. */
  function ModelKey(r: Lookup): string {
    if r.PanelRow? then r.modelNumber else ""
  }

  /** A status's sort position; other rows have none. */
  function SortKey(r: Lookup): int {
    if r.StatusRow? then r.sortOrder else 0
  }

  /** The order of each `Get...Async` list: types by name, panel types by manufacturer
      then model number, statuses by sort order. */
  function LookupOrder(kind: LookupKind): (Lookup, Lookup) -> bool {
    match kind
    case PanelTypes => ThenBy(ByText(NameKey), ByText(ModelKey))
    case WorkOrderStatuses => ByInt(SortKey)
    case _ => ByText(NameKey)
  }

  lemma LookupOrderTotal(kind: LookupKind)
    ensures TotalPreorder(LookupOrder(kind))
  {
    ByTextTotal(NameKey);
    ByTextTotal(ModelKey);
    ThenByTotal(ByText(NameKey), ByText(ModelKey));
    ByIntTotal(SortKey);
  }

  /** `Get<Kind>Async`: the active rows of one lookup table, in that table's order. */
  function GetLookups(db: Db, kind: LookupKind): (r: seq<Lookup>)
    ensures forall x :: x in r <==> x in db.Lookups(kind).Values && x.isActive
    ensures SortedBy(r, LookupOrder(kind))
  {
    LookupOrderTotal(kind);
    Select(db.Lookups(kind), (x: Lookup) => x.isActive, LookupOrder(kind))
  }

  /** The statuses list is in sort order. */
  lemma StatusesInSortOrder(db: Db)
    ensures var r := GetLookups(db, WorkOrderStatuses);
      forall i, j :: 0 <= i < j < |r| ==> SortKey(r[i]) <= SortKey(r[j])
  {
    StatusOrder();
    ByIntSorted(GetLookups(db, WorkOrderStatuses), SortKey);
  }

  lemma StatusOrder()
    ensures LookupOrder(WorkOrderStatuses) == ByInt(SortKey)
  {
  }

  /** Some active row of the dependent table refers to lookup row `id`: customers for a
      customer type, contacts for a contact type, security systems for a panel or
      monitoring type, zones for a device type, communicators for a communicator type,
      work orders for a work-order type, category or status. */
  predicate Referenced(db: Db, kind: LookupKind, id: int) {
    match kind
    case CustomerTypes => exists k :: k in db.customers && db.customers[k].customerTypeId == id && db.customers[k].isActive
    case ContactTypes => exists k :: k in db.contacts && db.contacts[k].contactTypeId == id && db.contacts[k].isActive
    case PanelTypes =>
      exists k :: k in db.securitySystems && db.securitySystems[k].panelTypeId == Some(id) && db.securitySystems[k].isActive
    case MonitoringTypes =>
      exists k :: k in db.securitySystems && db.securitySystems[k].monitoringTypeId == Some(id) && db.securitySystems[k].isActive
    case DeviceTypes => exists k :: k in db.zones && db.zones[k].deviceTypeId == Some(id) && db.zones[k].isActive
    case CommunicatorTypes =>
      exists k :: k in db.communicators && db.communicators[k].communicatorTypeId == id && db.communicators[k].isActive
    case WorkOrderTypes => exists k :: k in db.workOrders && db.workOrders[k].workOrderTypeId == id && db.workOrders[k].isActive
    case WorkOrderCategories => exists k :: k in db.workOrders && db.workOrders[k].categoryId == id && db.workOrders[k].isActive
    case WorkOrderStatuses => exists k :: k in db.workOrders && db.workOrders[k].statusId == id && db.workOrders[k].isActive
  }

  /** `Add<Kind>Async`: the row is stored active under a fresh id, whatever flag it came with. */
  function AddLookup(db: Db, kind: LookupKind, row: Lookup): (o: Outcome<Lookup>)
    requires Fits(kind, row)
    ensures o.result.Ok?
    ensures var added := o.result.value;
      && added.isActive && added.id !in db.Lookups(kind)
      && added == row.WithId(added.id).WithActive(true)
      && o.db == db.WithLookups(kind, db.Lookups(kind)[added.id := added])
  {
    var id := NextId(db.Lookups(kind));
    var added := row.WithId(id).WithActive(true);
    Outcome(db.WithLookups(kind, db.Lookups(kind)[id := added]), Ok(added))
  }

  /** `Update<Kind>Async`: every editable field and the active flag are copied as given.
      Since that is every field but the id, the stored row becomes the input row in a
      database whose rows sit under their own ids. */
  function UpdateLookup(db: Db, kind: LookupKind, row: Lookup): (o: Outcome<Lookup>)
    requires Fits(kind, row)
    ensures o.result.Err? <==> row.id !in db.Lookups(kind)
    ensures o.result.Err? ==> o.db == db && o.result.error == NotFound(row.id)
    ensures o.result.Ok? ==>
      && o.result.value == row.WithId(db.Lookups(kind)[row.id].id)
      && o.db == db.WithLookups(kind, db.Lookups(kind)[row.id := o.result.value])
    ensures o.result.Ok? && WellKeyed(db) ==> o.result.value == row
  {
    var table := db.Lookups(kind);
    if row.id !in table then Outcome(db, Err(NotFound(row.id)))
    else
      var e := table[row.id];
      var updated := match row
        case TypeRow(_, n, d, a) => TypeRow(e.id, n, d, a)
        case PanelRow(_, m, n, d, a) => PanelRow(e.id, m, n, d, a)
        case StatusRow(_, n, d, c, s, a) => StatusRow(e.id, n, d, c, s, a);
      Outcome(db.WithLookups(kind, table[row.id := updated]), Ok(updated))
  }

  /** `Delete<Kind>Async`: false for an unknown id; an error while an active row refers to
      it; otherwise the row is deactivated and true returned. */
  function DeleteLookup(db: Db, kind: LookupKind, id: int): (o: Outcome<bool>)
    ensures o.result == Ok(false) <==> id !in db.Lookups(kind)
    ensures o.result.Err? <==> id in db.Lookups(kind) && Referenced(db, kind, id)
    ensures o.result.Err? ==> o.result.error == InUse(id)
    ensures !o.result.Ok? || !o.result.value ==> o.db == db
    ensures o.result == Ok(true) ==>
      o.db == db.WithLookups(kind, db.Lookups(kind)[id := db.Lookups(kind)[id].WithActive(false)])
  {
    var table := db.Lookups(kind);
    if id !in table then Outcome(db, Ok(false))
    else if Referenced(db, kind, id) then Outcome(db, Err(InUse(id)))
    else Outcome(db.WithLookups(kind, table[id := table[id].WithActive(false)]), Ok(true))
  }

  /** A successful delete removes the row from its list and from nothing else. */
  lemma DeleteLookupHides(db: Db, kind: LookupKind, id: int)
    requires WellKeyed(db)
    requires DeleteLookup(db, kind, id).result == Ok(true)
    ensures forall x :: x in GetLookups(DeleteLookup(db, kind, id).db, kind) ==> x.id != id
    ensures forall k :: k != kind ==> GetLookups(DeleteLookup(db, kind, id).db, k) == GetLookups(db, k)
  {
    var d := DeleteLookup(db, kind, id).db;
    forall x | x in GetLookups(d, kind) ensures x.id != id {
      var k :| k in d.Lookups(kind) && d.Lookups(kind)[k] == x;
      if k != id {
        assert db.Lookups(kind)[k] == x;
      }
    }
  }

  /** Deleting an unused row twice succeeds twice and changes nothing the second time:
      the guard looks only at the dependent tables, which a delete leaves alone. */
  lemma DeleteLookupIdempotent(db: Db, kind: LookupKind, id: int)
    requires DeleteLookup(db, kind, id).result == Ok(true)
    ensures var d := DeleteLookup(db, kind, id).db;
      DeleteLookup(d, kind, id) == Outcome(d, Ok(true))
  {
    var d := DeleteLookup(db, kind, id).db;
    var row := d.Lookups(kind)[id];
    assert row == db.Lookups(kind)[id].WithActive(false);
    assert Referenced(d, kind, id) == Referenced(db, kind, id);
    assert row.WithActive(false) == row;
    assert d.Lookups(kind)[id := row] == d.Lookups(kind);
    assert d.WithLookups(kind, d.Lookups(kind)) == d;
  }

  /** References from soft-deleted rows never block a delete. */
  lemma InactiveReferencesDoNotBlock(db: Db, id: int)
    requires id in db.Lookups(CustomerTypes)
    requires forall k :: k in db.customers && db.customers[k].customerTypeId == id ==> !db.customers[k].isActive
    ensures DeleteLookup(db, CustomerTypes, id).result == Ok(true)
  {
  }

  /** An update can deactivate a row that a delete would refuse to touch. */
  lemma UpdateBypassesGuard(db: Db, kind: LookupKind, row: Lookup)
    requires Fits(kind, row) && !row.isActive
    requires row.id in db.Lookups(kind) && Referenced(db, kind, row.id)
    ensures DeleteLookup(db, kind, row.id).result.Err?
    ensures UpdateLookup(db, kind, row).result.Ok?
    ensures row !in GetLookups(UpdateLookup(db, kind, row).db, kind)
  {
  }

  /** An added row appears in its list. */
  lemma AddLookupListed(db: Db, kind: LookupKind, row: Lookup)
    requires Fits(kind, row)
    ensures var o := AddLookup(db, kind, row);
      o.result.value in GetLookups(o.db, kind)
  {
    var o := AddLookup(db, kind, row);
    assert o.db.Lookups(kind)[o.result.value.id] == o.result.value;
  }

  // ------------------------------------------------------------ technicians

  /** `OrderBy(t => t.LastName).ThenBy(t => t.FirstName)`. */
  const ByName: (Technician, Technician) -> bool :=
    ThenBy(ByText((t: Technician) => t.lastName), ByText((t: Technician) => t.firstName))

  /** `GetTechniciansAsync`: the active technicians by last then first name. */
  function GetTechnicians(db: Db): (r: seq<Technician>)
    ensures forall t :: t in r <==> t in db.technicians.Values && t.isActive
    ensures forall i, j :: 0 <= i < j < |r| ==> LexLe(r[i].lastName, r[j].lastName)
    ensures forall i, j :: 0 <= i < j < |r| && r[i].lastName == r[j].lastName ==> LexLe(r[i].firstName, r[j].firstName)
  {
    ByTextTotal((t: Technician) => t.lastName);
    ByTextTotal((t: Technician) => t.firstName);
    ThenByTotal(ByText((t: Technician) => t.lastName), ByText((t: Technician) => t.firstName));
    Select(db.technicians, (t: Technician) => t.isActive, ByName)
  }

  /** `GetTechnicianByIdAsync`: a deactivated technician is not found. */
  function GetTechnicianById(db: Db, id: int): (r: Option<Technician>)
    ensures r.Some? <==> id in db.technicians && db.technicians[id].isActive
    ensures r.Some? ==> r.value == db.technicians[id]
  {
    if id in db.technicians && db.technicians[id].isActive then Some(db.technicians[id]) else None
  }

  /** `AddTechnicianAsync`: stored active and stamped, under a fresh id. */
  function AddTechnician(db: Db, t: Technician, c: Clock): (o: Outcome<Technician>)
    ensures o.result.Ok?
    ensures var added := o.result.value;
      && added.id !in db.technicians
      && added == t.(id := added.id, isActive := true, createdDate := c.Now())
      && o.db == db.(technicians := db.technicians[added.id := added])
  {
    var id := NextId(db.technicians);
    var added := t.(id := id, isActive := true, createdDate := c.Now());
    Outcome(db.(technicians := db.technicians[id := added]), Ok(added))
  }

  /** `UpdateTechnicianAsync`: every field but the id and the creation date is copied,
      the active flag included. */
  function UpdateTechnician(db: Db, t: Technician): (o: Outcome<Technician>)
    ensures o.result.Err? <==> t.id !in db.technicians
    ensures o.result.Err? ==> o.db == db && o.result.error == NotFound(t.id)
    ensures o.result.Ok? ==>
      && o.result.value == t.(id := db.technicians[t.id].id, createdDate := db.technicians[t.id].createdDate)
      && o.db == db.(technicians := db.technicians[t.id := o.result.value])
  {
    if t.id !in db.technicians then Outcome(db, Err(NotFound(t.id)))
    else
      var e := db.technicians[t.id];
      var updated := e.(firstName := t.firstName, lastName := t.lastName, emailAddress := t.emailAddress,
        phoneNumber := t.phoneNumber, cellPhone := t.cellPhone, employeeNumber := t.employeeNumber,
        hireDate := t.hireDate, specializations := t.specializations, certifications := t.certifications,
        isActive := t.isActive);
      Outcome(db.(technicians := db.technicians[t.id := updated]), Ok(updated))
  }

  /** The technician still has an active order that is neither completed nor canceled. */
  predicate HasOpenWork(db: Db, technicianId: int) {
    exists k :: k in db.workOrders && db.workOrders[k].technicianId == Some(technicianId)
      && db.workOrders[k].isActive && IsOpenStatus(db.workOrders[k].statusId)
  }

  /** `DeleteTechnicianAsync`: guarded by open work only. */
  function DeleteTechnician(db: Db, id: int): (o: Outcome<bool>)
    ensures o.result == Ok(false) <==> id !in db.technicians
    ensures o.result.Err? <==> id in db.technicians && HasOpenWork(db, id)
    ensures o.result.Err? ==> o.result.error == InUse(id)
    ensures !o.result.Ok? || !o.result.value ==> o.db == db
    ensures o.result == Ok(true) ==>
      o.db == db.(technicians := db.technicians[id := db.technicians[id].(isActive := false)])
  {
    if id !in db.technicians then Outcome(db, Ok(false))
    else if HasOpenWork(db, id) then Outcome(db, Err(InUse(id)))
    else Outcome(db.(technicians := db.technicians[id := db.technicians[id].(isActive := false)]), Ok(true))
  }

  /** Completed and canceled orders, however many, never keep a technician. */
  lemma FinishedWorkDoesNotBlock(db: Db, id: int)
    requires id in db.technicians
    requires forall k :: k in db.workOrders && db.workOrders[k].technicianId == Some(id) && db.workOrders[k].isActive ==>
      db.workOrders[k].statusId in {Completed, Canceled}
    ensures DeleteTechnician(db, id).result == Ok(true)
    ensures GetTechnicianById(DeleteTechnician(db, id).db, id) == None
  {
  }

  // ------------------------------------------------------------ communicators

  /** The name of the communicator's type, read through the navigation property. */
  function TypeName(db: Db, c: Communicator): Option<string> {
    var types := db.Lookups(CommunicatorTypes);
    if c.communicatorTypeId in types then Some(NameKey(types[c.communicatorTypeId])) else None
  }

  /** `OrderBy(c => c.CommunicatorType.TypeName).ThenBy(c => c.Manufacturer).ThenBy(c => c.ModelNumber)`. */
  function CommunicatorOrder(db: Db): (Communicator, Communicator) -> bool {
    ThenBy(ThenBy(ByOptionText((x: Communicator) => TypeName(db, x)), ByText((x: Communicator) => x.manufacturer)),
      ByText((x: Communicator) => x.modelNumber))
  }

  /** `GetCommunicatorsAsync`: the active communicators by type name, manufacturer and model. */
  function GetCommunicators(db: Db): (r: seq<Communicator>)
    ensures forall x :: x in r <==> x in db.communicators.Values && x.isActive
    ensures SortedBy(r, CommunicatorOrder(db))
  {
    ByOptionTextTotal((x: Communicator) => TypeName(db, x));
    ByTextTotal((x: Communicator) => x.manufacturer);
    ByTextTotal((x: Communicator) => x.modelNumber);
    ThenByTotal(ByOptionText((x: Communicator) => TypeName(db, x)), ByText((x: Communicator) => x.manufacturer));
    ThenByTotal(ThenBy(ByOptionText((x: Communicator) => TypeName(db, x)), ByText((x: Communicator) => x.manufacturer)),
      ByText((x: Communicator) => x.modelNumber));
    Select(db.communicators, (x: Communicator) => x.isActive, CommunicatorOrder(db))
  }

  /** `AddCommunicatorAsync`: stored active and stamped, under a fresh id. */
  function AddCommunicator(db: Db, x: Communicator, c: Clock): (o: Outcome<Communicator>)
    ensures o.result.Ok?
    ensures var added := o.result.value;
      && added.id !in db.communicators
      && added == x.(id := added.id, isActive := true, createdDate := c.Now())
      && o.db == db.(communicators := db.communicators[added.id := added])
  {
    var id := NextId(db.communicators);
    var added := x.(id := id, isActive := true, createdDate := c.Now());
    Outcome(db.(communicators := db.communicators[id := added]), Ok(added))
  }

  /** `UpdateCommunicatorAsync`: every field but the id and the creation date is copied,
      the active flag included. */
  function UpdateCommunicator(db: Db, x: Communicator): (o: Outcome<Communicator>)
    ensures o.result.Err? <==> x.id !in db.communicators
    ensures o.result.Err? ==> o.db == db && o.result.error == NotFound(x.id)
    ensures o.result.Ok? ==>
      && o.result.value == x.(id := db.communicators[x.id].id, createdDate := db.communicators[x.id].createdDate)
      && o.db == db.(communicators := db.communicators[x.id := o.result.value])
  {
    if x.id !in db.communicators then Outcome(db, Err(NotFound(x.id)))
    else
      var e := db.communicators[x.id];
      var updated := e.(communicatorTypeId := x.communicatorTypeId, manufacturer := x.manufacturer,
        modelNumber := x.modelNumber, radioId := x.radioId, ipAddress := x.ipAddress, gateway := x.gateway,
        subnet := x.subnet, phoneNumber1 := x.phoneNumber1, phoneNumber2 := x.phoneNumber2, notes := x.notes,
        isActive := x.isActive);
      Outcome(db.(communicators := db.communicators[x.id := updated]), Ok(updated))
  }

  /** An active security system uses the communicator as its primary or secondary one. */
  predicate CommunicatorInUse(db: Db, id: int) {
    exists k :: k in db.securitySystems && db.securitySystems[k].isActive
      && (db.securitySystems[k].primaryCommunicatorId == Some(id) || db.securitySystems[k].secondaryCommunicatorId == Some(id))
  }

  /** `DeleteCommunicatorAsync`: guarded by primary or secondary use. */
  function DeleteCommunicator(db: Db, id: int): (o: Outcome<bool>)
    ensures o.result == Ok(false) <==> id !in db.communicators
    ensures o.result.Err? <==> id in db.communicators && CommunicatorInUse(db, id)
    ensures o.result.Err? ==> o.result.error == InUse(id)
    ensures !o.result.Ok? || !o.result.value ==> o.db == db
    ensures o.result == Ok(true) ==>
      o.db == db.(communicators := db.communicators[id := db.communicators[id].(isActive := false)])
  {
    if id !in db.communicators then Outcome(db, Ok(false))
    else if CommunicatorInUse(db, id) then Outcome(db, Err(InUse(id)))
    else Outcome(db.(communicators := db.communicators[id := db.communicators[id].(isActive := false)]), Ok(true))
  }

  /** Use as a backup communicator blocks a delete just as primary use does. */
  lemma SecondaryUseBlocks(db: Db, id: int, k: int)
    requires id in db.communicators && k in db.securitySystems && db.securitySystems[k].isActive
    requires db.securitySystems[k].secondaryCommunicatorId == Some(id)
    ensures DeleteCommunicator(db, id) == Outcome(db, Err(InUse(id)))
  {
  }
}

=== FILE: settings_screen.dfy ===
/** The settings screen (`SettingsViewModel`): one editor per table. Each editor binds a
    list of rows, a selected row, a form (`Current...`) and an editing flag; Save sends
    the form to the service and patches the list, Delete asks the service and drops the
    row from the list. An exception from the service is caught and leaves the editor
    as it was. */
module SettingsScreen {
  import opened Results
  import opened Text
  import opened Sorting
  import opened Calendar
  import opened Models
  import opened Validation
  import opened Lists
  import opened Settings

  datatype Editor<T> = Editor(items: seq<T>, selected: Option<T>, current: T, editing: bool)

  /** An editor together with the database it talks to. */
  datatype Step<T> = Step(editor: Editor<T>, db: Db)

  // ------------------------------------------------------------ the generic part

  /** `StartAdding...`: a fresh form and editing on. */
  function StartAdding<T>(e: Editor<T>, blank: T): (r: Editor<T>)
    ensures r.editing && r.current == blank
    ensures r.items == e.items && r.selected == e.selected
  {
    e.(current := blank, editing := true)
  }

  /** `StartEditing...`: the form becomes a field-by-field copy of the selected row. */
  function StartEditing<T>(e: Editor<T>): (r: Editor<T>)
    ensures e.selected.None? ==> r == e
    ensures e.selected.Some? ==> r.editing && r.current == e.selected.value
    ensures r.items == e.items && r.selected == e.selected
  {
    if e.selected.None? then e else e.(current := e.selected.value, editing := true)
  }

  /** `CancelEditing...`: editing off and a new, empty form; the list and selection stay. */
  function Cancel<T>(e: Editor<T>, blank: T): (r: Editor<T>)
    ensures !r.editing && r.current == blank
    ensures r.items == e.items && r.selected == e.selected
  {
    e.(current := blank, editing := false)
  }

  /** How Save patches the list: a new row (id 0 on the form) is appended; an updated row
      replaces the first row with its id, in place, and when there is none the list stays. */
  function Upsert<T>(items: seq<T>, saved: T, added: bool, id: T -> int): (r: seq<T>)
    ensures added ==> r == items + [saved]
    ensures !added ==> |r| == |items|
    ensures !added ==> forall k :: 0 <= k < |items| ==>
      r[k] == if FirstIndex(items, SameId(id, saved)) == Some(k) then saved else items[k]
    ensures !added && (forall k :: 0 <= k < |items| ==> id(items[k]) != id(saved)) ==> r == items
  {
    if added then items + [saved] else ReplaceFirst(items, SameId(id, saved), saved)
  }

  /** An updated row whose id is listed lands where that id first appears. */
  lemma UpsertLandsInPlace<T>(items: seq<T>, saved: T, id: T -> int, k: nat)
    requires k < |items| && id(items[k]) == id(saved)
    requires forall j :: 0 <= j < k ==> id(items[j]) != id(saved)
    ensures Upsert(items, saved, false, id)[k] == saved
    ensures saved in Upsert(items, saved, false, id)
  {
    var p := SameId(id, saved);
    assert p(items[k]);
    assert FirstIndex(items, p) == Some(k);
  }

  /** The editor after a successful save: the list patched, editing off, the saved row
      selected. The service's add stamps the very object it is given and hands it back, so
      after an add the form is the saved row, id and all; an update returns the tracked
      entity, and the form stays the copy that was sent. */
  function Finish<T>(e: Editor<T>, saved: T, added: bool, id: T -> int): (r: Editor<T>)
    ensures r.items == Upsert(e.items, saved, added, id)
    ensures !r.editing && r.selected == Some(saved)
    ensures added ==> r.current == saved
    ensures !added ==> r.current == e.current
  {
    var form := if added then saved else e.current;
    e.(items := Upsert(e.items, saved, added, id), selected := Some(saved), current := form, editing := false)
  }

  /** The editor after a successful delete: the row gone from the list and nothing selected. */
  function Dropped<T(==)>(e: Editor<T>): (r: Editor<T>)
    requires e.selected.Some?
    ensures r.selected.None? && r.editing == e.editing && r.current == e.current
    ensures e.selected.value in e.items ==>
      |r.items| == |e.items| - 1 && multiset(r.items) == multiset(e.items) - multiset{e.selected.value}
    ensures e.selected.value !in e.items ==> r.items == e.items
  {
    e.(items := RemoveFirst(e.items, e.selected.value), selected := None)
  }

  // ------------------------------------------------------------ lookup tables

  /** The fields Save insists on: a name, or a panel's manufacturer and model number. */
  predicate Complete(row: Lookup) {
    match row
    case PanelRow(_, m, n, _, _) => !IsBlank(m) && !IsBlank(n)
    case _ => !IsBlank(NameKey(row))
  }

  function LookupId(row: Lookup): int {
    row.id
  }

  /** `new <Kind>()`: the form Cancel leaves behind. */
  function NewLookup(kind: LookupKind): (row: Lookup)
    ensures Fits(kind, row) && row.id == 0 && row.isActive && !Complete(row)
  {
    match kind
    case PanelTypes => PanelRow(0, "", "", "", true)
    case WorkOrderStatuses => StatusRow(0, "", "", "", 0, true)
    case _ => TypeRow(0, "", "", true)
  }

  /** The form Add starts from; a new status takes sort order count + 1, which is last only while no listed status sorts higher, and the default colour. */
  function AddingLookup(kind: LookupKind, count: nat): (row: Lookup)
    ensures Fits(kind, row) && row.id == 0 && row.isActive
    ensures kind == WorkOrderStatuses ==> row.sortOrder == count + 1 && row.colorCode == "#2196F3"
  {
    if kind == WorkOrderStatuses then StatusRow(0, "", "", "#2196F3", count + 1, true) else NewLookup(kind)
  }

  /** The service call Save makes: add for a form with id 0, update otherwise. */
  function SaveCall(db: Db, kind: LookupKind, row: Lookup): (o: Outcome<Lookup>)
    requires Fits(kind, row)
    ensures o.result.Err? <==> row.id != 0 && row.id !in db.Lookups(kind)
    ensures o.result.Err? ==> o.db == db
  {
    if row.id == 0 then AddLookup(db, kind, row) else UpdateLookup(db, kind, row)
  }

  /** `SaveSimpleTypeAsync` and the per-table Save commands. An incomplete form, or an
      update of a row the service cannot find, changes nothing. Otherwise the list is
      patched, editing ends and the saved row is selected; the statuses list is then
      re-sorted, stably, by sort order. */
  function SaveLookup(e: Editor<Lookup>, db: Db, kind: LookupKind): (r: Step<Lookup>)
    requires Fits(kind, e.current)
    ensures !Complete(e.current) ==> r == Step(e, db)
    ensures SaveCall(db, kind, e.current).result.Err? ==> r == Step(e, db)
    ensures Complete(e.current) && SaveCall(db, kind, e.current).result.Ok? ==>
      var o := SaveCall(db, kind, e.current);
      var patched := Upsert(e.items, o.result.value, e.current.id == 0, LookupId);
      && r.db == o.db
      && r.editor.selected == Some(o.result.value) && !r.editor.editing
      && r.editor.current == (if e.current.id == 0 then o.result.value else e.current)
      && (kind != WorkOrderStatuses ==> r.editor.items == patched)
      && (kind == WorkOrderStatuses ==>
            && multiset(r.editor.items) == multiset(patched)
            && SortedBy(r.editor.items, ByInt(SortKey))
            && forall y :: Ties(r.editor.items, y, ByInt(SortKey)) == Ties(patched, y, ByInt(SortKey)))
  {
    if !Complete(e.current) then Step(e, db)
    else
      var o := SaveCall(db, kind, e.current);
      if o.result.Err? then Step(e, db)
      else
        var f := Finish(e, o.result.value, e.current.id == 0, LookupId);
        ByIntTotal(SortKey);
        if kind == WorkOrderStatuses then Step(f.(items := Sort(f.items, ByInt(SortKey))), o.db)
        else Step(f, o.db)
  }

  /** Adding a type grows its list by exactly the saved row, which the service now lists too. */
  lemma SaveNewLookupListed(e: Editor<Lookup>, db: Db, kind: LookupKind)
    requires Fits(kind, e.current) && Complete(e.current) && e.current.id == 0
    requires kind != WorkOrderStatuses
    ensures var r := SaveLookup(e, db, kind);
      && r.editor.selected.Some?
      && r.editor.items == e.items + [r.editor.selected.value]
      && r.editor.selected.value in GetLookups(r.db, kind)
  {
    var o := AddLookup(db, kind, e.current);
    assert o.db.Lookups(kind)[o.result.value.id] == o.result.value;
  }

  /** Saving a new type twice stores it once: the first save leaves the saved row, with
      its new id, on the form, so the second save updates that row in place. Holds while
      the list shows rows of the table, as it does after loading. */
  lemma SaveAgainUpdates(e: Editor<Lookup>, db: Db, kind: LookupKind)
    requires Fits(kind, e.current) && Complete(e.current) && e.current.id == 0
    requires kind != WorkOrderStatuses
    requires forall k :: 0 <= k < |e.items| ==> e.items[k].id in db.Lookups(kind)
    ensures var r1 := SaveLookup(e, db, kind);
      && r1.editor.current.id != 0
      && r1.editor.current.id in r1.db.Lookups(kind)
      && var r2 := SaveLookup(r1.editor, r1.db, kind);
      && r2.editor.items == r1.editor.items
      && |r2.editor.items| == |e.items| + 1
      && r2.editor.selected == r1.editor.selected
      && r2.db.Lookups(kind) == r1.db.Lookups(kind)
  {
    var o := AddLookup(db, kind, e.current);
    var saved := o.result.value;
    var r1 := SaveLookup(e, db, kind);
    assert r1.editor.items == e.items + [saved];
    assert r1.editor.current == saved;
    var p := SameId(LookupId, saved);
    assert saved.id !in db.Lookups(kind);
    forall k | 0 <= k < |e.items| ensures !p(e.items[k]) {
      assert e.items[k].id in db.Lookups(kind);
      assert p(e.items[k]) == (LookupId(e.items[k]) == LookupId(saved));
    }
    assert p(r1.editor.items[|e.items|]);
    assert FirstIndex(r1.editor.items, p) == Some(|e.items|);
  }

  /** Saving a status keeps the list's length: the re-sort only moves rows. */
  lemma SaveStatusKeepsCount(e: Editor<Lookup>, db: Db)
    requires Fits(WorkOrderStatuses, e.current) && Complete(e.current) && e.current.id != 0
    requires WellKeyed(db) && e.current.id in db.Lookups(WorkOrderStatuses)
    ensures var r := SaveLookup(e, db, WorkOrderStatuses);
      |r.editor.items| == |e.items| && r.editor.selected == Some(e.current)
  {
    var r := SaveLookup(e, db, WorkOrderStatuses);
    assert |multiset(r.editor.items)| == |multiset(Upsert(e.items, e.current, false, LookupId))|;
  }

  /** `DeleteSimpleTypeAsync` and the per-table Delete commands: nothing happens without a
      selection or a confirmation; the row leaves the list, and the selection is cleared,
      exactly when the service deletes it. */
  function DeleteLookupRow(e: Editor<Lookup>, db: Db, kind: LookupKind, confirmed: bool): (r: Step<Lookup>)
    ensures e.selected.None? || !confirmed ==> r == Step(e, db)
    ensures e.selected.Some? && confirmed ==>
      var id := e.selected.value.id;
      (r.editor.selected.None? <==> id in db.Lookups(kind) && !Referenced(db, kind, id))
    ensures r.editor.selected.Some? ==> r == Step(e, db)
    ensures r.editor.selected.None? && e.selected.Some? ==>
      var id := e.selected.value.id;
      && r.editor == Dropped(e)
      && r.db == db.WithLookups(kind, db.Lookups(kind)[id := db.Lookups(kind)[id].WithActive(false)])
  {
    if e.selected.None? || !confirmed then Step(e, db)
    else
      var o := DeleteLookup(db, kind, e.selected.value.id);
      if o.result == Ok(true) then Step(Dropped(e), o.db) else Step(e, db)
  }

  // ------------------------------------------------------------ technicians

  /** What `SaveTechnicianAsync` checks: both names, and the email when one is given. */
  predicate TechnicianComplete(t: Technician) {
    && !IsBlank(t.firstName) && !IsBlank(t.lastName)
    && (IsBlank(t.emailAddress) || IsValidEmail(t.emailAddress))
  }

  function TechnicianId(t: Technician): int {
    t.id
  }

  /** `new Technician()`. */
  function NewTechnician(c: Clock): (t: Technician)
    ensures t.id == 0 && t.isActive && t.hireDate.None? && !TechnicianComplete(t)
  {
    Technician(0, "", "", "", "", "", "", None, "", "", true, c.Now())
  }

  /** `StartAddingTechnician`: hired today. */
  function AddingTechnician(c: Clock): (t: Technician)
    ensures t == NewTechnician(c).(hireDate := Some(StartOfDay(c.Today())))
  {
    NewTechnician(c).(hireDate := Some(StartOfDay(c.Today())))
  }

  /** `SaveTechnicianAsync`. */
  function SaveTechnician(e: Editor<Technician>, db: Db, c: Clock): (r: Step<Technician>)
    ensures !TechnicianComplete(e.current) ==> r == Step(e, db)
    ensures e.current.id != 0 && e.current.id !in db.technicians ==> r == Step(e, db)
    ensures TechnicianComplete(e.current) && e.current.id == 0 ==>
      var o := AddTechnician(db, e.current, c);
      && r == Step(Finish(e, o.result.value, true, TechnicianId), o.db)
      && r.editor.current == o.result.value && r.editor.current.id != 0
    ensures TechnicianComplete(e.current) && e.current.id in db.technicians && e.current.id != 0 ==>
      var o := UpdateTechnician(db, e.current);
      r == Step(Finish(e, o.result.value, false, TechnicianId), o.db)
  {
    if !TechnicianComplete(e.current) then Step(e, db)
    else if e.current.id == 0 then
      var o := AddTechnician(db, e.current, c);
      Step(Finish(e, o.result.value, true, TechnicianId), o.db)
    else
      var o := UpdateTechnician(db, e.current);
      if o.result.Err? then Step(e, db) else Step(Finish(e, o.result.value, false, TechnicianId), o.db)
  }

  /** A malformed email blocks the save even when both names are given. */
  lemma BadEmailBlocksSave(e: Editor<Technician>, db: Db, c: Clock)
    requires !IsBlank(e.current.emailAddress) && !EmailShape(e.current.emailAddress)
    ensures SaveTechnician(e, db, c) == Step(e, db)
  {
    EmailShapeIff(e.current.emailAddress);
  }

  /** `DeleteTechnicianAsync`: removed from the list exactly when no open work holds it. */
  function DeleteTechnicianRow(e: Editor<Technician>, db: Db, confirmed: bool): (r: Step<Technician>)
    ensures e.selected.None? || !confirmed ==> r == Step(e, db)
    ensures e.selected.Some? && confirmed ==>
      var id := e.selected.value.id;
      (r.editor.selected.None? <==> id in db.technicians && !HasOpenWork(db, id))
    ensures r.editor.selected.Some? ==> r == Step(e, db)
    ensures r.editor.selected.None? && e.selected.Some? ==> r.editor == Dropped(e)
  {
    if e.selected.None? || !confirmed then Step(e, db)
    else
      var o := DeleteTechnician(db, e.selected.value.id);
      if o.result == Ok(true) then Step(Dropped(e), o.db) else Step(e, db)
  }

  // ------------------------------------------------------------ communicators

  function CommunicatorId(x: Communicator): int {
    x.id
  }

  /** `new Communicator()`: no type chosen yet. */
  function NewCommunicator(c: Clock): (x: Communicator)
    ensures x.id == 0 && x.communicatorTypeId == 0 && x.isActive
  {
    Communicator(0, 0, "", "", "", "", "", "", "", "", "", c.Now(), true)
  }

  /** `StartAddingCommunicator`: the first listed communicator type, or 1. */
  function AddingCommunicator(c: Clock, firstTypeId: Option<int>): (x: Communicator)
    ensures x == NewCommunicator(c).(communicatorTypeId := firstTypeId.GetOr(1))
  {
    NewCommunicator(c).(communicatorTypeId := firstTypeId.GetOr(1))
  }

  /** `SaveCommunicatorAsync`: a type must be chosen. */
  function SaveCommunicator(e: Editor<Communicator>, db: Db, c: Clock): (r: Step<Communicator>)
    ensures e.current.communicatorTypeId <= 0 ==> r == Step(e, db)
    ensures e.current.id != 0 && e.current.id !in db.communicators ==> r == Step(e, db)
    ensures e.current.communicatorTypeId > 0 && e.current.id == 0 ==>
      var o := AddCommunicator(db, e.current, c);
      && r == Step(Finish(e, o.result.value, true, CommunicatorId), o.db)
      && r.editor.current == o.result.value && r.editor.current.id != 0
    ensures e.current.communicatorTypeId > 0 && e.current.id in db.communicators && e.current.id != 0 ==>
      var o := UpdateCommunicator(db, e.current);
      r == Step(Finish(e, o.result.value, false, CommunicatorId), o.db)
  {
    if e.current.communicatorTypeId <= 0 then Step(e, db)
    else if e.current.id == 0 then
      var o := AddCommunicator(db, e.current, c);
      Step(Finish(e, o.result.value, true, CommunicatorId), o.db)
    else
      var o := UpdateCommunicator(db, e.current);
      if o.result.Err? then Step(e, db) else Step(Finish(e, o.result.value, false, CommunicatorId), o.db)
  }

  /** A cancelled communicator form cannot be saved until a type is picked again. */
  lemma CancelledCommunicatorNotSaved(e: Editor<Communicator>, db: Db, c: Clock)
    ensures var f := Cancel(e, NewCommunicator(c)); SaveCommunicator(f, db, c) == Step(f, db)
  {
  }

  /** `DeleteCommunicatorAsync`: removed from the list exactly when no active system uses it. */
  function DeleteCommunicatorRow(e: Editor<Communicator>, db: Db, confirmed: bool): (r: Step<Communicator>)
    ensures e.selected.None? || !confirmed ==> r == Step(e, db)
    ensures e.selected.Some? && confirmed ==>
      var id := e.selected.value.id;
      (r.editor.selected.None? <==> id in db.communicators && !CommunicatorInUse(db, id))
    ensures r.editor.selected.Some? ==> r == Step(e, db)
    ensures r.editor.selected.None? && e.selected.Some? ==> r.editor == Dropped(e)
  {
    if e.selected.None? || !confirmed then Step(e, db)
    else
      var o := DeleteCommunicator(db, e.selected.value.id);
      if o.result == Ok(true) then Step(Dropped(e), o.db) else Step(e, db)
  }

  // ------------------------------------------------------------ the form round trip

  /** Editing a row and saving it unchanged, in a database keyed by id, gives back the same
      row in the same place of the list. */
  lemma EditSaveRoundTrip(e: Editor<Lookup>, db: Db, kind: LookupKind, k: nat)
    requires kind != WorkOrderStatuses && WellKeyed(db)
    requires k < |e.items| && e.selected == Some(e.items[k]) && Fits(kind, e.items[k]) && Complete(e.items[k])
    requires e.items[k].id != 0 && e.items[k].id in db.Lookups(kind)
    requires forall j :: 0 <= j < k ==> e.items[j].id != e.items[k].id
    ensures var r := SaveLookup(StartEditing(e), db, kind);
      r.editor.items == e.items && r.editor.selected == e.selected && !r.editor.editing
  {
    var f := StartEditing(e);
    var x := e.items[k];
    UpsertLandsInPlace(e.items, x, LookupId, k);
    var u := Upsert(e.items, x, false, LookupId);
    assert u == e.items by {
      forall j | 0 <= j < |e.items| ensures u[j] == e.items[j] {
        if FirstIndex(e.items, SameId(LookupId, x)) == Some(j) {
          assert SameId(LookupId, x)(e.items[j]);
        }
      }
    }
  }
}

=== FILE: sorting.dfy ===
/** Ordering of query results. LINQ's `OrderBy`/`ThenBy` become a stable
    insertion sort over a comparator `le` ("may come before"); `Where` becomes
    `Filter` and `Take` becomes `Take`. */
module Sorting {
  import opened Results
  import opened Text

  /** `le` is total and transitive, so it orders every sequence (ties allowed). */
  ghost predicate TotalPreorder<T(!new)>(le: (T, T) -> bool) {
    && (forall a, b :: le(a, b) || le(b, a))
    && (forall a, b, c :: le(a, b) && le(b, c) ==> le(a, c))
  }

  predicate SortedBy<T>(s: seq<T>, le: (T, T) -> bool) {
    forall i, j :: 0 <= i < j < |s| ==> le(s[i], s[j])
  }

  /** Neither element must come before the other: they tie under `le`. */
  predicate Tie<T>(a: T, b: T, le: (T, T) -> bool) {
    le(a, b) && le(b, a)
  }

  /** The elements of `s` that tie with `y`, in their order in `s`. */
  function Ties<T>(s: seq<T>, y: T, le: (T, T) -> bool): seq<T> {
    if |s| == 0 then []
    else Ties(s[..|s| - 1], y, le) + (if Tie(s[|s| - 1], y, le) then [s[|s| - 1]] else [])
  }

  lemma {:induction false} TiesAppend<T>(a: seq<T>, b: seq<T>, y: T, le: (T, T) -> bool)
    ensures Ties(a + b, y, le) == Ties(a, y, le) + Ties(b, y, le)
    decreases |b|
  {
    if |b| == 0 {
      assert a + b == a;
    } else {
      assert (a + b)[..|a + b| - 1] == a + b[..|b| - 1];
      TiesAppend(a, b[..|b| - 1], y, le);
    }
  }

  /** Inserts `x` into `t` after every element that may come before it. */
  function Insert<T>(x: T, t: seq<T>, le: (T, T) -> bool): (r: seq<T>)
    ensures multiset(r) == multiset(t) + multiset{x}
    ensures |r| == |t| + 1
  {
    if |t| == 0 || le(t[|t| - 1], x) then t + [x]
    else
      var t' := t[..|t| - 1];
      assert t == t' + [t[|t| - 1]];
      Insert(x, t', le) + [t[|t| - 1]]
  }

  lemma {:induction false} InsertSorted<T(!new)>(x: T, t: seq<T>, le: (T, T) -> bool)
    requires TotalPreorder(le) && SortedBy(t, le)
    ensures SortedBy(Insert(x, t, le), le)
  {
    if |t| > 0 && !le(t[|t| - 1], x) {
      var t', z := t[..|t| - 1], t[|t| - 1];
      InsertSorted(x, t', le);
      var u := Insert(x, t', le);
      forall e | e in u ensures le(e, z) {
        assert e in multiset(u);
        if e != x {
          assert e in multiset(t');
          var k :| 0 <= k < |t'| && t'[k] == e;
          assert t[k] == e;
        }
      }
      assert Insert(x, t, le) == u + [z];
      forall i, j | 0 <= i < j < |u| + 1 ensures le((u + [z])[i], (u + [z])[j]) {
        if j == |u| {
          assert (u + [z])[i] == u[i] && u[i] in u;
        }
      }
    }
  }

  lemma {:induction false} InsertTies<T(!new)>(x: T, t: seq<T>, y: T, le: (T, T) -> bool)
    requires TotalPreorder(le)
    ensures Ties(Insert(x, t, le), y, le) == Ties(t, y, le) + Ties([x], y, le)
  {
    if |t| == 0 || le(t[|t| - 1], x) {
      TiesAppend(t, [x], y, le);
    } else {
      var t', z := t[..|t| - 1], t[|t| - 1];
      var u := Insert(x, t', le);
      InsertTies(x, t', y, le);
      TiesAppend(u, [z], y, le);
      TiesAppend(t', [z], y, le);
      assert t == t' + [z];
      assert [z][..0] == [] && [x][..0] == [];
      // `x` and `z` do not tie (`z` may not come before `x`), so at most one of them ties with `y`.
      assert !(Tie(x, y, le) && Tie(z, y, le));
    }
  }

  /** `s` ordered by `le`, keeping the original order among ties (LINQ's stable `OrderBy`). */
  function Sort<T(!new)>(s: seq<T>, le: (T, T) -> bool): (r: seq<T>)
    ensures multiset(r) == multiset(s) && |r| == |s|
    ensures TotalPreorder(le) ==> SortedBy(r, le)
    ensures TotalPreorder(le) ==> forall y :: Ties(r, y, le) == Ties(s, y, le)
  {
    if |s| == 0 then []
    else
      var s', x := s[..|s| - 1], s[|s| - 1];
      assert s == s' + [x];
      var t := Sort(s', le);
      SortStep(x, s', t, le);
      Insert(x, t, le)
  }

  /** Sorting neither adds nor drops an element. */
  lemma SortSameElements<T(!new)>(s: seq<T>, le: (T, T) -> bool)
    ensures forall x :: x in Sort(s, le) <==> x in s
  {
    var r := Sort(s, le);
    forall x ensures x in r <==> x in s {
      assert x in r <==> x in multiset(r);
      assert x in s <==> x in multiset(s);
    }
  }

  lemma SortStep<T(!new)>(x: T, s': seq<T>, t: seq<T>, le: (T, T) -> bool)
    requires TotalPreorder(le) ==> SortedBy(t, le)
    requires TotalPreorder(le) ==> forall y :: Ties(t, y, le) == Ties(s', y, le)
    ensures TotalPreorder(le) ==> SortedBy(Insert(x, t, le), le)
    ensures TotalPreorder(le) ==> forall y :: Ties(Insert(x, t, le), y, le) == Ties(s' + [x], y, le)
  {
    if TotalPreorder(le) {
      InsertSorted(x, t, le);
      forall y ensures Ties(Insert(x, t, le), y, le) == Ties(s' + [x], y, le) {
        InsertTies(x, t, y, le);
        TiesAppend(s', [x], y, le);
      }
    }
  }

  /** LINQ's `Where`: the elements that satisfy `p`, in order. */
  function Filter<T(!new)>(s: seq<T>, p: T -> bool): (r: seq<T>)
    ensures |r| <= |s|
    ensures forall i :: 0 <= i < |r| ==> p(r[i])
    ensures forall x :: x in r <==> x in s && p(x)
  {
    if |s| == 0 then []
    else
      var s' := s[..|s| - 1];
      assert s == s' + [s[|s| - 1]];
      Filter(s', p) + (if p(s[|s| - 1]) then [s[|s| - 1]] else [])
  }

  /** Filtering keeps each element at most as often as it occurs. */
  lemma {:induction false} FilterSubMultiset<T(!new)>(s: seq<T>, p: T -> bool)
    ensures multiset(Filter(s, p)) <= multiset(s)
  {
    if |s| > 0 {
      var s' := s[..|s| - 1];
      assert s == s' + [s[|s| - 1]];
      FilterSubMultiset(s', p);
    }
  }

  /** Filtering twice by the same test is filtering once. */
  lemma {:induction false} FilterIdempotent<T(!new)>(s: seq<T>, p: T -> bool)
    ensures Filter(Filter(s, p), p) == Filter(s, p)
  {
    if |s| > 0 {
      var s' := s[..|s| - 1];
      FilterIdempotent(s', p);
      FilterAppend(Filter(s', p), if p(s[|s| - 1]) then [s[|s| - 1]] else [], p);
    }
  }

  lemma {:induction false} FilterAppend<T(!new)>(a: seq<T>, b: seq<T>, p: T -> bool)
    ensures Filter(a + b, p) == Filter(a, p) + Filter(b, p)
    decreases |b|
  {
    if |b| == 0 {
      assert a + b == a;
    } else {
      assert (a + b)[..|a + b| - 1] == a + b[..|b| - 1];
      FilterAppend(a, b[..|b| - 1], p);
    }
  }

  /** Filtering keeps the relative order, so a sorted sequence stays sorted. */
  lemma {:induction false} FilterSorted<T(!new)>(s: seq<T>, p: T -> bool, le: (T, T) -> bool)
    requires SortedBy(s, le)
    ensures SortedBy(Filter(s, p), le)
  {
    if |s| > 0 {
      var s' := s[..|s| - 1];
      FilterSorted(s', p, le);
      var f := Filter(s', p);
      forall i, j | 0 <= i < j < |Filter(s, p)| ensures le(Filter(s, p)[i], Filter(s, p)[j]) {
        if j == |f| {
          assert Filter(s, p)[i] == f[i] && f[i] in s';
        }
      }
    }
  }

  /** LINQ's `Take(n)`: the first `n` elements, or all of them when there are fewer. */
  function Take<T>(s: seq<T>, n: nat): (r: seq<T>)
    ensures |r| == if |s| < n then |s| else n
    ensures forall i :: 0 <= i < |r| ==> r[i] == s[i]
    ensures multiset(r) <= multiset(s)
  {
    if |s| < n then s
    else
      assert s == s[..n] + s[n..];
      s[..n]
  }

  /** A prefix of a sorted sequence is sorted and draws only on the sequence's elements. */
  lemma TakeSorted<T>(s: seq<T>, n: nat, le: (T, T) -> bool)
    requires SortedBy(s, le)
    ensures SortedBy(Take(s, n), le)
    ensures forall x :: x in Take(s, n) ==> x in s
  {
    forall x | x in Take(s, n) ensures x in s {
      var k :| 0 <= k < |Take(s, n)| && Take(s, n)[k] == x;
      assert s[k] == x;
    }
  }

  /** A prefix keeps, of each group of tied elements, the first ones in their order. */
  lemma TakeTies<T>(s: seq<T>, n: nat, y: T, le: (T, T) -> bool)
    ensures Ties(Take(s, n), y, le) <= Ties(s, y, le)
  {
    if n <= |s| {
      assert s == s[..n] + s[n..];
      TiesAppend(s[..n], s[n..], y, le);
    }
  }

  /** Taking the head of a sorted sequence takes its best elements: whatever is left out
      comes after everything taken, and nothing is left out when fewer than `n` are there. */
  lemma TakeTop<T>(s: seq<T>, n: nat, le: (T, T) -> bool)
    requires SortedBy(s, le)
    ensures forall x, i :: x in s && x !in Take(s, n) && 0 <= i < |Take(s, n)| ==> le(Take(s, n)[i], x)
    ensures |s| < n ==> Take(s, n) == s
  {
    forall x, i | x in s && x !in Take(s, n) && 0 <= i < |Take(s, n)| ensures le(Take(s, n)[i], x) {
      var k :| 0 <= k < |s| && s[k] == x;
    }
  }

  /** `OrderBy(le).Take(n)`: the first `n` elements of `s` in `le` order. */
  function Top<T(!new)>(s: seq<T>, le: (T, T) -> bool, n: nat): (r: seq<T>)
    ensures |r| == if |s| < n then |s| else n
    ensures multiset(r) <= multiset(s)
    ensures forall x :: x in r ==> x in s
    ensures |s| < n ==> forall x :: x in s ==> x in r
    ensures TotalPreorder(le) ==> SortedBy(r, le)
    ensures TotalPreorder(le) ==> forall x, i :: x in s && x !in r && 0 <= i < |r| ==> le(r[i], x)
    ensures TotalPreorder(le) ==> forall y :: Ties(r, y, le) <= Ties(s, y, le)
  {
    var sorted := Sort(s, le);
    assert forall x :: x in sorted <==> x in s by {
      forall x ensures x in sorted <==> x in s {
        assert x in sorted <==> x in multiset(sorted);
        assert x in s <==> x in multiset(s);
      }
    }
    var r := Take(sorted, n);
    assert forall x :: x in r ==> x in sorted by {
      forall x | x in r ensures x in sorted {
        var k :| 0 <= k < |r| && r[k] == x;
        assert sorted[k] == x;
      }
    }
    assert |sorted| < n ==> r == sorted;
    assert TotalPreorder(le) ==> SortedBy(r, le) && forall x, i :: x in sorted && x !in r && 0 <= i < |r| ==> le(r[i], x) by {
      if TotalPreorder(le) {
        TakeSorted(sorted, n, le);
        TakeTop(sorted, n, le);
      }
    }
    assert TotalPreorder(le) ==> forall y :: Ties(r, y, le) <= Ties(s, y, le) by {
      forall y ensures Ties(r, y, le) <= Ties(sorted, y, le) {
        TakeTies(sorted, n, y, le);
      }
    }
    r
  }

  /** No element occurs twice. */
  predicate NoRepeats<T(==)>(s: seq<T>) {
    forall i, j :: 0 <= i < j < |s| ==> s[i] != s[j]
  }

  /** An element of a sequence without repeats occurs at most once. */
  lemma {:induction false} NoRepeatsOnce<T>(s: seq<T>, x: T)
    requires NoRepeats(s)
    ensures multiset(s)[x] <= 1
  {
    if |s| > 0 {
      var s', y := s[..|s| - 1], s[|s| - 1];
      assert s == s' + [y];
      NoRepeatsOnce(s', x);
      forall k | 0 <= k < |s'| ensures s'[k] != y {
        assert s[k] == s'[k];
      }
      assert y !in s';
    }
  }

  /** Whatever takes each element at most as often as a sequence without repeats has
      none either. */
  lemma SubMultisetNoRepeats<T>(r: seq<T>, s: seq<T>)
    requires multiset(r) <= multiset(s) && NoRepeats(s)
    ensures NoRepeats(r)
  {
    forall i, j | 0 <= i < j < |r| ensures r[i] != r[j] {
      if r[i] == r[j] {
        var x := r[i];
        assert r == r[..i] + [x] + r[i + 1..j] + [x] + r[j + 1..];
        assert multiset(r)[x] >= 2;
        NoRepeatsOnce(s, x);
        assert false;
      }
    }
  }

  // Comparators built from keys, as in `OrderBy(x => x.Key)`.

  /** Ascending by an integer key. */
  function ByInt<T>(key: T -> int): (T, T) -> bool {
    (a: T, b: T) => key(a) <= key(b)
  }

  /** Descending by an integer key (`OrderByDescending`). */
  function ByIntDesc<T>(key: T -> int): (T, T) -> bool {
    (a: T, b: T) => key(a) >= key(b)
  }

  /** `OrderBy` then `ThenBy`: `first` decides unless it ties, then `second` decides. */
  function ThenBy<T>(first: (T, T) -> bool, second: (T, T) -> bool): (T, T) -> bool {
    (a: T, b: T) => first(a, b) && (!first(b, a) || second(a, b))
  }

  /** `OrderByDescending(key).Take(n)`: the `n` elements with the largest keys, largest first. */
  function TopByIntDesc<T(!new)>(s: seq<T>, key: T -> int, n: nat): (r: seq<T>)
    ensures |r| == if |s| < n then |s| else n
    ensures multiset(r) <= multiset(s)
    ensures forall x :: x in r ==> x in s
    ensures |s| < n ==> forall x :: x in s ==> x in r
    ensures forall i, j :: 0 <= i < j < |r| ==> key(r[i]) >= key(r[j])
    ensures forall x, i :: x in s && x !in r && 0 <= i < |r| ==> key(x) <= key(r[i])
    ensures forall y :: Ties(r, y, ByIntDesc(key)) <= Ties(s, y, ByIntDesc(key))
  {
    ByIntDescTotal(key);
    var r := Top(s, ByIntDesc(key), n);
    assert SortedBy(r, ByIntDesc(key));
    r
  }

  /** Sorted ascending by an integer key means the keys ascend. */
  lemma ByIntSorted<T>(s: seq<T>, key: T -> int)
    requires SortedBy(s, ByInt(key))
    ensures forall i, j :: 0 <= i < j < |s| ==> key(s[i]) <= key(s[j])
  {
  }

  lemma ByIntTotal<T(!new)>(key: T -> int)
    ensures TotalPreorder(ByInt(key))
  {
  }

  lemma ByIntDescTotal<T(!new)>(key: T -> int)
    ensures TotalPreorder(ByIntDesc(key))
  {
  }

  /** Composing two total preorders lexicographically gives a total preorder. */
  lemma ThenByTotal<T(!new)>(first: (T, T) -> bool, second: (T, T) -> bool)
    requires TotalPreorder(first) && TotalPreorder(second)
    ensures TotalPreorder(ThenBy(first, second))
  {
    var le := ThenBy(first, second);
    forall a, b, c | le(a, b) && le(b, c) ensures le(a, c) {
      assert first(a, c);
      if first(c, a) {
        assert first(b, a) && first(c, b);
        assert second(a, b) && second(b, c);
      }
    }
  }

  /** Ascending by a text key, ordinal comparison. */
  function ByText<T>(key: T -> string): (T, T) -> bool {
    (a: T, b: T) => LexLe(key(a), key(b))
  }

  lemma ByTextTotal<T(!new)>(key: T -> string)
    ensures TotalPreorder(ByText(key))
  {
    LexLeTotalOrder();
  }

  /** Ascending by a nullable integer key; as in SQL Server, nulls come first. */
  function ByOptionInt<T>(key: T -> Option<int>): (T, T) -> bool {
    ThenBy(ByInt((x: T) => if key(x).Some? then 1 else 0), ByInt((x: T) => key(x).GetOr(0)))
  }

  lemma ByOptionIntTotal<T(!new)>(key: T -> Option<int>)
    ensures TotalPreorder(ByOptionInt(key))
  {
    ThenByTotal(ByInt((x: T) => if key(x).Some? then 1 else 0), ByInt((x: T) => key(x).GetOr(0)));
  }

  /** Under `ByOptionInt`, a missing key comes before every present one and present keys compare by value. */
  lemma ByOptionIntMeaning<T>(key: T -> Option<int>, a: T, b: T)
    ensures key(a).None? ==> ByOptionInt(key)(a, b)
    ensures key(a).Some? && key(b).None? ==> !ByOptionInt(key)(a, b)
    ensures key(a).Some? && key(b).Some? ==> (ByOptionInt(key)(a, b) <==> key(a).value <= key(b).value)
  {
  }

  /** Ascending by a nullable text key, ordinal comparison; nulls come first. */
  function ByOptionText<T>(key: T -> Option<string>): (T, T) -> bool {
    ThenBy(ByInt((x: T) => if key(x).Some? then 1 else 0), ByText((x: T) => key(x).GetOr("")))
  }

  lemma ByOptionTextTotal<T(!new)>(key: T -> Option<string>)
    ensures TotalPreorder(ByOptionText(key))
  {
    ByTextTotal((x: T) => key(x).GetOr(""));
    ThenByTotal(ByInt((x: T) => if key(x).Some? then 1 else 0), ByText((x: T) => key(x).GetOr("")));
  }
}

=== FILE: tables.dfy ===
/** A database table as a map from primary key to row: identity assignment
    and enumeration of the rows in primary-key order. */
module Tables {
  import opened Sorting

  /** The smallest element of a non-empty set of keys. */
  function MinKey(s: set<int>): (k: int)
    requires s != {}
    ensures k in s && forall y :: y in s ==> k <= y
  {
    MinExists(s);
    var k :| k in s && forall y :: y in s ==> k <= y;
    k
  }

  lemma MinExists(s: set<int>)
    requires s != {}
    ensures exists k :: k in s && forall y :: y in s ==> k <= y
  {
    HasElement(s);
    var x :| x in s;
    if s != {x} {
      MinExists(s - {x});
      var k :| k in s - {x} && forall y :: y in s - {x} ==> k <= y;
      var w := if x < k then x else k;
      forall y | y in s ensures w <= y {
        if y != x { assert y in s - {x}; }
      }
    } else {
      assert forall y :: y in s ==> x <= y;
    }
  }

  lemma HasElement(s: set<int>)
    requires s != {}
    ensures exists x :: x in s
  {
    assert (forall x :: x !in s) ==> s == {};
  }

  /** The largest key, or 0 for an empty table. */
  function MaxKey(s: set<int>): (k: int)
    ensures forall y :: y in s ==> y <= k
    ensures s != {} ==> k in s
    decreases |s|
  {
    if s == {} then 0
    else
      var m := MinKey(s);
      var rest := MaxKey(s - {m});
      assert forall y :: y in s ==> y == m || y in s - {m};
      if s - {m} == {} then m else rest
  }

  /** The identity value the database assigns to the next inserted row: one past
      the largest key, never below 1. */
  function NextId<T>(m: map<int, T>): (id: int)
    ensures id >= 1 && id !in m
    ensures forall k :: k in m ==> k < id
  {
    var k := MaxKey(m.Keys);
    if k < 1 then 1 else k + 1
  }

  /** The rows of a table in ascending primary-key order. */
  function Rows<T(==,!new)>(m: map<int, T>): (r: seq<T>)
    ensures |r| == |m|
    ensures forall x :: x in r <==> x in m.Values
    decreases |m|
  {
    if |m| == 0 then []
    else
      var k := MinKey(m.Keys);
      var rest := m - {k};
      assert m.Values == rest.Values + {m[k]} by {
        forall x | x in m.Values ensures x in rest.Values + {m[k]} {
          var j :| j in m && m[j] == x;
          if j != k { assert j in rest; }
        }
      }
      [m[k]] + Rows(rest)
  }

  /** A query: the rows that satisfy `keep`, ordered by `le` (ties keep primary-key order). */
  function Select<T(==,!new)>(m: map<int, T>, keep: T -> bool, le: (T, T) -> bool): (r: seq<T>)
    ensures forall x :: x in r <==> x in m.Values && keep(x)
    ensures TotalPreorder(le) ==> SortedBy(r, le)
  {
    var f := Filter(Rows(m), keep);
    var r := Sort(f, le);
    assert forall x :: x in r <==> x in f by {
      forall x ensures x in r <==> x in f {
        assert x in r <==> x in multiset(r);
        assert x in f <==> x in multiset(f);
      }
    }
    r
  }

  /** Number of rows satisfying `p` (LINQ's `Count(p)`): the length of `Where(p)`. */
  function CountWhere<T(!new)>(s: seq<T>, p: T -> bool): (n: nat)
    ensures n == |Filter(s, p)|
    ensures n <= |s|
    ensures n == 0 <==> forall x :: x in s ==> !p(x)
  {
    var f := Filter(s, p);
    assert |f| > 0 ==> f[0] in f;
    |f|
  }

  /** The keys whose row passes `p`. */
  function KeysWhere<T>(m: map<int, T>, p: T -> bool): set<int> {
    set k | k in m && p(m[k])
  }

  /** A count does not depend on the order of the rows. */
  lemma {:induction false} CountPermutation<T(!new)>(a: seq<T>, b: seq<T>, p: T -> bool)
    requires multiset(a) == multiset(b)
    ensures CountWhere(a, p) == CountWhere(b, p)
    decreases |a|
  {
    if |a| > 0 {
      var x, a' := a[|a| - 1], a[..|a| - 1];
      assert x in multiset(b);
      var i :| 0 <= i < |b| && b[i] == x;
      var b1, b2 := b[..i], b[i + 1..];
      assert b == b1 + [x] + b2;
      assert a == a' + [] + [x];
      CountMiddle(a', x, [], p);
      CountMiddle(b1, x, b2, p);
      assert multiset(a') == multiset(b1 + b2) by {
        assert multiset(b1 + b2) == multiset(b1) + multiset(b2);
        MultisetCancel(multiset(a'), multiset(b1 + b2), x);
      }
      CountPermutation(a', b1 + b2, p);
    }
  }

  /** Taking one element out of a sequence takes it out of the multiset and out of the count. */
  lemma CountMiddle<T(!new)>(s1: seq<T>, x: T, s2: seq<T>, p: T -> bool)
    ensures multiset(s1 + [x] + s2) == multiset(s1 + s2) + multiset{x}
    ensures |Filter(s1 + [x] + s2, p)| == |Filter(s1 + s2, p)| + (if p(x) then 1 else 0)
  {
    assert multiset(s1 + s2) == multiset(s1) + multiset(s2);
    FilterAppend(s1, [x], p);
    FilterAppend(s1 + [x], s2, p);
    FilterAppend(s1, s2, p);
    assert [x][..0] == [];
  }

  lemma MultisetCancel<T>(m1: multiset<T>, m2: multiset<T>, x: T)
    requires m1 + multiset{x} == m2 + multiset{x}
    ensures m1 == m2
  {
    forall y ensures m1[y] == m2[y] {
      assert (m1 + multiset{x})[y] == (m2 + multiset{x})[y];
    }
  }

  /** Filtering by `p` and then by `q` is filtering by both at once. */
  lemma {:induction false} FilterFilter<T(!new)>(s: seq<T>, p: T -> bool, q: T -> bool)
    ensures Filter(Filter(s, p), q) == Filter(s, Both(p, q))
  {
    if |s| > 0 {
      var s' := s[..|s| - 1];
      FilterFilter(s', p, q);
      FilterAppend(Filter(s', p), if p(s[|s| - 1]) then [s[|s| - 1]] else [], q);
    }
  }

  /** Counting the rows of a table counts the keys whose row passes. */
  lemma {:induction false} CountRows<T(!new)>(m: map<int, T>, p: T -> bool)
    ensures CountWhere(Rows(m), p) == |KeysWhere(m, p)|
    decreases |m|
  {
    if |m| > 0 {
      var k := MinKey(m.Keys);
      var rest := m - {k};
      assert Rows(m) == [m[k]] + Rows(rest);
      CountRows(rest, p);
      FilterAppend([m[k]], Rows(rest), p);
      var here: set<int> := if p(m[k]) then {k} else {};
      assert |Filter([m[k]], p)| == |here| by {
        assert [m[k]][..0] == [];
      }
      KeysSplit(m, k, p);
    }
  }

  lemma KeysSplit<T>(m: map<int, T>, k: int, p: T -> bool)
    requires k in m
    ensures |KeysWhere(m, p)| == |KeysWhere(m - {k}, p)| + (if p(m[k]) then 1 else 0)
  {
    var here: set<int> := if p(m[k]) then {k} else {};
    assert KeysWhere(m, p) == here + KeysWhere(m - {k}, p);
    assert here !! KeysWhere(m - {k}, p);
  }

  /** Both tests at once. */
  function Both<T>(p: T -> bool, q: T -> bool): T -> bool {
    (x: T) => p(x) && q(x)
  }

  /** Counting the result of a query counts the keys whose row is kept and passes. */
  lemma CountSelect<T(!new)>(m: map<int, T>, keep: T -> bool, le: (T, T) -> bool, p: T -> bool)
    ensures CountWhere(Select(m, keep, le), p) == |KeysWhere(m, Both(keep, p))|
  {
    var f := Filter(Rows(m), keep);
    CountPermutation(Sort(f, le), f, p);
    FilterFilter(Rows(m), keep, p);
    CountRows(m, Both(keep, p));
  }

  /** A query returns one row per key it keeps. */
  lemma SelectSize<T(!new)>(m: map<int, T>, keep: T -> bool, le: (T, T) -> bool)
    ensures |Select(m, keep, le)| == |KeysWhere(m, keep)|
  {
    CountRows(m, keep);
  }

  /** Rows matching one of two tests that never hold together are counted once at most. */
  lemma {:induction false} CountDisjoint<T(!new)>(s: seq<T>, p: T -> bool, q: T -> bool)
    requires forall x :: x in s ==> !(p(x) && q(x))
    ensures CountWhere(s, p) + CountWhere(s, q) <= |s|
  {
    if |s| > 0 {
      assert forall x :: x in s[..|s| - 1] ==> x in s;
      CountDisjoint(s[..|s| - 1], p, q);
    }
  }

  /** A weaker test counts at least as many rows. */
  lemma {:induction false} CountMonotone<T(!new)>(s: seq<T>, p: T -> bool, q: T -> bool)
    requires forall x :: x in s && p(x) ==> q(x)
    ensures CountWhere(s, p) <= CountWhere(s, q)
  {
    if |s| > 0 {
      assert forall x :: x in s[..|s| - 1] ==> x in s;
      CountMonotone(s[..|s| - 1], p, q);
    }
  }
}

=== FILE: text.dfy ===
/** String primitives of the .NET base library that the core relies on:
    `char.IsWhiteSpace`, `string.IsNullOrWhiteSpace`, `Trim`, `ToLower`,
    `Contains`, `StartsWith`, `char.IsDigit` and ordinal comparison.
    All of them are modelled on ASCII; see the README for the Unicode cases. */
module Text {

  /** `char.IsWhiteSpace` on ASCII: space, tab, line feed, vertical tab, form feed, carriage return. */
  predicate IsWhiteSpace(c: char) {
    c == ' ' || ('\t' <= c <= '\r')
  }

  /** `string.IsNullOrWhiteSpace`; null is represented by the empty string. */
  predicate IsBlank(s: string) {
    forall i :: 0 <= i < |s| ==> IsWhiteSpace(s[i])
  }

  /** `char.IsDigit` on ASCII. */
  predicate IsDigit(c: char) {
    '0' <= c <= '9'
  }

  /** Every character is an ASCII digit. */
  predicate AllDigits(s: string) {
    forall i :: 0 <= i < |s| ==> IsDigit(s[i])
  }

  predicate IsUpper(c: char) {
    'A' <= c <= 'Z'
  }

  predicate IsLetter(c: char) {
    ('a' <= c <= 'z') || ('A' <= c <= 'Z')
  }

  function LowerChar(c: char): char {
    if IsUpper(c) then (c as int + 32) as char else c
  }

  /** `ToLower` with ordinal ASCII case mapping. */
  function ToLower(s: string): (r: string)
    ensures |r| == |s|
    ensures forall i :: 0 <= i < |r| ==> !IsUpper(r[i])
    ensures forall i :: 0 <= i < |r| ==> r[i] == s[i] || (IsUpper(s[i]) && r[i] as int == s[i] as int + 32)
  {
    seq(|s|, i requires 0 <= i < |s| => LowerChar(s[i]))
  }

  /** Lower-casing does not change which characters are white space. */
  lemma ToLowerKeepsBlank(s: string)
    ensures IsBlank(ToLower(s)) <==> IsBlank(s)
  {
    var r := ToLower(s);
    if IsBlank(s) {
      forall i | 0 <= i < |r| ensures IsWhiteSpace(r[i]) {
        assert !IsUpper(s[i]);
      }
    }
    if IsBlank(r) {
      forall i | 0 <= i < |s| ensures IsWhiteSpace(s[i]) {
        assert IsWhiteSpace(r[i]);
      }
    }
  }

  /** The first index at or after `i` that does not hold white space, or `|s|`. */
  function SkipSpace(s: string, i: nat): (n: nat)
    requires i <= |s|
    ensures i <= n <= |s|
    ensures forall k :: i <= k < n ==> IsWhiteSpace(s[k])
    ensures n < |s| ==> !IsWhiteSpace(s[n])
    decreases |s| - i
  {
    if i < |s| && IsWhiteSpace(s[i]) then SkipSpace(s, i + 1) else i
  }

  /** The last index at or before `j`, and not below `lo`, that ends a run of white space
      reaching `j`: everything from it up to `j` is white space. */
  function SkipSpaceBack(s: string, lo: nat, j: nat): (e: nat)
    requires lo <= j <= |s|
    ensures lo <= e <= j
    ensures forall k :: e <= k < j ==> IsWhiteSpace(s[k])
    ensures e > lo ==> !IsWhiteSpace(s[e - 1])
  {
    if j > lo && IsWhiteSpace(s[j - 1]) then SkipSpaceBack(s, lo, j - 1) else j
  }

  /** `Trim`: the longest slice of `s` that neither starts nor ends with white space,
      everything cut off being white space. */
  function Trim(s: string): (r: string)
    ensures |r| > 0 ==> !IsWhiteSpace(r[0]) && !IsWhiteSpace(r[|r| - 1])
    ensures exists i :: 0 <= i <= |s| - |r| && r == s[i..i + |r|] && IsBlank(s[..i]) && IsBlank(s[i + |r|..])
    ensures |r| == 0 <==> IsBlank(s)
  {
    var i := SkipSpace(s, 0);
    var e := SkipSpaceBack(s, i, |s|);
    TrimBlank(s, i, e);
    assert IsBlank(s[..i]) && IsBlank(s[e..]);
    s[i..e]
  }

  /** Nothing is left between the two cuts exactly when the whole string is white space. */
  lemma TrimBlank(s: string, i: nat, e: nat)
    requires i == SkipSpace(s, 0) && e == SkipSpaceBack(s, i, |s|)
    ensures i == e <==> IsBlank(s)
  {
    if i == e {
      assert forall k :: 0 <= k < i || e <= k < |s| ==> IsWhiteSpace(s[k]);
    }
  }

  /** `s.Contains(t)`: `t` occurs in `s` as a contiguous substring. */
  predicate Contains(s: string, t: string) {
    exists i :: 0 <= i <= |s| && OccursAt(s, t, i)
  }

  /** `t` occurs in `s` starting at index `i`. */
  predicate OccursAt(s: string, t: string, i: nat) {
    i + |t| <= |s| && s[i..i + |t|] == t
  }

  /** `s.StartsWith(p)` under ordinal comparison. */
  predicate StartsWith(s: string, p: string) {
    |p| <= |s| && s[..|p|] == p
  }

  /** The digits of `s`, in order (`s.Where(char.IsDigit)`). */
  function Digits(s: string): (r: string)
    ensures AllDigits(r)
    ensures |r| <= |s|
  {
    if |s| == 0 then []
    else Digits(s[..|s| - 1]) + (if IsDigit(s[|s| - 1]) then [s[|s| - 1]] else [])
  }

  lemma {:induction false} DigitsAppend(a: string, b: string)
    ensures Digits(a + b) == Digits(a) + Digits(b)
    decreases |b|
  {
    if |b| == 0 {
      assert a + b == a;
    } else {
      var b' := b[..|b| - 1];
      assert (a + b)[..|a + b| - 1] == a + b';
      DigitsAppend(a, b');
    }
  }

  /** A string made only of digits is its own digit string. */
  lemma {:induction false} DigitsOfDigitString(s: string)
    requires AllDigits(s)
    ensures Digits(s) == s
  {
    if |s| > 0 {
      DigitsOfDigitString(s[..|s| - 1]);
    }
  }

  /** Extracting digits twice is the same as extracting them once. */
  lemma DigitsIdempotent(s: string)
    ensures Digits(Digits(s)) == Digits(s)
  {
    DigitsOfDigitString(Digits(s));
  }

  /** Ordinal (code-point) string comparison: `a` sorts strictly before `b`. */
  predicate LexLess(a: string, b: string) {
    if |a| == 0 then |b| > 0
    else if |b| == 0 then false
    else if a[0] != b[0] then a[0] < b[0]
    else LexLess(a[1..], b[1..])
  }

  /** Ordinal order, non-strict. */
  predicate LexLe(a: string, b: string) {
    a == b || LexLess(a, b)
  }

  lemma {:induction false} LexLessIrreflexive(a: string)
    ensures !LexLess(a, a)
  {
    if |a| > 0 {
      LexLessIrreflexive(a[1..]);
    }
  }

  lemma {:induction false} LexLessAsymmetric(a: string, b: string)
    ensures LexLess(a, b) ==> !LexLess(b, a)
  {
    if |a| > 0 && |b| > 0 && a[0] == b[0] {
      LexLessAsymmetric(a[1..], b[1..]);
    }
  }

  lemma {:induction false} LexLessTransitive(a: string, b: string, c: string)
    requires LexLess(a, b) && LexLess(b, c)
    ensures LexLess(a, c)
  {
    if |a| > 0 && a[0] == b[0] && b[0] == c[0] {
      LexLessTransitive(a[1..], b[1..], c[1..]);
    }
  }

  lemma {:induction false} LexLessTotal(a: string, b: string)
    ensures a == b || LexLess(a, b) || LexLess(b, a)
  {
    if |a| > 0 && |b| > 0 && a[0] == b[0] {
      LexLessTotal(a[1..], b[1..]);
      if a[1..] == b[1..] {
        assert a == [a[0]] + a[1..] && b == [b[0]] + b[1..];
      }
    }
  }

  /** Comparing two strings with a common prefix compares what follows it. */
  lemma {:induction false} LexLessCommonPrefix(p: string, a: string, b: string)
    ensures LexLess(p + a, p + b) <==> LexLess(a, b)
  {
    if |p| > 0 {
      assert (p + a)[1..] == p[1..] + a;
      assert (p + b)[1..] == p[1..] + b;
      LexLessCommonPrefix(p[1..], a, b);
    } else {
      assert p + a == a && p + b == b;
    }
  }

  /** Two strings of equal length compared after appending one character each. */
  lemma {:induction false} LexLessAppend(a: string, x: char, b: string, y: char)
    requires |a| == |b|
    ensures LexLess(a + [x], b + [y]) <==> LexLess(a, b) || (a == b && x < y)
  {
    if |a| > 0 {
      assert (a + [x])[1..] == a[1..] + [x];
      assert (b + [y])[1..] == b[1..] + [y];
      LexLessAppend(a[1..], x, b[1..], y);
      if a[0] == b[0] && a[1..] == b[1..] {
        assert a == [a[0]] + a[1..] && b == [b[0]] + b[1..];
      }
    }
  }

  /** The ordinal order is a total order. */
  lemma LexLeTotalOrder()
    ensures forall a, b :: LexLe(a, b) || LexLe(b, a)
    ensures forall a, b, c :: LexLe(a, b) && LexLe(b, c) ==> LexLe(a, c)
    ensures forall a, b :: LexLe(a, b) && LexLe(b, a) ==> a == b
  {
    forall a, b ensures LexLe(a, b) || LexLe(b, a) {
      LexLessTotal(a, b);
    }
    forall a, b, c | LexLe(a, b) && LexLe(b, c) ensures LexLe(a, c) {
      if a != b && b != c {
        LexLessTransitive(a, b, c);
      }
    }
    forall a, b | LexLe(a, b) && LexLe(b, a) ensures a == b {
      LexLessAsymmetric(a, b);
    }
  }
}

=== FILE: validation.dfy ===
/** The validators and phone-number formatting of `ValidationHelper`.
    Each regular expression is given twice: as the shape it describes
    (`ZipShape`, `PhoneShape`, `EmailShape`) and as the scan that decides it. */
module Validation {
  import opened Text

  // ---------------------------------------------------------------- zip codes

  /** `^\d{5}(-\d{4})?$`: five digits, optionally a hyphen and four more digits. */
  ghost predicate ZipShape(s: string) {
    exists d5: string, d4: string ::
      |d5| == 5 && |d4| == 4 && AllDigits(d5) && AllDigits(d4)
      && (s == d5 || s == d5 + "-" + d4)
  }

  function IsValidZipCode(s: string): (b: bool)
    ensures b <==> ZipShape(s)
  {
    var b := !IsBlank(s) && (
      (|s| == 5 && AllDigits(s))
      || (|s| == 10 && AllDigits(s[..5]) && s[5] == '-' && AllDigits(s[6..])));
    ZipShapeIff(s);
    b
  }

  lemma ZipShapeIff(s: string)
    ensures ZipShape(s) <==> (!IsBlank(s) && (
      (|s| == 5 && AllDigits(s))
      || (|s| == 10 && AllDigits(s[..5]) && s[5] == '-' && AllDigits(s[6..]))))
  {
    if |s| == 5 && AllDigits(s) {
      assert |s| == 5 && |"0000"| == 4 && AllDigits(s) && AllDigits("0000") && s == s;
      assert !IsWhiteSpace(s[0]);
    }
    if |s| == 10 && AllDigits(s[..5]) && s[5] == '-' && AllDigits(s[6..]) {
      assert s == s[..5] + "-" + s[6..];
      assert !IsWhiteSpace(s[0]);
    }
    if ZipShape(s) {
      var d5: string, d4: string :| |d5| == 5 && |d4| == 4 && AllDigits(d5) && AllDigits(d4)
        && (s == d5 || s == d5 + "-" + d4);
      assert s[..5] == d5;
      assert !IsWhiteSpace(s[0]);
      if s != d5 {
        assert s[6..] == d4;
      }
    }
  }

  // ------------------------------------------------------------ phone numbers

  /** The characters `[\d\s\-\(\)\+\.]`. */
  predicate IsPhoneChar(c: char) {
    IsDigit(c) || IsWhiteSpace(c) || c == '-' || c == '(' || c == ')' || c == '+' || c == '.'
  }

  /** `^[\d\s\-\(\)\+\.]{10,}$` on a string that is not all white space. */
  ghost predicate PhoneShape(s: string) {
    && |s| >= 10
    && (forall i :: 0 <= i < |s| ==> IsPhoneChar(s[i]))
    && (exists i :: 0 <= i < |s| && !IsWhiteSpace(s[i]))
  }

  /** Counts the phone characters of `s` from the left, stopping at the first other character. */
  function PhoneRun(s: string): (n: nat)
    ensures n <= |s|
    ensures forall i :: 0 <= i < n ==> IsPhoneChar(s[i])
    ensures n < |s| ==> !IsPhoneChar(s[n])
  {
    if |s| == 0 || !IsPhoneChar(s[0]) then 0 else 1 + PhoneRun(s[1..])
  }

  function IsValidPhoneNumber(s: string): (b: bool)
    ensures b <==> PhoneShape(s)
  {
    !IsBlank(s) && |s| >= 10 && PhoneRun(s) == |s|
  }

  /** The phone rule asks for no digits at all: ten hyphens pass. */
  lemma PhoneNeedsNoDigits()
    ensures IsValidPhoneNumber(TenHyphens) && Digits(TenHyphens) == ""
  {
    var s := TenHyphens;
    assert forall i :: 0 <= i < |s| ==> s[i] == '-';
    assert !IsWhiteSpace(s[0]);
    assert PhoneShape(s);
    NoDigits(s);
  }

  const TenHyphens: string := "----------"

  lemma {:induction false} NoDigits(s: string)
    requires forall i :: 0 <= i < |s| ==> !IsDigit(s[i])
    ensures Digits(s) == ""
  {
    if |s| > 0 {
      NoDigits(s[..|s| - 1]);
    }
  }

  // --------------------------------------------------------------- e-mail

  /** `[a-zA-Z0-9._%+-]` */
  predicate IsLocalChar(c: char) {
    IsLetter(c) || IsDigit(c) || c == '.' || c == '_' || c == '%' || c == '+' || c == '-'
  }

  /** `[a-zA-Z0-9.-]` */
  predicate IsDomainChar(c: char) {
    IsLetter(c) || IsDigit(c) || c == '.' || c == '-'
  }

  predicate AllOf(s: string, p: char -> bool) {
    forall i :: 0 <= i < |s| ==> p(s[i])
  }

  /** `s` splits as local `@` domain `.` tld at the `@` in position `at` and the `.` in position `dot`. */
  predicate EmailSplit(s: string, at: int, dot: int) {
    && 0 < at && at + 1 < dot && dot + 3 <= |s|
    && AllOf(s[..at], IsLocalChar) && s[at] == '@'
    && AllOf(s[at + 1..dot], IsDomainChar) && s[dot] == '.'
    && AllOf(s[dot + 1..], IsLetter)
  }

  /** `^[a-zA-Z0-9._%+-]+@[a-zA-Z0-9.-]+\.[a-zA-Z]{2,}$` */
  ghost predicate EmailShape(s: string) {
    exists at, dot :: EmailSplit(s, at, dot)
  }

  /** The first position of `c` in `s`, or `|s|` when there is none. */
  function IndexOf(s: string, c: char): (i: nat)
    ensures i <= |s|
    ensures i < |s| ==> s[i] == c
    ensures forall k :: 0 <= k < i ==> s[k] != c
  {
    if |s| == 0 then 0 else if s[0] == c then 0 else 1 + IndexOf(s[1..], c)
  }

  /** The last position of `c` in `s`, or -1 when there is none. */
  function LastIndexOf(s: string, c: char): (i: int)
    ensures -1 <= i < |s|
    ensures i >= 0 ==> s[i] == c
    ensures forall k :: i < k < |s| ==> s[k] != c
  {
    if |s| == 0 then -1
    else if s[|s| - 1] == c then |s| - 1
    else LastIndexOf(s[..|s| - 1], c)
  }

  function IsValidEmail(s: string): (b: bool)
    ensures b <==> EmailShape(s)
  {
    var at := IndexOf(s, '@');
    var dot := LastIndexOf(s, '.');
    var b := !IsBlank(s) && at < |s| && EmailSplit(s, at, dot);
    EmailShapeIff(s);
    b
  }

  /** A split, when there is one, is at the first `@` and the last `.`, and the string is not blank. */
  lemma EmailShapeIff(s: string)
    ensures EmailShape(s) <==> !IsBlank(s) && IndexOf(s, '@') < |s| && EmailSplit(s, IndexOf(s, '@'), LastIndexOf(s, '.'))
  {
    if EmailShape(s) {
      var at, dot :| EmailSplit(s, at, dot);
      assert !IsWhiteSpace(s[at]);
      forall k | 0 <= k < at ensures s[k] != '@' {
        assert IsLocalChar(s[..at][k]);
      }
      assert IndexOf(s, '@') == at;
      forall k | dot < k < |s| ensures s[k] != '.' {
        assert IsLetter(s[dot + 1..][k - dot - 1]);
      }
      assert LastIndexOf(s, '.') == dot;
    }
  }

  /** `IsValidRequired`: present and not only white space. */
  predicate IsValidRequired(s: string) {
    !IsBlank(s)
  }

  // ---------------------------------------------------------- phone formatting

  /** `CleanPhoneNumber`: the digits of the input; blank input gives the empty string. */
  function CleanPhoneNumber(p: string): (r: string)
    ensures r == Digits(p)
    ensures AllDigits(r)
  {
    if IsBlank(p) then (BlankHasNoDigits(p); "") else Digits(p)
  }

  lemma BlankHasNoDigits(p: string)
    requires IsBlank(p)
    ensures Digits(p) == ""
  {
    NoDigits(p);
  }

  /** Cleaning a cleaned number changes nothing. */
  lemma CleanIdempotent(p: string)
    ensures CleanPhoneNumber(CleanPhoneNumber(p)) == CleanPhoneNumber(p)
  {
    DigitsIdempotent(p);
  }

  /** `FormatPhoneNumber`: ten digits become `(ddd) ddd-dddd`, eleven digits starting with 1
      become `+1 (ddd) ddd-dddd`, anything else is returned as given; blank gives "". */
  function FormatPhoneNumber(p: string): (r: string)
    ensures IsBlank(p) ==> r == ""
    ensures !IsBlank(p) && |Digits(p)| == 10 ==>
      && |r| == 14 && r[0] == '(' && r[1..4] == Digits(p)[0..3] && r[4..6] == ") "
      && r[6..9] == Digits(p)[3..6] && r[9] == '-' && r[10..14] == Digits(p)[6..10]
    ensures !IsBlank(p) && |Digits(p)| == 11 && Digits(p)[0] == '1' ==>
      && |r| == 17 && r[0..4] == "+1 (" && r[4..7] == Digits(p)[1..4] && r[7..9] == ") "
      && r[9..12] == Digits(p)[4..7] && r[12] == '-' && r[13..17] == Digits(p)[7..11]
    ensures !IsBlank(p) && |Digits(p)| != 10 && !(|Digits(p)| == 11 && Digits(p)[0] == '1') ==> r == p
  {
    if IsBlank(p) then ""
    else
      var d := Digits(p);
      if |d| == 10 then TenDigitLayout(d)
      else if |d| == 11 && d[0] == '1' then ElevenDigitLayout(d)
      else p
  }

  /** The layouts add only punctuation: the digits of a formatted number are the digits of the input. */
  lemma CleanFormat(p: string)
    ensures CleanPhoneNumber(FormatPhoneNumber(p)) == CleanPhoneNumber(p)
  {
    if IsBlank(p) {
      BlankHasNoDigits(p);
    } else {
      var d := Digits(p);
      if |d| == 10 {
        DigitsOfTen(d);
      } else if |d| == 11 && d[0] == '1' {
        DigitsOfEleven(d);
      }
    }
  }

  /** The ten-digit layout `(ddd) ddd-dddd`. */
  function TenDigitLayout(d: string): string
    requires |d| == 10
  {
    "(" + d[0..3] + ") " + d[3..6] + "-" + d[6..10]
  }

  /** The eleven-digit layout `+1 (ddd) ddd-dddd` (the leading 1 is written as text). */
  function ElevenDigitLayout(d: string): string
    requires |d| == 11
  {
    "+1 (" + d[1..4] + ") " + d[4..7] + "-" + d[7..11]
  }

  lemma DigitsOfTen(d: string)
    requires |d| == 10 && AllDigits(d)
    ensures Digits(TenDigitLayout(d)) == d
  {
    DigitsOfLayout("(", d[0..3], ") ", d[3..6], "-", d[6..10]);
    NoDigits("(");
    NoDigits(") ");
    NoDigits("-");
    assert d[0..3] + d[3..6] + d[6..10] == d;
  }

  lemma DigitsOfEleven(d: string)
    requires |d| == 11 && AllDigits(d) && d[0] == '1'
    ensures Digits(ElevenDigitLayout(d)) == d
  {
    DigitsOfLayout("+1 (", d[1..4], ") ", d[4..7], "-", d[7..11]);
    assert Digits("+1 (") == "1" by {
      assert "+1 (" == "+1" + " (";
      DigitsAppend("+1", " (");
      NoDigits(" (");
      assert "+1" == "+" + "1";
      DigitsAppend("+", "1");
      NoDigits("+");
      DigitsOfDigitString("1");
    }
    NoDigits(") ");
    NoDigits("-");
    assert "1" + d[1..4] + d[4..7] + d[7..11] == d;
  }

  /** Digits of `p1 a p2 b p3 c` when `a`, `b`, `c` are digit strings. */
  lemma DigitsOfLayout(p1: string, a: string, p2: string, b: string, p3: string, c: string)
    requires AllDigits(a) && AllDigits(b) && AllDigits(c)
    ensures Digits(p1 + a + p2 + b + p3 + c) == Digits(p1) + a + Digits(p2) + b + Digits(p3) + c
  {
    DigitsAppend(p1 + a + p2 + b + p3, c);
    DigitsAppend(p1 + a + p2 + b, p3);
    DigitsAppend(p1 + a + p2, b);
    DigitsAppend(p1 + a, p2);
    DigitsAppend(p1, a);
    DigitsOfDigitString(a);
    DigitsOfDigitString(b);
    DigitsOfDigitString(c);
  }

  lemma AllPhoneChars(x: string, y: string)
    requires AllOf(x, IsPhoneChar) && AllOf(y, IsPhoneChar)
    ensures AllOf(x + y, IsPhoneChar)
  {
  }

  /** A number laid out by `FormatPhoneNumber` passes `IsValidPhoneNumber`. */
  lemma FormattedIsValidPhone(p: string)
    requires !IsBlank(p) && (|Digits(p)| == 10 || (|Digits(p)| == 11 && Digits(p)[0] == '1'))
    ensures IsValidPhoneNumber(FormatPhoneNumber(p))
  {
    var d := Digits(p);
    var r := FormatPhoneNumber(p);
    var x, y, z, p1: string;
    if |d| == 10 {
      x, y, z, p1 := d[0..3], d[3..6], d[6..10], "(";
      assert r == p1 + x + ") " + y + "-" + z;
    } else {
      x, y, z, p1 := d[1..4], d[4..7], d[7..11], "+1 (";
      assert r == p1 + x + ") " + y + "-" + z;
    }
    assert AllOf(r, IsPhoneChar) by {
      AllPhoneChars(p1, x);
      AllPhoneChars(p1 + x, ") ");
      AllPhoneChars(p1 + x + ") ", y);
      AllPhoneChars(p1 + x + ") " + y, "-");
      AllPhoneChars(p1 + x + ") " + y + "-", z);
    }
    assert !IsWhiteSpace(r[0]);
  }
}

=== FILE: work_order_screen.dfy ===
/** The work-order screen (`WorkOrderViewModel`): the form's validation, the overdue and
    upcoming rules, the duration and total shown on the form, and the edit-mode flags. */
module WorkOrderScreen {
  import opened Results
  import opened Text
  import opened Numerals
  import opened Sorting
  import opened Calendar
  import opened Models
  import opened Lists
  import WorkOrders
  import Numbering

  // ------------------------------------------------------------ rules on one order

  /** Completed or canceled: the two statuses the screen treats as finished. */
  predicate IsFinished(statusId: int) {
    statusId == Completed || statusId == Canceled
  }

  /** `IsOverdue`: scheduled before today and not finished. */
  function IsOverdue(w: WorkOrder, today: int): (b: bool)
    ensures b <==> w.scheduledDate.Some? && DayOf(w.scheduledDate.value) < today && !IsFinished(w.statusId)
  {
    w.scheduledDate.Some? && w.scheduledDate.value < StartOfDay(today)
    && w.statusId != Completed && w.statusId != Canceled
  }

  /** `IsCurrentWorkOrderValid`: customer, description, type, category and status are given,
      and a date in the past is allowed for a completed order only. */
  function IsValid(w: WorkOrder, today: int): (ok: bool)
    ensures ok ==> w.customerId > 0 && !IsBlank(w.description) && w.workOrderTypeId > 0 && w.categoryId > 0 && w.statusId > 0
    ensures ok && w.scheduledDate.Some? && DayOf(w.scheduledDate.value) < today ==> w.statusId == Completed
    ensures ok ==> !IsOverdue(w, today)
  {
    if w.customerId <= 0 then false
    else if IsBlank(w.description) then false
    else if w.workOrderTypeId <= 0 then false
    else if w.categoryId <= 0 then false
    else if w.statusId <= 0 then false
    else if w.scheduledDate.Some? && w.scheduledDate.value < StartOfDay(today) then w.statusId == Completed
    else true
  }

  /** The whole rule: an order is valid exactly when the required fields are given and it
      is undated, dated from today on, or completed. */
  lemma ValidIff(w: WorkOrder, today: int)
    ensures IsValid(w, today) <==>
      && w.customerId > 0 && !IsBlank(w.description) && w.workOrderTypeId > 0 && w.categoryId > 0 && w.statusId > 0
      && (w.scheduledDate.None? || today <= DayOf(w.scheduledDate.value) || w.statusId == Completed)
  {
    if w.scheduledDate.Some? {
      BeforeMidnight(w.scheduledDate.value, today);
    }
  }

  /** A completed order with the required fields is valid, however far in the past it is dated. */
  lemma PastCompletedValid(w: WorkOrder, today: int)
    requires w.customerId > 0 && !IsBlank(w.description) && w.workOrderTypeId > 0 && w.categoryId > 0
    requires w.statusId == Completed
    ensures IsValid(w, today)
  {
  }

  /** A canceled order dated in the past cannot be saved, although it is finished. */
  lemma PastCanceledInvalid(w: WorkOrder, today: int)
    requires w.statusId == Canceled && w.scheduledDate.Some? && DayOf(w.scheduledDate.value) < today
    ensures !IsValid(w, today)
  {
  }

  /** Every order with the required fields and a date from today on is valid, whatever its status. */
  lemma FutureAlwaysValid(w: WorkOrder, today: int)
    requires w.customerId > 0 && !IsBlank(w.description) && w.workOrderTypeId > 0 && w.categoryId > 0 && w.statusId > 0
    requires w.scheduledDate.None? || today <= DayOf(w.scheduledDate.value)
    ensures IsValid(w, today)
  {
    if w.scheduledDate.Some? {
      BeforeMidnight(w.scheduledDate.value, today);
    }
  }

  /** Scheduled strictly after today and no later than `today + days`, and not finished. */
  predicate IsUpcoming(w: WorkOrder, today: int, days: int) {
    && w.scheduledDate.Some?
    && today < DayOf(w.scheduledDate.value) <= today + days
    && !IsFinished(w.statusId)
  }

  /** `GetUpcomingWorkOrders(days)`: the upcoming orders of the loaded list, by date. */
  function GetUpcoming(orders: seq<WorkOrder>, today: int, days: int): (r: seq<WorkOrder>)
    ensures forall w :: w in r <==> w in orders && IsUpcoming(w, today, days)
    ensures forall i :: 0 <= i < |r| ==> IsUpcoming(r[i], today, days)
    ensures forall i, j :: 0 <= i < j < |r| ==>
      r[i].scheduledDate.Some? && r[j].scheduledDate.Some? && r[i].scheduledDate.value <= r[j].scheduledDate.value
  {
    var f := Filter(orders, (w: WorkOrder) => IsUpcoming(w, today, days));
    ByOptionIntTotal(ScheduledKey);
    var r := Sort(f, ByOptionInt(ScheduledKey));
    SortSameElements(f, ByOptionInt(ScheduledKey));
    assert forall i :: 0 <= i < |r| ==> r[i] in f;
    ScheduledAscending(r);
    r
  }

  const ScheduledKey: WorkOrder -> Option<Instant> := (w: WorkOrder) => w.scheduledDate

  /** Among orders that all have a date, the nulls-first order on dates is the order on dates. */
  lemma ScheduledAscending(r: seq<WorkOrder>)
    requires SortedBy(r, ByOptionInt(ScheduledKey))
    requires forall i :: 0 <= i < |r| ==> r[i].scheduledDate.Some?
    ensures forall i, j :: 0 <= i < j < |r| ==> r[i].scheduledDate.value <= r[j].scheduledDate.value
  {
    forall i, j | 0 <= i < j < |r| ensures r[i].scheduledDate.value <= r[j].scheduledDate.value {
      ByOptionIntMeaning(ScheduledKey, r[i], r[j]);
    }
  }

  /** Upcoming and overdue never overlap, and a range of no days has nothing upcoming. */
  lemma UpcomingNotOverdue(orders: seq<WorkOrder>, today: int, days: int)
    ensures forall w :: w in GetUpcoming(orders, today, days) ==> !IsOverdue(w, today)
    ensures days <= 0 ==> forall w :: w !in GetUpcoming(orders, today, days)
  {
  }

  // ------------------------------------------------------------ what the form shows

  /** C#'s `(int)` of a decimal: truncation toward zero. */
  function Truncate(x: real): (n: int)
    ensures x >= 0.0 ==> n >= 0 && n as real <= x < n as real + 1.0
    ensures x < 0.0 ==> n <= 0 && n as real - 1.0 < x <= n as real
  {
    if x >= 0.0 then x.Floor else -((-x).Floor)
  }

  /** C#'s `/` on `int`: the quotient truncated toward zero. */
  function Quot(a: int, b: int): int
    requires b > 0
  {
    if a >= 0 then a / b else -((-a) / b)
  }

  /** C#'s `%` on `int`: the remainder takes the sign of the dividend. */
  function Rem(a: int, b: int): (r: int)
    requires b > 0
    ensures a == b * Quot(a, b) + r
    ensures a >= 0 ==> 0 <= r < b
    ensures a < 0 ==> -b < r <= 0
  {
    a - b * Quot(a, b)
  }

  /** `n.ToString()`. */
  function IntText(n: int): string {
    if n < 0 then "-" + NatToString(-n) else NatToString(n)
  }

  /** `FormatDuration`: "N/A" without hours, otherwise the whole minutes as `MinutesText`. */
  function FormatDuration(hours: Option<real>): (r: string)
    requires hours.Some? ==> IsInt32(Truncate(hours.value * 60.0))
    ensures hours.None? <==> r == "N/A"
  {
    if hours.None? then "N/A" else MinutesText(Truncate(hours.value * 60.0))
  }

  /** A count of minutes as "Hh Mm", or as "Mm" when there is not a whole positive hour. */
  function MinutesText(total: int): (r: string)
    ensures |r| > 0 && r[|r| - 1] == 'm'
  {
    var hrs := Quot(total, 60);
    var mins := Rem(total, 60);
    if hrs > 0 then IntText(hrs) + "h " + IntText(mins) + "m" else IntText(mins) + "m"
  }

  /** For a non-negative count the text reads back as the count: an hours numeral and a
      minutes numeral below 60, or the minutes alone below an hour. */
  lemma MinutesTextReadsBack(m: int) returns (hs: string, ms: string)
    requires m >= 0
    ensures && AllDigits(hs) && AllDigits(ms) && ValueOf(ms) < 60
      && (m >= 60 ==> MinutesText(m) == hs + "h " + ms + "m" && ValueOf(hs) * 60 + ValueOf(ms) == m)
      && (m < 60 ==> MinutesText(m) == ms + "m" && ValueOf(ms) == m)
  {
    assert Quot(m, 60) == m / 60 && Rem(m, 60) == m % 60;
    hs := NatToString(m / 60);
    ms := NatToString(m % 60);
    assert IntText(m / 60) == hs && IntText(m % 60) == ms;
  }

  /** For non-negative hours the text reads back as the whole minutes. */
  lemma FormatDurationReadsBack(h: real) returns (hs: string, ms: string)
    requires h >= 0.0 && IsInt32(Truncate(h * 60.0))
    ensures var m := Truncate(h * 60.0);
      && AllDigits(hs) && AllDigits(ms) && ValueOf(ms) < 60
      && (m >= 60 ==> FormatDuration(Some(h)) == hs + "h " + ms + "m" && ValueOf(hs) * 60 + ValueOf(ms) == m)
      && (m < 60 ==> FormatDuration(Some(h)) == ms + "m" && ValueOf(ms) == m)
  {
    var m := Truncate(h * 60.0);
    hs, ms := MinutesTextReadsBack(m);
  }

  /** A non-positive count shows only the remainder of its minutes, however many hours it spans. */
  lemma MinutesTextNonPositive(m: int)
    requires m <= 0
    ensures MinutesText(m) == IntText(Rem(m, 60)) + "m" && -60 < Rem(m, 60) <= 0
  {
    assert Quot(m, 60) <= 0;
  }

  /** A negative duration loses its hours: only the (non-positive) minutes remain, so
      minus ninety minutes shows as "-30m". */
  lemma NegativeDurationDropsHours(h: real)
    requires h < 0.0 && IsInt32(Truncate(h * 60.0))
    ensures var m := Truncate(h * 60.0);
      FormatDuration(Some(h)) == IntText(Rem(m, 60)) + "m" && -60 < Rem(m, 60) <= 0
  {
    MinutesTextNonPositive(Truncate(h * 60.0));
  }

  /** `GetWorkOrderItemsTotal`: the sum of `Quantity * UnitPrice` over the items. */
  function ItemsTotal(items: seq<WorkOrderItem>): (t: real)
    ensures (forall i :: 0 <= i < |items| ==> items[i].quantity >= 0.0 && items[i].unitPrice >= 0.0) ==> t >= 0.0
  {
    if |items| == 0 then 0.0 else ItemsTotal(items[..|items| - 1]) + items[|items| - 1].TotalPrice()
  }

  /** The total is additive, so adding an item raises it by that item's price. */
  lemma {:induction false} ItemsTotalAppend(a: seq<WorkOrderItem>, b: seq<WorkOrderItem>)
    ensures ItemsTotal(a + b) == ItemsTotal(a) + ItemsTotal(b)
    decreases |b|
  {
    if |b| == 0 {
      assert a + b == a;
    } else {
      assert (a + b)[..|a + b| - 1] == a + b[..|b| - 1];
      ItemsTotalAppend(a, b[..|b| - 1]);
    }
  }

  // ------------------------------------------------------------ the form and its flags

  datatype Screen = Screen(
    orders: seq<WorkOrder>,
    selected: Option<WorkOrder>,
    current: WorkOrder,
    isEdit: bool,
    isNew: bool)
  {
    predicate CanEdit() { isEdit || isNew }
    predicate CanDelete() { selected.Some? && !isNew && !isEdit }
    predicate CanAddItems() { selected.Some? && CanEdit() }
    /** Never both editing and creating. */
    predicate Exclusive() { !(isEdit && isNew) }
  }

  function CanSave(s: Screen, today: int): bool {
    s.CanEdit() && IsValid(s.current, today)
  }

  /** An editor together with the database it talks to. */
  datatype Step = Step(screen: Screen, db: Db)

  /** `new WorkOrder()`. */
  function NewOrder(c: Clock): (w: WorkOrder)
    ensures w.id == 0 && w.customerId == 0 && IsBlank(w.number) && IsBlank(w.description) && w.isActive
  {
    WorkOrder(0, "", 0, "", 0, 0, 0, None, None, None, None, None, None, None, "", None, None, c.Now(), None, "", true)
  }

  /** `PrepareForNewWorkOrder`: an unscheduled form with the first type and category listed
      (or 1), creating on, editing off, nothing selected. */
  function PrepareForNew(s: Screen, firstTypeId: Option<int>, firstCategoryId: Option<int>, user: string, c: Clock): (r: Screen)
    ensures r.isNew && !r.isEdit && r.selected.None? && r.orders == s.orders
    ensures r.current.statusId == Unscheduled && r.current.id == 0 && r.current.isActive && r.current.createdBy == user
    ensures r.CanEdit() && !r.CanDelete() && !r.CanAddItems() && r.Exclusive()
  {
    var w := NewOrder(c).(workOrderTypeId := firstTypeId.GetOr(1), categoryId := firstCategoryId.GetOr(1),
      statusId := Unscheduled, createdDate := c.Now(), createdBy := user, isActive := true);
    s.(current := w, isNew := true, isEdit := false, selected := None)
  }

  /** The fresh form cannot be saved until a customer and a description are entered. */
  lemma NewFormNotSavable(s: Screen, firstTypeId: Option<int>, firstCategoryId: Option<int>, user: string, c: Clock, today: int)
    ensures !CanSave(PrepareForNew(s, firstTypeId, firstCategoryId, user, c), today)
  {
  }

  /** Setting `SelectedWorkOrder`: outside editing the form follows the selection. Setting
      the same order again re-copies it here, where `SetProperty` skips an unchanged value;
      the two differ only when the form has drifted from the selection. */
  function Select(s: Screen, w: Option<WorkOrder>): (r: Screen)
    ensures r.selected == w && r.orders == s.orders && r.isEdit == s.isEdit && r.isNew == s.isNew
    ensures w.Some? && !s.CanEdit() ==> r.current == w.value
    ensures s.CanEdit() || w.None? ==> r.current == s.current
  {
    if w.Some? && !s.isEdit && !s.isNew then s.(selected := w, current := w.value) else s.(selected := w)
  }

  /** `StartEditingWorkOrder`: the form becomes a copy of the selection, every field but the
      modification date, and editing starts. */
  function StartEditing(s: Screen): (r: Screen)
    ensures s.selected.None? ==> r == s
    ensures s.selected.Some? ==>
      && r.current == s.selected.value.(modifiedDate := None)
      && r.isEdit && !r.isNew && r.selected == s.selected && r.orders == s.orders
    ensures s.Exclusive() ==> r.Exclusive()
  {
    if s.selected.None? then s
    else s.(current := s.selected.value.(modifiedDate := None), isEdit := true, isNew := false)
  }

  /** `SaveWorkOrderAsync`. An invalid form, or a service error, changes nothing. A new order
      goes to the top of the list; an updated one replaces the first listed order with its id.
      The saved order is selected and both flags are cleared. */
  function Save(s: Screen, db: Db, today: int, c: Clock): (r: Step)
    ensures !IsValid(s.current, today) ==> r == Step(s, db)
    ensures r.screen != s ==> !r.screen.isEdit && !r.screen.isNew && r.screen.selected.Some? && r.screen.Exclusive()
    ensures IsValid(s.current, today) && s.isNew ==>
      var o := WorkOrders.Create(db, s.current, c);
      (o.result.Ok? ==> r.screen.orders == [o.result.value] + s.orders && r.screen.selected == Some(o.result.value)
                        && r.db == o.db)
      && (o.result.Err? ==> r == Step(s, db))
    ensures IsValid(s.current, today) && !s.isNew ==>
      var o := WorkOrders.Update(db, s.current, c);
      (o.result.Ok? ==> r.screen.orders == ReplaceFirst(s.orders, SameId(OrderId, o.result.value), o.result.value)
                        && r.screen.selected == Some(o.result.value) && r.db == o.db)
      && (o.result.Err? ==> r == Step(s, db))
  {
    if !IsValid(s.current, today) then Step(s, db)
    else if s.isNew then
      var o := WorkOrders.Create(db, s.current, c);
      if o.result.Err? then Step(s, db)
      else
        var saved := o.result.value;
        Step(s.(orders := [saved] + s.orders, selected := Some(saved), current := saved, isEdit := false, isNew := false), o.db)
    else
      var o := WorkOrders.Update(db, s.current, c);
      if o.result.Err? then Step(s, db)
      else
        var saved := o.result.value;
        Step(s.(orders := ReplaceFirst(s.orders, SameId(OrderId, saved), saved), selected := Some(saved),
                isEdit := false, isNew := false), o.db)
  }

  function OrderId(w: WorkOrder): int {
    w.id
  }

  /** After a successful save the order can be deleted but not edited until editing starts again. */
  lemma SaveEnablesDelete(s: Screen, db: Db, today: int, c: Clock)
    requires Save(s, db, today, c).screen != s
    ensures var r := Save(s, db, today, c).screen; r.CanDelete() && !r.CanEdit()
  {
  }

  /** While the year's numbers are canonical and below 9999, saving a new valid form whose
      number is blank succeeds, and the order is listed first. */
  lemma SaveNewBlankNumber(s: Screen, db: Db, today: int, c: Clock)
    requires s.isNew && IsValid(s.current, today) && IsBlank(s.current.number)
    requires WorkOrders.CanonicalYear(db, c)
    ensures var r := Save(s, db, today, c);
      |r.screen.orders| == |s.orders| + 1 && r.screen.selected == Some(r.screen.orders[0])
      && r.screen.orders[0].id in r.db.workOrders
  {
    WorkOrders.CreateAgreesBelow9999(db, s.current, c);
  }

  /** Once `WO<year>-10000` exists and `WO<year>-9999` is the greatest number as a string,
      saving a new form with a blank number fails: the screen and the database stay as they were. */
  lemma SaveNewBlankAfter10000(s: Screen, db: Db, today: int, c: Clock)
    requires s.isNew && IsValid(s.current, today) && IsBlank(s.current.number)
    requires Numbering.Last(WorkOrders.AllNumbers(db.workOrders), c) == Some(Numbering.Prefix(c) + "-9999")
    requires NumberTaken(db.workOrders, Numbering.Prefix(c) + "-10000")
    ensures Save(s, db, today, c) == Step(s, db)
  {
    WorkOrders.CreateBlankFailsAfter10000(db, s.current, c);
  }

  /** `CancelEditing`: a new form is discarded, an edit falls back to the selection; both
      flags are cleared and the list and selection stay. */
  function Cancel(s: Screen, c: Clock): (r: Screen)
    ensures !r.isEdit && !r.isNew && r.orders == s.orders && r.selected == s.selected
    ensures s.isNew ==> r.current == NewOrder(c)
    ensures !s.isNew && s.selected.Some? ==> r.current == s.selected.value
    ensures !s.isNew && s.selected.None? ==> r.current == s.current
  {
    var w := if s.isNew then NewOrder(c) else if s.selected.Some? then s.selected.value else s.current;
    s.(current := w, isEdit := false, isNew := false)
  }

  /** `DeleteWorkOrderAsync`: without a selection or a confirmation nothing happens; when the
      service deletes the order it leaves the list, and the selection and form are cleared. */
  function Delete(s: Screen, db: Db, confirmed: bool, c: Clock): (r: Step)
    ensures s.selected.None? || !confirmed ==> r == Step(s, db)
    ensures s.selected.Some? && confirmed ==>
      (r.screen.selected.None? <==> s.selected.value.id in db.workOrders)
    ensures r.screen.selected.Some? ==> r == Step(s, db)
    ensures r.screen.selected.None? && s.selected.Some? ==>
      && r.screen.orders == RemoveFirst(s.orders, s.selected.value) && r.screen.current == NewOrder(c)
      && r.db == WorkOrders.Delete(db, s.selected.value.id, c).db
  {
    if s.selected.None? || !confirmed then Step(s, db)
    else
      var o := WorkOrders.Delete(db, s.selected.value.id, c);
      if o.result == Ok(true) then
        Step(s.(orders := RemoveFirst(s.orders, s.selected.value), selected := None, current := NewOrder(c)), o.db)
      else Step(s, db)
  }

  /** The test "is this very order", used to find the list entry of a selection. */
  function SameOrder(w: WorkOrder): WorkOrder -> bool {
    x => x == w
  }

  /** `UpdateStatus`: the selected order gets the status, and the current time as its
      completion date when the status is Completed; the change is written through the
      service (its failure is not observed). The source mutates the selected object in
      place, so every holder of that object sees the change: the list, whose entry equal
      to the old value is replaced here, and, outside editing, the form, which the
      selection handler made the selected object itself. While editing, the form is a
      copy and keeps its values. */
  function UpdateStatus(s: Screen, db: Db, statusId: int, c: Clock): (r: Step)
    ensures s.selected.None? ==> r == Step(s, db)
    ensures r.screen.isEdit == s.isEdit && r.screen.isNew == s.isNew
    ensures s.selected.Some? ==>
      var w := s.selected.value;
      && r.screen.selected.Some?
      && r.screen.orders == ReplaceFirst(s.orders, SameOrder(w), r.screen.selected.value)
      && |r.screen.orders| == |s.orders|
      && (w in s.orders ==> r.screen.selected.value in r.screen.orders)
      && (!s.CanEdit() && s.current == w ==> r.screen.current == r.screen.selected.value)
      && (s.CanEdit() || s.current != w ==> r.screen.current == s.current)
    ensures s.selected.Some? ==>
      var w := s.selected.value;
      && r.screen.selected.Some?
      && r.screen.selected.value.statusId == statusId
      && (statusId == Completed ==> r.screen.selected.value.completedDate == Some(c.Now()))
      && (statusId != Completed ==> r.screen.selected.value.completedDate == w.completedDate)
      && r.screen.selected.value == w.(statusId := r.screen.selected.value.statusId,
                                       completedDate := r.screen.selected.value.completedDate)
      && r.db == WorkOrders.Update(db, r.screen.selected.value, c).db
  {
    if s.selected.None? then Step(s, db)
    else
      var w := s.selected.value;
      var w' := w.(statusId := statusId, completedDate := if statusId == Completed then Some(c.Now()) else w.completedDate);
      var o := WorkOrders.Update(db, w', c);
      var form := if !s.CanEdit() && s.current == w then w' else s.current;
      var orders := ReplaceFirst(s.orders, SameOrder(w), w');
      assert w in s.orders ==> w' in orders by {
        if w in s.orders {
          var k :| 0 <= k < |s.orders| && s.orders[k] == w;
          assert SameOrder(w)(s.orders[k]);
          var i := FirstIndex(s.orders, SameOrder(w)).value;
          assert orders[i] == w';
        }
      }
      Step(s.(selected := Some(w'), orders := orders, current := form), o.db)
  }

  /** Completing an order through the status command stores it completed and no longer overdue. */
  lemma CompleteStopsOverdue(s: Screen, db: Db, c: Clock, today: int)
    requires s.selected.Some? && s.selected.value.id in db.workOrders
    ensures var r := UpdateStatus(s, db, Completed, c);
      var stored := r.db.workOrders[s.selected.value.id];
      stored.statusId == Completed && stored.completedDate == Some(c.Now()) && !IsOverdue(stored, today)
  {
  }
}

=== FILE: work_orders.dfy ===
/** `WorkOrderService`: work orders and their line items over the database.
    Every read filters out soft-deleted rows; create, update and delete are
    database transformers. */
module WorkOrders {
  import opened Results
  import opened Text
  import opened Sorting
  import opened Tables
  import opened Calendar
  import opened Models
  import opened Numbering

  // ------------------------------------------------------------ orderings

  /** `OrderByDescending(w => w.CreatedDate)`. */
  const NewestFirst: (WorkOrder, WorkOrder) -> bool := ByIntDesc((w: WorkOrder) => w.createdDate)

  /** `OrderBy(w => w.ScheduledDate).ThenBy(w => w.ScheduledStartTime)`. */
  const BySchedule: (WorkOrder, WorkOrder) -> bool :=
    ThenBy(ByOptionInt((w: WorkOrder) => w.scheduledDate), ByOptionInt((w: WorkOrder) => w.scheduledStartTime))

  /** The last name of the order's technician; null when it has none. */
  function TechnicianLastName(db: Db, w: WorkOrder): Option<string> {
    if w.technicianId.Some? && w.technicianId.value in db.technicians
    then Some(db.technicians[w.technicianId.value].lastName) else None
  }

  /** `OrderBy(w => w.ScheduledStartTime).ThenBy(w => w.Technician.LastName)`. */
  function ByStartThenTechnician(db: Db): (WorkOrder, WorkOrder) -> bool {
    ThenBy(ByOptionInt((w: WorkOrder) => w.scheduledStartTime), ByOptionText((w: WorkOrder) => TechnicianLastName(db, w)))
  }

  lemma ByScheduleTotal()
    ensures TotalPreorder(BySchedule)
  {
    ByOptionIntTotal((w: WorkOrder) => w.scheduledDate);
    ByOptionIntTotal((w: WorkOrder) => w.scheduledStartTime);
    ThenByTotal(ByOptionInt((w: WorkOrder) => w.scheduledDate), ByOptionInt((w: WorkOrder) => w.scheduledStartTime));
  }

  lemma OrderingsTotal(db: Db)
    ensures TotalPreorder(NewestFirst) && TotalPreorder(BySchedule) && TotalPreorder(ByStartThenTechnician(db))
  {
    ByIntDescTotal((w: WorkOrder) => w.createdDate);
    ByOptionIntTotal((w: WorkOrder) => w.scheduledDate);
    ByOptionIntTotal((w: WorkOrder) => w.scheduledStartTime);
    ThenByTotal(ByOptionInt((w: WorkOrder) => w.scheduledDate), ByOptionInt((w: WorkOrder) => w.scheduledStartTime));
    ByOptionTextTotal((w: WorkOrder) => TechnicianLastName(db, w));
    ThenByTotal(ByOptionInt((w: WorkOrder) => w.scheduledStartTime), ByOptionText((w: WorkOrder) => TechnicianLastName(db, w)));
  }

  // ------------------------------------------------------------ reads

  /** `GetAllWorkOrdersAsync`: the active orders, newest first. */
  function GetAll(db: Db): (r: seq<WorkOrder>)
    ensures forall w :: w in r <==> w in db.workOrders.Values && w.isActive
    ensures forall i, j :: 0 <= i < j < |r| ==> r[i].createdDate >= r[j].createdDate
  {
    OrderingsTotal(db);
    Select(db.workOrders, Live, NewestFirst)
  }

  /** Not soft-deleted. */
  predicate Live(w: WorkOrder) {
    w.isActive
  }

  /** Counting the full list counts the active orders that pass, one per key. */
  lemma CountAll(db: Db, p: WorkOrder -> bool)
    ensures CountWhere(GetAll(db), p) == |KeysWhere(db.workOrders, Both(Live, p))|
    ensures |GetAll(db)| == |KeysWhere(db.workOrders, Live)|
  {
    CountSelect(db.workOrders, Live, NewestFirst, p);
    SelectSize(db.workOrders, Live, NewestFirst);
  }

  /** `GetWorkOrderByIdAsync`: a soft-deleted order is not found. */
  function GetById(db: Db, id: int): (r: Option<WorkOrder>)
    ensures r.Some? ==> id in db.workOrders && r.value == db.workOrders[id] && r.value.isActive
    ensures r.None? ==> id !in db.workOrders || !db.workOrders[id].isActive
  {
    if id in db.workOrders && db.workOrders[id].isActive then Some(db.workOrders[id]) else None
  }

  /** `GetWorkOrderByNumberAsync`: the first active order carrying `number`. */
  function GetByNumber(db: Db, number: string): (r: Option<WorkOrder>)
    ensures r.Some? ==> r.value in db.workOrders.Values && r.value.number == number && r.value.isActive
    ensures r.None? <==> forall k :: k in db.workOrders ==> db.workOrders[k].number != number || !db.workOrders[k].isActive
  {
    var found := Filter(Rows(db.workOrders), (w: WorkOrder) => w.number == number && w.isActive);
    if |found| == 0 then
      assert forall k :: k in db.workOrders ==> db.workOrders[k] in db.workOrders.Values;
      None
    else
      assert found[0] in found;
      Some(found[0])
  }

  /** The numbers of all orders, soft-deleted ones included, as the generator reads them. */
  function AllNumbers(orders: map<int, WorkOrder>): (r: seq<string>)
    ensures forall n :: n in r <==> NumberTaken(orders, n)
  {
    var rows := Rows(orders);
    var r := seq(|rows|, i requires 0 <= i < |rows| => rows[i].number);
    assert forall n :: n in r ==> NumberTaken(orders, n) by {
      forall n | n in r ensures NumberTaken(orders, n) {
        var i :| 0 <= i < |r| && r[i] == n;
        assert rows[i] in orders.Values;
      }
    }
    assert forall n :: NumberTaken(orders, n) ==> n in r by {
      forall n | NumberTaken(orders, n) ensures n in r {
        var k :| k in orders && orders[k].number == n;
        assert orders[k] in orders.Values;
        var i :| 0 <= i < |rows| && rows[i] == orders[k];
        assert r[i] == n;
      }
    }
    r
  }

  // ------------------------------------------------------------ writes

  /** Inserting an order under `number`: the database assigns the id, the order is stamped
      and activated, and the unique index refuses a number already in use by an active or a
      soft-deleted order. */
  function InsertNumbered(db: Db, w: WorkOrder, number: string, c: Clock): (o: Outcome<WorkOrder>)
    ensures o.result.Ok? <==> !NumberTaken(db.workOrders, number)
    ensures o.result.Err? ==> o.db == db && o.result.error == DuplicateNumber(number)
    ensures o.result.Ok? ==>
      var row := o.result.value;
      && row.id !in db.workOrders
      && row == w.(id := row.id, number := number, createdDate := c.Now(), isActive := true)
      && o.db == db.(workOrders := db.workOrders[row.id := row])
  {
    if NumberTaken(db.workOrders, number) then
      Outcome(db, Err(DuplicateNumber(number)))
    else
      var id := NextId(db.workOrders);
      var row := w.(id := id, number := number, createdDate := c.Now(), isActive := true);
      Outcome(db.(workOrders := db.workOrders[id := row]), Ok(row))
  }

  /** `CreateWorkOrderAsync`. A given number is kept; a blank one is replaced by what
      `GenerateWorkOrderNumberAsync` returns, as written. Either is refused by the unique
      index when it is already in use, so a blank-number create fails whenever the
      generator re-issues a taken number. */
  function Create(db: Db, w: WorkOrder, c: Clock): (o: Outcome<WorkOrder>)
    ensures !IsBlank(w.number) ==> (o.result.Ok? <==> !NumberTaken(db.workOrders, w.number))
    ensures IsBlank(w.number) ==>
      (o.result.Ok? <==> !NumberTaken(db.workOrders, GenerateAsWritten(AllNumbers(db.workOrders), c)))
    ensures o.result.Err? ==> o.db == db && o.result.error.DuplicateNumber?
    ensures o.result.Ok? ==>
      var row := o.result.value;
      && row.id !in db.workOrders
      && row == w.(id := row.id, number := row.number, createdDate := c.Now(), isActive := true)
      && (!IsBlank(w.number) ==> row.number == w.number)
      && (IsBlank(w.number) ==> row.number == GenerateAsWritten(AllNumbers(db.workOrders), c))
      && !NumberTaken(db.workOrders, row.number)
      && o.db == db.(workOrders := db.workOrders[row.id := row])
  {
    var number := if IsBlank(w.number) then GenerateAsWritten(AllNumbers(db.workOrders), c) else w.number;
    InsertNumbered(db, w, number, c)
  }

  /** The create the generator evidently intends: a blank number is replaced by one past
      the highest serial of the year, which is never in use, so a blank-number create
      always succeeds. */
  function CreateIntended(db: Db, w: WorkOrder, c: Clock): (o: Outcome<WorkOrder>)
    ensures IsBlank(w.number) ==> o.result.Ok?
    ensures !IsBlank(w.number) ==> (o.result.Ok? <==> !NumberTaken(db.workOrders, w.number))
    ensures o.result.Ok? && IsBlank(w.number) ==>
      SuffixValue(o.result.value.number, Prefix(c)) == Some(MaxSerial(AllNumbers(db.workOrders), Prefix(c)) + 1)
  {
    var number := if IsBlank(w.number) then NextNumber(AllNumbers(db.workOrders), c) else w.number;
    InsertNumbered(db, w, number, c)
  }

  /** The numbers of the current year are all canonical `WO<year>-dddd` with serials below 9999. */
  predicate CanonicalYear(db: Db, c: Clock) {
    forall k :: k in db.workOrders && StartsWith(db.workOrders[k].number, Prefix(c)) ==>
      IsCanonical(db.workOrders[k].number, Prefix(c)) && Serial(db.workOrders[k].number, Prefix(c)) < 9999
  }

  /** While the year's numbers are canonical and below 9999, the service as written and the
      intended create behave alike, and a blank-number create succeeds. */
  lemma CreateAgreesBelow9999(db: Db, w: WorkOrder, c: Clock)
    requires CanonicalYear(db, c)
    ensures Create(db, w, c) == CreateIntended(db, w, c)
    ensures IsBlank(w.number) ==> Create(db, w, c).result.Ok?
  {
    var numbers := AllNumbers(db.workOrders);
    var p := Prefix(c);
    if IsBlank(w.number) {
      assert forall x :: x in numbers && StartsWith(x, p) ==> IsCanonical(x, p) && Serial(x, p) < 9999 by {
        forall x | x in numbers && StartsWith(x, p) ensures IsCanonical(x, p) && Serial(x, p) < 9999 {
          assert NumberTaken(db.workOrders, x);
          var k :| k in db.workOrders && db.workOrders[k].number == x;
        }
      }
      if exists x :: x in numbers && StartsWith(x, p) {
        NextNumberAgrees(numbers, c);
      } else {
        NextNumberFirst(numbers, c);
      }
    }
  }

  /** The finding, at the service: once the greatest number of the year as a string is
      `WO<year>-9999` and `WO<year>-10000` exists, every blank-number create is refused. */
  lemma CreateBlankFailsAfter10000(db: Db, w: WorkOrder, c: Clock)
    requires IsBlank(w.number)
    requires Last(AllNumbers(db.workOrders), c) == Some(Prefix(c) + "-9999")
    requires NumberTaken(db.workOrders, Prefix(c) + "-10000")
    ensures Create(db, w, c) == Outcome(db, Err(DuplicateNumber(Prefix(c) + "-10000")))
    ensures CreateIntended(db, w, c).result.Ok?
  {
    GenerateAfterLast9999(AllNumbers(db.workOrders), c);
  }

  /** `UpdateWorkOrderAsync`. The lookup ignores `IsActive`, so a soft-deleted order can be
      updated; the status is copied as given, with no transition rule. */
  function Update(db: Db, w: WorkOrder, c: Clock): (o: Outcome<WorkOrder>)
    ensures o.result.Err? <==> w.id !in db.workOrders
    ensures o.result.Err? ==> o.db == db && o.result.error == NotFound(w.id)
    ensures o.result.Ok? ==>
      var old_ := db.workOrders[w.id];
      var row := o.result.value;
      && o.db == db.(workOrders := db.workOrders[w.id := row])
      // the fields the form edits are taken from the input ...
      && row.description == w.description && row.workOrderTypeId == w.workOrderTypeId
      && row.categoryId == w.categoryId && row.statusId == w.statusId
      && row.technicianId == w.technicianId && row.scheduledDate == w.scheduledDate
      && row.scheduledStartTime == w.scheduledStartTime && row.endTime == w.endTime
      && row.estimatedHours == w.estimatedHours && row.actualHours == w.actualHours
      && row.completedDate == w.completedDate && row.notes == w.notes
      && row.estimatedCost == w.estimatedCost && row.actualCost == w.actualCost
      && row.modifiedDate == Some(c.Now())
      // ... and identity, number, customer, creation and activity are kept.
      && row.id == old_.id && row.number == old_.number && row.customerId == old_.customerId
      && row.createdDate == old_.createdDate && row.createdBy == old_.createdBy
      && row.isActive == old_.isActive
  {
    if w.id !in db.workOrders then Outcome(db, Err(NotFound(w.id)))
    else
      var e := db.workOrders[w.id];
      var row := e.(
        description := w.description, workOrderTypeId := w.workOrderTypeId,
        categoryId := w.categoryId, statusId := w.statusId, technicianId := w.technicianId,
        scheduledDate := w.scheduledDate, scheduledStartTime := w.scheduledStartTime,
        endTime := w.endTime, estimatedHours := w.estimatedHours, actualHours := w.actualHours,
        completedDate := w.completedDate, notes := w.notes, estimatedCost := w.estimatedCost,
        actualCost := w.actualCost, modifiedDate := Some(c.Now()));
      Outcome(db.(workOrders := db.workOrders[w.id := row]), Ok(row))
  }

  /** `DeleteWorkOrderAsync`: a soft delete. An unknown id gives false. */
  function Delete(db: Db, id: int, c: Clock): (o: Outcome<bool>)
    ensures o.result == Ok(id in db.workOrders)
    ensures id !in db.workOrders ==> o.db == db
    ensures id in db.workOrders ==>
      o.db == db.(workOrders := db.workOrders[id := db.workOrders[id].(isActive := false, modifiedDate := Some(c.Now()))])
  {
    if id !in db.workOrders then Outcome(db, Ok(false))
    else
      var e := db.workOrders[id];
      Outcome(db.(workOrders := db.workOrders[id := e.(isActive := false, modifiedDate := Some(c.Now()))]), Ok(true))
  }

  // ------------------------------------------------------------ queries

  /** The fields `SearchWorkOrdersAsync` looks in for the (lowered, trimmed) term:
      number, description, the customer's names and company, the technician's names
      and the notes, each lowered. */
  predicate SearchMatch(db: Db, w: WorkOrder, term: string) {
    || Contains(ToLower(w.number), term)
    || Contains(ToLower(w.description), term)
    || (w.customerId in db.customers &&
        var cu := db.customers[w.customerId];
        Contains(ToLower(cu.firstName), term) || Contains(ToLower(cu.lastName), term)
        || Contains(ToLower(cu.companyName), term))
    || (w.technicianId.Some? && w.technicianId.value in db.technicians &&
        var t := db.technicians[w.technicianId.value];
        Contains(ToLower(t.firstName), term) || Contains(ToLower(t.lastName), term))
    || Contains(ToLower(w.notes), term)
  }

  /** `SearchWorkOrdersAsync`: a blank term lists everything; otherwise the active orders
      matching `searchTerm.ToLower().Trim()`, newest first. */
  function Search(db: Db, searchTerm: string): (r: seq<WorkOrder>)
    ensures IsBlank(searchTerm) ==> r == GetAll(db)
    ensures !IsBlank(searchTerm) ==>
      forall w :: w in r <==> w in db.workOrders.Values && w.isActive && SearchMatch(db, w, Trim(ToLower(searchTerm)))
    ensures forall i, j :: 0 <= i < j < |r| ==> r[i].createdDate >= r[j].createdDate
  {
    if IsBlank(searchTerm) then GetAll(db)
    else
      var term := Trim(ToLower(searchTerm));
      OrderingsTotal(db);
      Select(db.workOrders, (w: WorkOrder) => w.isActive && SearchMatch(db, w, term), NewestFirst)
  }

  /** The search term is never empty once the blank case is set aside, so an empty
      (or null) field never matches. */
  lemma SearchTermNotEmpty(searchTerm: string)
    requires !IsBlank(searchTerm)
    ensures |Trim(ToLower(searchTerm))| > 0
    ensures !Contains("", Trim(ToLower(searchTerm)))
  {
    ToLowerKeepsBlank(searchTerm);
  }

  /** Every search result is one of the orders the full list shows. */
  lemma SearchWithinAll(db: Db, searchTerm: string)
    ensures forall w :: w in Search(db, searchTerm) ==> w in GetAll(db)
  {
  }

  /** `GetWorkOrdersByCustomerAsync`: that customer's active orders, newest first. */
  function ByCustomer(db: Db, customerId: int): (r: seq<WorkOrder>)
    ensures forall w :: w in r <==> w in db.workOrders.Values && w.isActive && w.customerId == customerId
    ensures forall i, j :: 0 <= i < j < |r| ==> r[i].createdDate >= r[j].createdDate
  {
    OrderingsTotal(db);
    Select(db.workOrders, (w: WorkOrder) => w.customerId == customerId && w.isActive, NewestFirst)
  }

  /** `GetWorkOrdersByStatusAsync`: active orders in that status, newest first. */
  function ByStatus(db: Db, statusId: int): (r: seq<WorkOrder>)
    ensures forall w :: w in r <==> w in db.workOrders.Values && w.isActive && w.statusId == statusId
    ensures forall i, j :: 0 <= i < j < |r| ==> r[i].createdDate >= r[j].createdDate
  {
    OrderingsTotal(db);
    Select(db.workOrders, (w: WorkOrder) => w.statusId == statusId && w.isActive, NewestFirst)
  }

  /** `GetWorkOrdersByTechnicianAsync`: that technician's active orders by schedule. */
  function ByTechnician(db: Db, technicianId: int): (r: seq<WorkOrder>)
    ensures forall w :: w in r <==> w in db.workOrders.Values && w.isActive && w.technicianId == Some(technicianId)
    ensures SortedBy(r, BySchedule)
  {
    OrderingsTotal(db);
    Select(db.workOrders, (w: WorkOrder) => w.technicianId == Some(technicianId) && w.isActive, BySchedule)
  }

  /** The order is scheduled on a day between `first` and `last`, both included. */
  predicate ScheduledBetween(w: WorkOrder, first: int, last: int) {
    w.scheduledDate.Some? && first <= DayOf(w.scheduledDate.value) <= last
  }

  /** `GetWorkOrdersByDateRangeAsync`: active orders whose scheduled date (ignoring the
      time of day) lies in `[startDate.Date, endDate.Date]`, by schedule. */
  function ByDateRange(db: Db, startDate: Instant, endDate: Instant): (r: seq<WorkOrder>)
    ensures forall w :: w in r <==>
      w in db.workOrders.Values && w.isActive && ScheduledBetween(w, DayOf(startDate), DayOf(endDate))
    ensures SortedBy(r, BySchedule)
  {
    OrderingsTotal(db);
    Select(db.workOrders, (w: WorkOrder) => w.isActive && ScheduledBetween(w, DayOf(startDate), DayOf(endDate)), BySchedule)
  }

  /** `GetScheduledWorkOrdersAsync`: active orders scheduled on the same day as `date`,
      by start time and then technician (orders without a technician first). */
  function ScheduledOn(db: Db, date: Instant): (r: seq<WorkOrder>)
    ensures forall w :: w in r <==>
      w in db.workOrders.Values && w.isActive && w.scheduledDate.Some? && DayOf(w.scheduledDate.value) == DayOf(date)
    ensures SortedBy(r, ByStartThenTechnician(db))
  {
    OrderingsTotal(db);
    Select(db.workOrders,
      (w: WorkOrder) => w.isActive && w.scheduledDate.Some? && DayOf(w.scheduledDate.value) == DayOf(date),
      ByStartThenTechnician(db))
  }

  /** A one-day range holds the same orders as the day's schedule. */
  lemma OneDayRange(db: Db, date: Instant)
    ensures forall w :: w in ByDateRange(db, date, date) <==> w in ScheduledOn(db, date)
  {
  }

  /** A range that ends on an earlier day than it starts is empty. */
  lemma ReversedRangeEmpty(db: Db, startDate: Instant, endDate: Instant)
    requires DayOf(endDate) < DayOf(startDate)
    ensures ByDateRange(db, startDate, endDate) == []
  {
  }

  // ------------------------------------------------------------ properties of the writes

  /** Every work order is stored under its own id. */
  predicate OrdersKeyed(orders: map<int, WorkOrder>) {
    forall k :: k in orders ==> orders[k].id == k
  }

  /** Create keeps every row under its own key. */
  lemma CreateKeepsKeys(db: Db, w: WorkOrder, c: Clock)
    requires WellKeyed(db)
    ensures WellKeyed(Create(db, w, c).db)
  {
    var o := Create(db, w, c);
    if o.result.Ok? {
      WellKeyedWithOrder(db, o.result.value);
    }
  }

  /** Create keeps the work-order numbers unique. */
  lemma CreateKeepsNumbersUnique(db: Db, w: WorkOrder, c: Clock)
    requires NumbersUnique(db)
    ensures NumbersUnique(Create(db, w, c).db)
  {
    var o := Create(db, w, c);
    if o.result.Ok? {
      var row := o.result.value;
      var m := o.db.workOrders;
      assert m == db.workOrders[row.id := row];
      forall j, k | j in m && k in m && j != k ensures m[j].number != m[k].number {
        if j == row.id {
          assert k in db.workOrders;
        } else if k == row.id {
          assert j in db.workOrders;
        }
      }
    }
  }

  /** A created order can be read back by id and by number. */
  lemma CreateThenGet(db: Db, w: WorkOrder, c: Clock)
    requires NumbersUnique(db)
    requires Create(db, w, c).result.Ok?
    ensures var o := Create(db, w, c);
      GetById(o.db, o.result.value.id) == Some(o.result.value)
      && GetByNumber(o.db, o.result.value.number) == Some(o.result.value)
      && o.result.value in GetAll(o.db)
  {
    var o := Create(db, w, c);
    var row := o.result.value;
    assert o.db.workOrders[row.id] == row;
    forall k | k in o.db.workOrders && k != row.id ensures o.db.workOrders[k].number != row.number {
      assert k in db.workOrders;
    }
    var g := GetByNumber(o.db, row.number).value;
    var k :| k in o.db.workOrders && o.db.workOrders[k] == g;
  }

  /** Update keeps the number, so it keeps the numbers unique and keys in place. */
  lemma UpdatePreserves(db: Db, w: WorkOrder, c: Clock)
    requires WellKeyed(db) && NumbersUnique(db)
    ensures WellKeyed(Update(db, w, c).db) && NumbersUnique(Update(db, w, c).db)
  {
    forall kind ensures Update(db, w, c).db.Lookups(kind) == db.Lookups(kind) {
    }
  }

  /** Updating a soft-deleted order succeeds but does not bring it back. */
  lemma UpdateKeepsDeletedHidden(db: Db, w: WorkOrder, c: Clock)
    requires w.id in db.workOrders && !db.workOrders[w.id].isActive
    ensures Update(db, w, c).result.Ok?
    ensures GetById(Update(db, w, c).db, w.id) == None
  {
  }

  /** A deleted order disappears from every read: by id, by number and the full list. */
  lemma DeleteHides(db: Db, id: int, c: Clock)
    requires OrdersKeyed(db.workOrders) && NumbersUnique(db) && id in db.workOrders
    ensures var d := Delete(db, id, c).db;
      && GetById(d, id) == None
      && GetByNumber(d, db.workOrders[id].number) == None
      && forall w :: w in GetAll(d) ==> w.id != id
  {
    var d := Delete(db, id, c).db;
    var n := db.workOrders[id].number;
    forall k | k in d.workOrders ensures d.workOrders[k].number != n || !d.workOrders[k].isActive {
      if k != id {
        assert db.workOrders[k].number != n;
      }
    }
  }

  /** Deleting twice at the same moment is deleting once, and both report success. */
  lemma DeleteIdempotent(db: Db, id: int, c: Clock)
    requires id in db.workOrders
    ensures var o := Delete(db, id, c);
      Delete(o.db, id, c) == Outcome(o.db, Ok(true))
  {
  }

  /** Delete keeps every row under its own key and numbers unique. */
  lemma DeletePreserves(db: Db, id: int, c: Clock)
    requires WellKeyed(db) && NumbersUnique(db)
    ensures WellKeyed(Delete(db, id, c).db) && NumbersUnique(Delete(db, id, c).db)
  {
    forall kind ensures Delete(db, id, c).db.Lookups(kind) == db.Lookups(kind) {
    }
  }

  // ------------------------------------------------------------ line items

  /** `GetWorkOrderItemsAsync`: the active items of one order, oldest first. */
  function GetItems(db: Db, workOrderId: int): (r: seq<WorkOrderItem>)
    ensures forall i :: i in r <==> i in db.workOrderItems.Values && i.isActive && i.workOrderId == workOrderId
    ensures forall a, b :: 0 <= a < b < |r| ==> r[a].createdDate <= r[b].createdDate
  {
    ByIntTotal((i: WorkOrderItem) => i.createdDate);
    Select(db.workOrderItems, (i: WorkOrderItem) => i.workOrderId == workOrderId && i.isActive,
      ByInt((i: WorkOrderItem) => i.createdDate))
  }

  /** `AddWorkOrderItemAsync`: stamped, activated, with a fresh id. */
  function AddItem(db: Db, item: WorkOrderItem, c: Clock): (o: Outcome<WorkOrderItem>)
    ensures o.result.Ok?
    ensures var row := o.result.value;
      && row.id !in db.workOrderItems
      && row == item.(id := row.id, createdDate := c.Now(), isActive := true)
      && o.db == db.(workOrderItems := db.workOrderItems[row.id := row])
  {
    var id := NextId(db.workOrderItems);
    var row := item.(id := id, createdDate := c.Now(), isActive := true);
    Outcome(db.(workOrderItems := db.workOrderItems[id := row]), Ok(row))
  }

  /** `UpdateWorkOrderItemAsync`: copies description, quantity, price, part number and notes. */
  function UpdateItem(db: Db, item: WorkOrderItem): (o: Outcome<WorkOrderItem>)
    ensures o.result.Err? <==> item.id !in db.workOrderItems
    ensures o.result.Err? ==> o.db == db && o.result.error == NotFound(item.id)
    ensures o.result.Ok? ==>
      var old_ := db.workOrderItems[item.id];
      var row := o.result.value;
      && o.db == db.(workOrderItems := db.workOrderItems[item.id := row])
      && row.description == item.description && row.quantity == item.quantity
      && row.unitPrice == item.unitPrice && row.partNumber == item.partNumber && row.notes == item.notes
      && row.id == old_.id && row.workOrderId == old_.workOrderId
      && row.createdDate == old_.createdDate && row.isActive == old_.isActive
  {
    if item.id !in db.workOrderItems then Outcome(db, Err(NotFound(item.id)))
    else
      var e := db.workOrderItems[item.id];
      var row := e.(description := item.description, quantity := item.quantity, unitPrice := item.unitPrice,
        partNumber := item.partNumber, notes := item.notes);
      Outcome(db.(workOrderItems := db.workOrderItems[item.id := row]), Ok(row))
  }

  /** `DeleteWorkOrderItemAsync`: a soft delete with no modification stamp. */
  function DeleteItem(db: Db, itemId: int): (o: Outcome<bool>)
    ensures o.result == Ok(itemId in db.workOrderItems)
    ensures itemId !in db.workOrderItems ==> o.db == db
    ensures itemId in db.workOrderItems ==>
      o.db == db.(workOrderItems := db.workOrderItems[itemId := db.workOrderItems[itemId].(isActive := false)])
  {
    if itemId !in db.workOrderItems then Outcome(db, Ok(false))
    else Outcome(db.(workOrderItems := db.workOrderItems[itemId := db.workOrderItems[itemId].(isActive := false)]), Ok(true))
  }

  /** An added item is listed with its order. */
  lemma AddItemListed(db: Db, item: WorkOrderItem, c: Clock)
    ensures var o := AddItem(db, item, c);
      o.result.value in GetItems(o.db, item.workOrderId)
  {
    var o := AddItem(db, item, c);
    assert o.db.workOrderItems[o.result.value.id] == o.result.value;
  }

  /** A deleted item is no longer listed with its order. */
  lemma DeleteItemUnlisted(db: Db, itemId: int, workOrderId: int)
    requires forall k :: k in db.workOrderItems ==> db.workOrderItems[k].id == k
    ensures forall i :: i in GetItems(DeleteItem(db, itemId).db, workOrderId) ==> i.id != itemId
  {
  }
}
